=== FILE: README.md ===
# DRI core in Dafny

A model of the deterministic core of the Deteriorating Resident Index (DRI)
tools for aged-care facilities. The DRI of a resident is the number of
active deficit indicators out of a catalogue of 33, banded Low, Medium, High
or Very High. Around that score, the Streamlit pages and scripts hold small
pieces of pure logic, and this project models them:

- **Scoring**: the exact score n/33, its four-decimal rounding, the severity
  bands, and the history page's /32 variant.
- **Comparison**: the negation-aware whole-word keyword detector, and the
  both / only-LLM / only-rules split.
- **ReviewQueue**: the review workflow as a state machine. The item is
  PENDING, APPROVED or REJECTED, with three per-item page flags.
- **History**: the decision counts and the persistent / fluctuating split.
- **DriAnalysis**: how the resident context and indicator catalogue are
  formatted, how the template is filled, and how `run_llm_analysis`
  short-circuits.
- **RuleConfig**: rule version numbering, save-as-new-version, how stored
  rule fields are normalised into the editor, the editor's values, and the
  per-client assignment upsert.
- **PromptEngineering**: prompt version numbering, token-mode selection,
  code-fence stripping, extraction of the JSON span, and repair of truncated
  JSON.
- **FeedbackLoop**: reject rates and their traffic lights, the WHERE and
  time filters, the indicator text, placeholder filling, and fenced-JSON
  extraction.
- **BatchTesting**: production settings, batch selection, per-resident
  accounting, and the ground-truth harvest.
- **Observability**: indicator-set comparison and the aggregation of
  evaluation metrics.
- **EvaluationJob**: the resident-id round trip through the dataset query,
  the precedence of configuration sources, average latency, and the status
  poll.
- **SubstringDetector** and **FirstTermScript**: the two stand-alone keyword
  scripts.

`Wrappers` holds Option and Result. `Text` holds the Python string
operations the code relies on, over ASCII: lower, strip, find, split, join,
replace, `\w`/`\s` and int/str conversions.

Database queries, LLM answers, clocks and environment variables are
parameters. A query result is a sequence of rows. An LLM call is an outcome
value: an answer, no rows, or an exception text. Scores are exact reals.

Where the code and its own description differ, the model follows the code:

- `_extract_resident_id` applies the regular expression `resident (\d+)`. It
  takes the leftmost "resident " that is followed by a digit, not simply the
  first "resident " (evaluation_job/evaluate_dri.py:200).
- The ground-truth evidence uses `COALESCE(notes, 'No notes')`. An empty,
  non-NULL note therefore stays empty (app_pages/batch_testing.py:475).
- On the feedback page the time filter is not part of the WHERE text. It is
  added separately to the rejection queries (app_pages/feedback_loop.py:100-104).

## Model

| member | source | states |
|---|---|---|
| Scoring.Score | dri-intelligence/app_pages/comparison.py:72-73 | the exact score of n indicators times 33 is n; it lies in [0,1] for n ≤ 33, is 0 for none and 1 for all 33 |
| Scoring.Severity | dri-intelligence/app_pages/comparison.py:75-83 | the band of n/33 by count, in both directions: Low exactly for 0-6, Medium for 7-13, High for 14-19, Very High from 20 on |
| Scoring.Round4Units | dri-intelligence/app_pages/comparison.py:72-73 | `round(n/33, 4)` scaled by 10^4 is the integer nearest n·10000/33 (never a tie, so half-to-even never applies) |
| Scoring.RoundedScore | dri-intelligence/app_pages/comparison.py:72-73 | the rounded score is in [0,1], 0 for none and 1 for all, and within 0.00005 of the exact score |
| Scoring.RoundingKeepsBand | dri-intelligence/app_pages/comparison.py:72-83 | four-decimal rounding never moves a /33 score across a band threshold |
| Scoring.HistorySeverityBand | dri-intelligence/app_pages/resident_history.py:7-15 | the history page pairs each band with its emoji: Low exactly up to 0.2, Medium exactly in (0.2, 0.4], High exactly in (0.4, 0.6] and Very High exactly above 0.6 |
| Scoring.HistoryScore | dri-intelligence/app_pages/resident_history.py:71 | the history page's score times 32 (not 33) is the active count; 0 with none active |
| Scoring.HistoryBand | dri-intelligence/app_pages/resident_history.py:7-15 | the /32 band by count, both directions: Low 0-6, Medium 7-12, High 13-19, Very High from 20 |
| Scoring.AnalysisDriScore | dri-intelligence/src/dri_analysis.py:160-182 | (score, band, count) with score·33 = count and the band of the score; the given count when a row exists, (0.0, Low, 0) when none |
| Scoring.BandMonotone | dri-intelligence/src/dri_analysis.py:171-178 | a higher score never yields a lower band |
| Scoring.BandIntervals | dri-intelligence/src/dri_analysis.py:171-178 | each band is exactly the interval between consecutive thresholds 0.2, 0.4 and 0.6, upper ends included |
| Scoring.DocumentedTableWrongAt20 | dri-intelligence/app_pages/comparison.py:517-520 | the printed help table puts 20 indicators in High, but 20/33 rounds to more than 0.6 and the code reports Very High |
| Scoring.EmojiInjective | dri-intelligence/app_pages/resident_history.py:7-15 | each band has its own emoji |
| Scoring.HistoryAndQueueDisagreeOnlyAt13 | dri-intelligence/app_pages/resident_history.py:71 | dividing by 32 instead of 33 changes the band at exactly one count, 13 |
| Comparison.Clean | dri-intelligence/app_pages/comparison.py:92 | cleaning keeps the length and turns every character that is neither a word character nor whitespace into a space, leaving only word characters and whitespace |
| Comparison.FindWordSpec | dri-intelligence/app_pages/comparison.py:127-128 | the whole-word search (`\b…\b`) returns the leftmost match from the start position, and -1 exactly when there is none |
| Comparison.OccurrencesAreMatches | dri-intelligence/app_pages/comparison.py:127-128 | every position `finditer` reports for the keyword lies at or after the search start and is a whole-word match |
| Comparison.OccurrencesApart | dri-intelligence/app_pages/comparison.py:127-128 | the reported positions increase and consecutive matches do not overlap, since each search resumes at the previous match's end |
| Comparison.OccurrencesCover | dri-intelligence/app_pages/comparison.py:127-128 | every whole-word match is reported by `finditer` or overlaps one that is |
| Comparison.AnyWordSpec | dri-intelligence/app_pages/comparison.py:134-135 | the negation test holds exactly when some phrase of the list occurs as a whole word in the window |
| Comparison.CountedStarts | dri-intelligence/app_pages/comparison.py:123-125 | a keyword shorter than two characters after lower-casing and stripping has no counted occurrence |
| Comparison.CountedStartsSpec | dri-intelligence/app_pages/comparison.py:128-141 | for a keyword of two or more characters, an occurrence is counted exactly when it is reported and no negation phrase occurs in the 50 cleaned characters before or after it |
| Comparison.MatchedSpec | dri-intelligence/app_pages/comparison.py:122-141 | a keyword counts exactly when it has at least two characters and some reported occurrence of it is not negated |
| Comparison.KeywordHits | dri-intelligence/app_pages/comparison.py:137-141 | a keyword yields hits exactly when it counts, and each hit carries the normalised keyword |
| Comparison.HitsFor | dri-intelligence/app_pages/comparison.py:138-141 | each counted occurrence gives one hit with the original text from 30 characters before to 30 after, clipped |
| Comparison.RowHitsKeywords | dri-intelligence/app_pages/comparison.py:119-143 | the keywords recorded for a row are exactly the set of its counted keywords |
| Comparison.Distinct | dri-intelligence/app_pages/comparison.py:143 | `list(set(xs))`: the same elements, without repetitions, as many as the set has |
| Comparison.StripQuotes | dri-intelligence/app_pages/comparison.py:115 | stripping quotes leaves no quote at either end and changes nothing when there is none |
| Comparison.ParseKeywords | dri-intelligence/app_pages/comparison.py:105-117 | an absent column gives no keywords; a list is used as is; text starting with '[' uses the parsed JSON, and when JSON rejects it, the text between the brackets split on commas with whitespace and then quotes stripped from each piece; other text is split on commas and stripped |
| Comparison.BracketFallbackRoundTrip | dri-intelligence/app_pages/comparison.py:110-115 | bracketed keywords that JSON rejects, written bare or each in single or double quotes (`['a','b']`), are read back exactly when they are trimmed, comma-free and neither start nor end with a quote |
| Comparison.CommaTextRoundTrip | dri-intelligence/app_pages/comparison.py:110-117 | comma-joined keywords that are trimmed, comma-free and do not start with '[' are read back exactly |
| Comparison.DetectRow | dri-intelligence/app_pages/comparison.py:100-152 | one row's entry: its id and name, match_count = number of distinct counted keywords, detected iff that count is positive, at most 5 matches and 5 keywords, all listed keywords counted and all counted keywords listed when there are at most 5 |
| Comparison.RunDetection | dri-intelligence/app_pages/comparison.py:100-154 | the result has exactly one entry per deficit id of the rows |
| Comparison.RunDetectionLastWins | dri-intelligence/app_pages/comparison.py:145 | when an id repeats, the last row with that id determines its entry |
| Comparison.DetectedIds | dri-intelligence/app_pages/comparison.py:386-396 | the ids compared are exactly the entries flagged detected |
| Comparison.Compare | dri-intelligence/app_pages/comparison.py:386-396 | both, only-LLM and only-rules are pairwise disjoint, their union is the union of both detections, and each side is recovered from its parts |
| Comparison.SourcePhrasesWithPunctuationAreDead | dri-intelligence/app_pages/comparison.py:92-135 | "-ve" and "doesn't have" never occur as whole words in the cleaned windows, whatever the text |
| Comparison.PunctuatedPhraseNeverMatches | dri-intelligence/app_pages/comparison.py:134-135 | a phrase holding a character that is neither a word character nor whitespace never matches in cleaned text |
| Comparison.CleanPhrasesCanMatch | dri-intelligence/app_pages/comparison.py:94-98 | every phrase of the corrected lists matches itself as a whole word, so none is dead |
| Comparison.SingleOccurrenceCounted | dri-intelligence/app_pages/comparison.py:128-141 | with a single reported occurrence, a keyword counts exactly when that occurrence is not negated |
| Comparison.DoesntHaveExample | dri-intelligence/app_pages/comparison.py:92-141 | in "doesn't have asthma" the page counts "asthma"; with the corrected phrase list it does not |
| ReviewQueue.Upsert | dri-intelligence/app_pages/review_queue.py:204-208 | storing a selection under its id keeps ids distinct, replaces an entry with the same id and otherwise adds one, and keeps every other entry |
| ReviewQueue.Collect | dri-intelligence/app_pages/review_queue.py:176-208 | the selection map has one entry per ticked id among the shown indicators, holding the values of the last tick for that id |
| ReviewQueue.WithReasons | dri-intelligence/app_pages/review_queue.py:220 | dropping blank reasons keeps exactly the entries with a reason and keeps ids distinct |
| ReviewQueue.PickedRejections | dri-intelligence/app_pages/review_queue.py:178-224 | the stored selections are, for the first 15 indicators, exactly the last ticks that carry a reason; ids are distinct |
| ReviewQueue.RecalculateEnabled | dri-intelligence/app_pages/review_queue.py:219-228 | Recalculate is enabled exactly when some shown indicator's last tick carries a non-empty reason |
| ReviewQueue.IdSeq | dri-intelligence/app_pages/review_queue.py:232 | the excluded ids are the selection keys, in order |
| ReviewQueue.RejectAllNotes | dri-intelligence/app_pages/review_queue.py:284-285 | the "Reject All" notes start with "REJECTED - ", are a prefix of the full summary of at most 4000 characters, and are the whole summary when it fits |
| ReviewQueue.ApproveNewNotes | dri-intelligence/app_pages/review_queue.py:315-316 | the "Approve New DRI" notes start with "APPROVED with ", are a prefix of the full summary and have at most 4000 characters |
| ReviewQueue.EscapeSqlRoundTrip | dri-intelligence/app_pages/review_queue.py:276-285 | for every text without backslashes, doubling quotes is undone when the database reads the single-quoted literal back |
| ReviewQueue.BackslashAsWritten | dri-intelligence/app_pages/review_queue.py:276-285 | quote doubling does not protect backslashes: a reason ending in a backslash is no longer one literal, and the characters backslash and n are stored as a line break |
| ReviewQueue.EscapeLiteralRoundTrip | dri-intelligence/app_pages/review_queue.py:276-285 | doubling backslashes as well as quotes makes every text read back unchanged |
| ReviewQueue.StoredNotesBounded | dri-intelligence/app_pages/review_queue.py:285 | truncation comes before quoting, so notes without backslashes read back unchanged and are at most 4000 characters |
| ReviewQueue.StoredRows | dri-intelligence/app_pages/review_queue.py:275-282 | the rejection rows stored are at most one per selection: a row is kept, with its name and reason as the database reads them back, exactly when both literals can be read |
| ReviewQueue.StoredRowsMembers | dri-intelligence/app_pages/review_queue.py:275-282 | every stored row comes from a selection whose INSERT succeeded, and every such selection's row is stored |
| ReviewQueue.PlainRowsStored | dri-intelligence/app_pages/review_queue.py:275-282 | selections whose names and reasons hold no backslash are all stored exactly as typed |
| ReviewQueue.ReadThenBackslash | dri-intelligence/app_pages/review_queue.py:284-296 | a complete literal body followed by one backslash is no longer a literal: the backslash escapes the closing quote |
| ReviewQueue.QuotableBackslash | dri-intelligence/app_pages/review_queue.py:284-296 | backslash-free text is stored as typed, and the same text with a trailing backslash cannot be stored at all |
| ReviewQueue.DoRejectAll | dri-intelligence/app_pages/review_queue.py:274-302 | "Reject All" stores the rows of the selections whose INSERT succeeds; when the notes can be stored the item becomes REJECTED with the excluded ids and the stored notes, keeping score and indicators; when they cannot, the UPDATE fails and the item keeps every field; the three flags are cleared either way |
| ReviewQueue.DoApproveNew | dri-intelligence/app_pages/review_queue.py:305-336 | "Approve New DRI" stores the rows of the selections whose INSERT succeeds; when the notes can be stored the item becomes APPROVED with the selection keys excluded, indicators added = accepted count, score·33 = accepted count with its band, and the stored notes; when they cannot, the item keeps every field; the three flags are cleared either way |
| ReviewQueue.Step | dri-intelligence/app_pages/review_queue.py:143-365 | a button works exactly when the page offers it for a PENDING item (Recalculate only with a reason); the item stays PENDING, unchanged, exactly after navigation or an UPDATE whose notes cannot be stored; otherwise approvals end APPROVED and rejections REJECTED; navigation writes nothing: Reject Some turns reject mode on and empties the selections, Back clears every flag, Recalculate records the ticked indicators and turns the recalculated view on, Edit Selections turns that view off; Approve All, Approve and Reject leave the flags alone, and the two recalculated-view actions store rejection rows and clear the flags |
| ReviewQueue.PlainRejectNotes | dri-intelligence/app_pages/review_queue.py:354-364 | the no-indicator reject stores "No specific reason provided" for empty notes and otherwise the notes as read back; backslash-free notes are stored as typed and end REJECTED; notes that cannot be stored leave the item unchanged |
| ReviewQueue.TrailingBackslashStaysPending | dri-intelligence/app_pages/review_queue.py:274-302 | with one selection whose reason ends in a backslash, "Reject All" leaves the item PENDING with all its fields, yet the page clears its flags |
| ReviewQueue.Load | dri-intelligence/app_pages/review_queue.py:136-141 | a freshly shown item starts with all flags cleared, which satisfies the flags invariant |
| ReviewQueue.RunPreservesInv | dri-intelligence/app_pages/review_queue.py:143-336 | along any sequence of offered buttons: flags are only set in reject mode, recalculation needs selections, selections are distinct, reasoned and drawn from the 15 shown, and a finished item has cleared flags |
| ReviewQueue.AcceptedCountBounds | dri-intelligence/app_pages/review_queue.py:232-236 | in the recalculated view 0 ≤ accepted < number of indicators, and, when the notes can be stored, the new band is the band of accepted/33 |
| History.SelectMember | dri-intelligence/app_pages/resident_history.py:67-69 | a row filter keeps a decision exactly when it is among the rows and has the value in that column |
| History.SelectExcludePartition | dri-intelligence/app_pages/resident_history.py:91-92 | `==` and `!=` on one column split the rows: every row lands on exactly one side, as often as it occurs |
| History.DistinctValuesCount | dri-intelligence/app_pages/resident_history.py:67-68 | two different values of the same column count disjoint rows |
| History.DecisionCounts | dri-intelligence/app_pages/resident_history.py:62-69 | all counts are zero without decisions; otherwise active and expired are the occurrences of ACTIVE and EXPIRED in the STATUS column and rejected those of REJECTED in DECISION_TYPE, so active + expired is at most the number of rows |
| History.SelectCount | dri-intelligence/app_pages/resident_history.py:67-69 | the rows a column filter keeps are as many as the occurrences of the value in that column |
| History.RejectedMayOverlapActive | dri-intelligence/app_pages/resident_history.py:67-69 | one ACTIVE decision of type REJECTED is counted both as active and as rejected |
| History.Summarize | dri-intelligence/app_pages/resident_history.py:62-72 | the header shows the counts, score·32 = active count, the /32 band with its emoji, and Low with 0.0 when there are no decisions |
| History.ActiveTabs | dri-intelligence/app_pages/resident_history.py:88-92 | the persistent tab holds only active persistent decisions and the fluctuating tab only active non-persistent ones |
| History.ActiveTabsPartition | dri-intelligence/app_pages/resident_history.py:88-92 | the two tabs together show every active decision exactly once, and their sizes add up to the active count |
| DriAnalysis.NotesLines | dri-intelligence/src/dri_analysis.py:92-96 | every note contributes exactly three lines, and the middle line of note k is its "Note: " line |
| DriAnalysis.ContextEmptyIff | dri-intelligence/src/dri_analysis.py:79-138 | the context text is empty if and only if all four clinical queries return no rows, which is what makes the "Failed to retrieve resident context" exit happen |
| DriAnalysis.NotInOtherSection | dri-intelligence/src/dri_analysis.py:90-136 | no header can appear inside another header's section, because every row line starts with 'D', 'N' or '-' |
| DriAnalysis.ContextLinesTagged | dri-intelligence/src/dri_analysis.py:92-136 | every row line of each of the four sections starts with 'D', 'N' or '-' |
| DriAnalysis.HeadersIff | dri-intelligence/src/dri_analysis.py:90-136 | each section header is among the context parts if and only if its own query returned rows |
| DriAnalysis.NotesLinesShape | dri-intelligence/src/dri_analysis.py:94-96 | every note line is non-empty and starts with 'D', 'N' or '-' |
| DriAnalysis.NotesLinesMember | dri-intelligence/src/dri_analysis.py:94-96 | any single member of the note lines starts with 'D', 'N' or '-' |
| DriAnalysis.SectionLineShown | dri-intelligence/src/dri_analysis.py:138 | joining with newlines keeps every line of a section visible in the text, whatever comes before or after it |
| DriAnalysis.NoteShown | dri-intelligence/src/dri_analysis.py:82-96 | each of the first 15 notes shows in the context as "Note: " plus at most its first 500 characters |
| DriAnalysis.MedicationShown | dri-intelligence/src/dri_analysis.py:98-108 | each of the first 20 medications shows in the context as "- name (route) - Status: status" |
| DriAnalysis.ObservationShown | dri-intelligence/src/dri_analysis.py:110-122 | each of the first 30 observations shows in the context, with its value cut to at most 100 characters |
| DriAnalysis.FormShown | dri-intelligence/src/dri_analysis.py:124-136 | each of the first 30 form answers shows in the context, with its response cut to at most 200 characters |
| DriAnalysis.ContextPartCount | dri-intelligence/src/dri_analysis.py:79-138 | the context has one part per non-empty section header plus three per note and one per other row, after the limits 15, 20, 30 and 30 |
| DriAnalysis.ExpiryText | dri-intelligence/src/dri_analysis.py:154 | the expiry shows "N/A (chronic)" exactly when the days are NULL or 0; positive days show as their decimal digits |
| DriAnalysis.RagTextShowsEach | dri-intelligence/src/dri_analysis.py:148-158 | with at least one indicator the catalogue text is non-empty and every indicator's block occurs in it |
| DriAnalysis.RagTextEmptyIff | dri-intelligence/src/dri_analysis.py:140-158 | the catalogue text is empty exactly when the indicator table has no rows |
| DriAnalysis.FillWithoutSlots | dri-intelligence/src/dri_analysis.py:35-41 | a template holding none of the three placeholders is sent unchanged |
| DriAnalysis.FillCascades | dri-intelligence/src/dri_analysis.py:35-41 | the replacements cascade: a config text holding the resident-context placeholder gets the context put into it, and the indicator placeholder inside that context is filled in turn |
| DriAnalysis.FillSlots | dri-intelligence/src/dri_analysis.py:35-41 | when the filled-in values hold no later placeholder, each placeholder is replaced by exactly its value |
| DriAnalysis.PromptQueryFor | dri-intelligence/src/dri_analysis.py:12-21 | a given non-empty version selects that version's prompt; a missing or empty one selects the active prompt |
| DriAnalysis.RecordedVersion | dri-intelligence/src/dri_analysis.py:67 | the recorded version is never empty: "v1.0" when none or an empty one is given, otherwise the version that selected the prompt |
| DriAnalysis.RunLlmAnalysis | dri-intelligence/src/dri_analysis.py:5-77 | exactly one of response and error is set; an empty context or no prompt row stops before the LLM call with its message; the SQL-escaped text sent reads back as the filled template whenever that has no backslash; a stored row exists exactly when a response is returned and carries the resident, client, model and recorded version; a response is returned exactly when the LLM answered and the insert succeeded, and it is the LLM's text; a raising LLM call gives its message as the error, a failed insert gives the insert's error and no row; no result rows give "No response from LLM" |
| DriAnalysis.NoRowsShortCircuits | dri-intelligence/src/dri_analysis.py:5-8 | a resident with no clinical rows gets the context error and nothing is sent |
| RuleConfig.NextRuleVersion | dri-intelligence/app_pages/configuration.py:306-312 | a missing or empty current version, or one without a dash, offers the deficit's first version "<deficit>-0001"; the page raises (`int()` fails) exactly when the version has a dash and its second dash-separated piece is not a numeral |
| RuleConfig.MalformedVersionRaises | dri-intelligence/app_pages/configuration.py:308-310 | a version "P-T" with dash-free parts whose T is not a numeral makes the next version an error |
| RuleConfig.SplitVersion | dri-intelligence/app_pages/configuration.py:309-310 | a version "P-NNNN" with a dash-free prefix splits at the dash into exactly the prefix and the digits |
| RuleConfig.NextOfPadded | dri-intelligence/app_pages/configuration.py:307-311 | the version after "P-NNNN" is "P-" followed by n+1 padded to four digits, and both carry their numbers n and n+1 |
| RuleConfig.NextVersionCounts | dri-intelligence/app_pages/configuration.py:307-311 | whenever the current version carries a number, the next version is offered without error and carries that number plus one |
| RuleConfig.FirstVersion | dri-intelligence/app_pages/configuration.py:311-312 | a deficit with no version starts at "<deficit>-0001", which carries the number 1 |
| RuleConfig.Demote | dri-intelligence/app_pages/configuration.py:349-353 | the UPDATE keeps every row's other columns and leaves a row current exactly when it was current and belongs to another deficit, carries the kept version, or has a NULL version (a NULL comparison does not select the row) |
| RuleConfig.SaveNewVersion | dri-intelligence/app_pages/configuration.py:317-353 | the save is refused with "Please provide a version description" exactly when the description is empty; otherwise the new row is appended as current exactly when its INSERT succeeded, the demoting UPDATE runs either way, other rows keep their columns, and rows of other deficits are untouched |
| RuleConfig.SaveCurrentRows | dri-intelligence/app_pages/configuration.py:331-353 | for every table and INSERT outcome, the deficit's current rows after a save are the new row if it was inserted and exactly those old rows that were current with a NULL version or the new number |
| RuleConfig.ExactlyOneCurrent | dri-intelligence/app_pages/configuration.py:331-353 | after a save whose number is new for the deficit, when no current row of the deficit has a NULL version, the deficit's only current row is the new one if it was inserted, and there is none if the INSERT failed |
| RuleConfig.FailedInsertLeavesNoCurrent | dri-intelligence/app_pages/configuration.py:331-353 | when the INSERT fails the UPDATE still demotes: every row of the deficit that stays current has a NULL version or the new number |
| RuleConfig.QuoteInRulesAsWritten | dri-intelligence/app_pages/configuration.py:322-353 | a rule whose JSON holds an escaped double quote reaches PARSE_JSON with that quote unescaped, so the INSERT fails, and the only version of the deficit is demoted with no current row left |
| RuleConfig.SaveChecked | dri-intelligence/app_pages/configuration.py:317-357 | with the INSERT's outcome checked, the save reports an error exactly when the description is empty or the INSERT failed, and only a successful INSERT is followed by the demoting UPDATE |
| RuleConfig.CheckedSaveKeepsOneCurrent | dri-intelligence/app_pages/configuration.py:322-353 | rules escaped by doubling backslashes as well as quotes read back unchanged; a failed INSERT leaves the table as it was, and a successful one leaves the new row the deficit's only current version |
| RuleConfig.ReusedNumberStaysCurrent | dri-intelligence/app_pages/configuration.py:349-353 | when an older row already carries the new number, the UPDATE's not-equal test leaves both rows current |
| RuleConfig.NullVersionStaysCurrent | dri-intelligence/app_pages/configuration.py:307-353 | a current row with a NULL version is offered "D001-0001" as successor, and the UPDATE's comparison with NULL leaves it current beside the new row |
| RuleConfig.DefaultedChoice | dri-intelligence/app_pages/configuration.py:161-163 | the chosen option is always one of the list: the stored value when it is listed, the default when the field is missing and the default is listed, and otherwise the first option |
| RuleConfig.GuardedChoice | dri-intelligence/app_pages/configuration.py:172-176 | the membership test on the raw field: a listed value is kept, and a missing field always selects the first option, whatever default the lookup names |
| RuleConfig.ChoiceIdempotent | dri-intelligence/app_pages/configuration.py:161-176 | normalising a field that already holds a chosen option keeps it, for both lookups |
| RuleConfig.ChoicesAgreeOnFirstDefault | dri-intelligence/app_pages/configuration.py:241-249 | the two lookups pick the same option whenever the default is the list's first option |
| RuleConfig.MissingSourceTypeAsWritten | dri-intelligence/app_pages/configuration.py:172-176 | a rule without a source type opens on ACTIVE_RESIDENT_MEDICAL_PROFILE, not on the ACTIVE_RESIDENT_NOTES its default names |
| RuleConfig.SourceTypeChoice | dri-intelligence/app_pages/configuration.py:172-176 | with the default honoured, a missing source type opens on ACTIVE_RESIDENT_NOTES and a listed one is kept; the choice is always listed |
| RuleConfig.TwoWayChoice | dri-intelligence/app_pages/configuration.py:155-159 | a two-option field shows its first option exactly for that value, and always one of the two |
| RuleConfig.TwoWayChoices | dri-intelligence/app_pages/configuration.py:94-98 | rule status shows "active" exactly when missing or "active"; deficit type shows FLUCTUATING exactly when not PERSISTENT |
| RuleConfig.ShownThreshold | dri-intelligence/app_pages/configuration.py:181 | a positive number is shown as itself, a digit string as its value, anything else (zero, negatives, non-numerals, missing) as 1 |
| RuleConfig.ShownThresholdMinimum | dri-intelligence/app_pages/configuration.py:181-182 | the shown threshold meets the input's minimum of 1 except for the text "0", which shows as 0 and makes the input fail with "Error parsing rules for editing" |
| RuleConfig.ThresholdInput | dri-intelligence/app_pages/configuration.py:179-184 | the threshold input accepts the shown value exactly when it is at least 1; below the minimum the editor shows "Error parsing rules for editing" instead |
| RuleConfig.LookbackValue | dri-intelligence/app_pages/configuration.py:329 | the lookback is written as NULL exactly for an empty entry or any capitalisation of "none"; otherwise as the quoted entry |
| RuleConfig.LookbackNullIff | dri-intelligence/app_pages/configuration.py:329 | for every entry: NULL exactly for the empty entry or the letters n, o, n, e in any capitalisation ("None", "NONE", "nOnE"); every other entry, "all" included, is written quoted |
| RuleConfig.EditedExpiry | dri-intelligence/app_pages/configuration.py:111-117 | the expiry editor starts at the stored days or 0 for NULL, accepted exactly when within 0..365 |
| RuleConfig.ExpiryShown | dri-intelligence/app_pages/configuration.py:369-371 | a NULL expiry raises a TypeError, since `None > 0` is not allowed; otherwise expiry shows "Never" exactly for days ≤ 0, and the decimal digits of the days for positive ones |
| RuleConfig.Merge | dri-intelligence/app_pages/configuration.py:704-710 | a merge adds at most one row and leaves every row of another client or deficit in place |
| RuleConfig.MergeSpec | dri-intelligence/app_pages/configuration.py:704-710 | after a merge the client's deficit maps to exactly the merged version, every other (client, deficit) pair keeps its versions, and unique keys stay unique |
| RuleConfig.MergeIdempotent | dri-intelligence/app_pages/configuration.py:704-710 | merging the same assignment twice is the same as merging it once |
| RuleConfig.SaveAssignmentsSpec | dri-intelligence/app_pages/configuration.py:702-711 | after saving a page of distinct deficits, each maps to exactly the version chosen for it, and unique keys stay unique |
| RuleConfig.SaveUntouched | dri-intelligence/app_pages/configuration.py:702-711 | a deficit not on the page keeps its versions |
| RuleConfig.AssignedVersion | dri-intelligence/app_pages/configuration.py:544-560 | the looked-up assignment is absent exactly when no row names the deficit, and otherwise is the version of the last row for it (a later row overwrites an earlier one) |
| RuleConfig.SelectedVersion | dri-intelligence/app_pages/configuration.py:558-567 | the pre-selected version is always one of the deficit's versions: the assignment when it is listed, and the first version when there is no assignment |
| PromptEngineering.NextPromptVersion | dri-intelligence/app_pages/prompt_engineering.py:278-283 | with no greatest version the next is "v0001"; the call fails exactly when a greatest version exists and what follows its first character is not a numeral; otherwise the next is "v" with that number plus one, padded to four digits |
| PromptEngineering.DottedVersionBlocksNext | dri-intelligence/app_pages/prompt_engineering.py:274-281 | with "v0001" and "v1.0" stored, text MAX picks "v1.0" and the next version raises; comparing numbers skips "v1.0" and offers "v0002" |
| PromptEngineering.NextPromptOfPadded | dri-intelligence/app_pages/prompt_engineering.py:279-281 | the version after "vNNNN" is "v" with N+1, and it reads back as N+1 |
| PromptEngineering.TextMax | dri-intelligence/app_pages/prompt_engineering.py:274-277 | MAX over text exists exactly when some version exists, and it is one of the stored versions |
| PromptEngineering.TextMaxRepeatsAfter9999 | dri-intelligence/app_pages/prompt_engineering.py:274-281 | once "v9999" and "v10000" are stored, text MAX picks "v9999" and the offered next version is "v10000" again |
| PromptEngineering.MaxValue | dri-intelligence/app_pages/prompt_engineering.py:274-281 | the greatest number is at least the number of every version that carries one |
| PromptEngineering.NextByNumberIsNew | dri-intelligence/app_pages/prompt_engineering.py:274-281 | comparing numbers instead of text, the offered version is never one already stored and carries the greatest number plus one |
| PromptEngineering.ByNumberAfter9999 | dri-intelligence/app_pages/prompt_engineering.py:274-281 | for "v9999" and "v10000" the numeric maximum is 10000, so "v10001" is offered |
| PromptEngineering.ContextThreshold | dri-intelligence/app_pages/prompt_engineering.py:362-369 | the threshold is the stored value unless it is absent or zero, in which case it is 6000 |
| PromptEngineering.ChooseTokens | dri-intelligence/app_pages/prompt_engineering.py:370-375 | large mode exactly when the context is strictly longer than the threshold, with 16384 tokens in large mode and 4096 in standard mode |
| PromptEngineering.TokensMonotone | dri-intelligence/app_pages/prompt_engineering.py:370-375 | a longer context never gets a smaller token budget, and a context exactly at the threshold stays standard |
| PromptEngineering.StripNewlines | dri-intelligence/app_pages/prompt_engineering.py:472 | stripping removes the newline on each side of text that is not blank at either end |
| PromptEngineering.UnfenceRoundTrip | dri-intelligence/app_pages/prompt_engineering.py:465-472 | a reply wrapped in a "```json" or a plain "```" fence is unwrapped to exactly its body |
| PromptEngineering.UnfenceNoFence | dri-intelligence/app_pages/prompt_engineering.py:465-472 | trimmed text with no backtick at either end passes through unchanged |
| PromptEngineering.FirstBrace | dri-intelligence/app_pages/prompt_engineering.py:474 | `find('{')` gives a position holding '{' with none before it, or -1 when there is none |
| PromptEngineering.JsonSpanExists | dri-intelligence/app_pages/prompt_engineering.py:474-477 | a JSON span is cut exactly when some '{' comes before some '}' |
| PromptEngineering.JsonSpanBounds | dri-intelligence/app_pages/prompt_engineering.py:474-477 | the span occurs in the text, starts with '{' at the first '{' and ends with '}' at the last '}' |
| PromptEngineering.Repeat | dri-intelligence/app_pages/prompt_engineering.py:484 | `c * n` holds max(n, 0) copies of c and nothing else |
| PromptEngineering.FixIdentity | dri-intelligence/app_pages/prompt_engineering.py:478-485 | when nothing is left open the repair returns the text unchanged, trailing comma or not |
| PromptEngineering.RepeatCount | dri-intelligence/app_pages/prompt_engineering.py:484 | `c * n` contains n of c when n is positive and none of any other character |
| PromptEngineering.DropCommaCounts | dri-intelligence/app_pages/prompt_engineering.py:482-483 | dropping trailing whitespace and one comma keeps every brace and bracket count |
| PromptEngineering.FixBalancesCounts | dri-intelligence/app_pages/prompt_engineering.py:478-485 | when neither count is negative, the repaired text has as many '}' as '{' and as many ']' as '[' |
| PromptEngineering.UnclosedAppend | dri-intelligence/app_pages/prompt_engineering.py:478-485 | reading two texts one after the other leaves the same stack of unclosed openers as reading their concatenation |
| PromptEngineering.UnclosedClosers | dri-intelligence/app_pages/prompt_engineering.py:478-485 | the closers generated for a stack of openers close all of them |
| PromptEngineering.UnclosedOpeners | dri-intelligence/app_pages/prompt_engineering.py:478-485 | the stack left after reading text holds only openers |
| PromptEngineering.UnclosedPlain | dri-intelligence/app_pages/prompt_engineering.py:478-485 | text without brackets leaves the stack unchanged |
| PromptEngineering.DropCommaUnclosed | dri-intelligence/app_pages/prompt_engineering.py:482-483 | dropping the trailing comma leaves the stack of unclosed openers unchanged |
| PromptEngineering.RepairNestedWellNested | dri-intelligence/app_pages/prompt_engineering.py:478-485 | closing the open brackets innermost first always gives well-nested text when no bracket mismatches |
| PromptEngineering.CutReplyRepairs | dri-intelligence/app_pages/prompt_engineering.py:474-485 | for every reply `{`, key, `[{`, key, `{}` with bracket-free keys, the span cut at the last '}' is the whole reply; the source's repair appends "]}}" and the result is not well nested, while the innermost-first repair appends "}]}" and nests |
| PromptEngineering.FixTruncatedMisnests | dri-intelligence/app_pages/prompt_engineering.py:474-485 | the reachable span `{"a":[{"b":{}` is the whole reply and is repaired to `{"a":[{"b":{}]}}`, which is not well nested; the innermost-first repair gives `{"a":[{"b":{}}]}`, which is |
| FeedbackLoop.RejectRateTenths | dri-intelligence/app_pages/feedback_loop.py:129 | with no reviews the rate is 0; otherwise, in tenths of a percent, it is within half a tenth of 100 times rejected over total |
| FeedbackLoop.RejectRateRange | dri-intelligence/app_pages/feedback_loop.py:126-129 | when the rejected reviews are among the reviews the rate lies in 0..100 percent, is 100 when all are rejected and 0 when none are |
| FeedbackLoop.RejectRateMonotone | dri-intelligence/app_pages/feedback_loop.py:129 | more rejections over the same total never show a lower rate |
| FeedbackLoop.RateStatus | dri-intelligence/app_pages/feedback_loop.py:148-150 | red exactly from 50 percent, yellow exactly from 20 up to 50, green exactly below 20 |
| FeedbackLoop.RateStatusMonotone | dri-intelligence/app_pages/feedback_loop.py:148-150 | a higher rate never shows a milder light |
| FeedbackLoop.WhereClauses | dri-intelligence/app_pages/feedback_loop.py:94-98 | at most the two clauses, version and facility |
| FeedbackLoop.WhereSql | dri-intelligence/app_pages/feedback_loop.py:104 | the WHERE text is empty exactly when there are no clauses, and otherwise starts with "WHERE " |
| FeedbackLoop.WhereShowsFilters | dri-intelligence/app_pages/feedback_loop.py:94-104 | the WHERE text is empty exactly when no version (or an empty one) is chosen and the facility is "All Facilities", and shows every chosen filter |
| FeedbackLoop.TimeFilter | dri-intelligence/app_pages/feedback_loop.py:100-102 | the time filter is empty exactly when no (or a zero) day count is chosen |
| FeedbackLoop.PeriodFilter | dri-intelligence/app_pages/feedback_loop.py:85-102 | only "All Time" leaves rejections unfiltered, and any other period's filter shows its day count |
| FeedbackLoop.KeywordsAsWritten | dri-intelligence/app_pages/feedback_loop.py:305 | the KEYWORDS column as delivered (NULL or the array's JSON text): "N/A" for NULL or empty text, otherwise the text's characters joined with ", ", character i at position 3i and ", " after each but the last |
| FeedbackLoop.KeywordsSpelledOut | dri-intelligence/app_pages/feedback_loop.py:305 | the spelled-out text is never "N/A" and contains no keyword of two or more characters, so `["fall"]` reaches the prompt as `[, ", f, a, l, l, ", ]` |
| FeedbackLoop.KeywordsListText | dri-intelligence/app_pages/feedback_loop.py:305 | a keyword list gives "N/A" when empty, and otherwise every keyword occurs in the joined text |
| FeedbackLoop.KeywordsText | dri-intelligence/app_pages/feedback_loop.py:303-305 | with the column read as a keyword list first, no keywords give "N/A" and every keyword occurs in the line |
| FeedbackLoop.JsonKeywordsShown | dri-intelligence/app_pages/feedback_loop.py:303-305 | an array delivered as JSON text shows each of its keywords, and "N/A" when it is empty |
| FeedbackLoop.RulesTextShowsEach | dri-intelligence/app_pages/feedback_loop.py:301-313 | the indicator text is empty exactly when there are no rules, and every rule's block occurs in it |
| FeedbackLoop.NoBraceNoSlot | dri-intelligence/app_pages/feedback_loop.py:319-325 | text without a '{' holds no placeholder |
| FeedbackLoop.StandInsHaveNoSlot | dri-intelligence/app_pages/feedback_loop.py:319-325 | the stand-in texts for form mappings and resident data hold no placeholder |
| FeedbackLoop.FeedbackFillSlots | dri-intelligence/app_pages/feedback_loop.py:382-388 | each placeholder is replaced by its own text when the indicator text holds no later placeholder |
| FeedbackLoop.SlotsDistinct | dri-intelligence/app_pages/feedback_loop.py:319-325 | no placeholder contains another |
| FeedbackLoop.IndicatorTextIsRescanned | dri-intelligence/app_pages/feedback_loop.py:319-325 | because this page fills the indicator text first, a resident-context placeholder inside it is replaced by the stand-in; the analysis fills it last and leaves it |
| FeedbackLoop.SplitAtOccurrence | dri-intelligence/app_pages/feedback_loop.py:242-245 | splitting at a separator that occurs gives at least two pieces, so the `[1]` index is safe |
| FeedbackLoop.JsonFenceIsFence | dri-intelligence/app_pages/feedback_loop.py:241-245 | a reply holding a "```json" fence also holds a plain fence |
| FeedbackLoop.FencedJson | dri-intelligence/app_pages/feedback_loop.py:241-247 | a reply with no fence is only stripped |
| FeedbackLoop.NoBacktickFind | dri-intelligence/app_pages/feedback_loop.py:241-245 | text without a backtick holds no fence |
| FeedbackLoop.FencedJsonRoundTrip | dri-intelligence/app_pages/feedback_loop.py:241-247 | a reply ending in a body fenced as "```json … ```" parses from exactly the stripped body |
| FeedbackLoop.FencedPlainRoundTrip | dri-intelligence/app_pages/feedback_loop.py:457-462 | without a "```json" fence, a reply ending in a body between plain fences parses from exactly the stripped body |
| Wrappers.TextOr | dri-intelligence/app_pages/batch_testing.py:76-79 | a non-empty stored text is used as it is; a missing or empty one gives the default |
| BatchTesting.BatchSettings | dri-intelligence/app_pages/batch_testing.py:76-102 | the page stops with its message exactly when neither the stored prompt nor the stored prompt of the chosen version is non-empty; otherwise the model, version and threshold are the stored values when truthy and the defaults otherwise, and the prompt text is non-empty |
| BatchTesting.BatchDefaults | dri-intelligence/app_pages/batch_testing.py:76-88 | with nothing stored, a batch runs claude-3-5-sonnet with the version "v1.0" prompt and a threshold of 6000 |
| BatchTesting.Batch | dri-intelligence/app_pages/batch_testing.py:112-131 | no residents is an error; otherwise the batch is a non-empty prefix of the resident list of at most 50, and exactly the chosen count whenever the slider allows it |
| BatchTesting.ResultFor | dri-intelligence/app_pages/batch_testing.py:229-244 | each row names its resident; it reports Success with the answer's time exactly when the query answered, and Failed with 0 ms exactly when it gave no result, which is also what a query that raised gives, since the query helper returns None on any error |
| BatchTesting.CountAnswered | dri-intelligence/app_pages/batch_testing.py:237 | the successful count never exceeds the number of residents |
| BatchTesting.RunBatch | dri-intelligence/app_pages/batch_testing.py:149-244 | one result row per resident in batch order, each the row for that resident's outcome; the successful count is the number of answered queries, and successful plus failed is the batch size |
| BatchTesting.SuccessRowsCount | dri-intelligence/app_pages/batch_testing.py:229-244 | the rows that report success are exactly the answered residents |
| BatchTesting.Evidence | dri-intelligence/app_pages/batch_testing.py:473-476 | an approved review's evidence is the change's reasoning; any other is "REJECTED: " followed by the reviewer notes, or "No notes" when they are NULL |
| BatchTesting.Row | dri-intelligence/app_pages/batch_testing.py:469-479 | a ground-truth row is keyed by the review and the change's indicator, and expects detection exactly when the review was approved |
| BatchTesting.Distinct | dri-intelligence/app_pages/batch_testing.py:469 | SQL DISTINCT keeps exactly the same rows, each once |
| BatchTesting.ReviewRowsMember | dri-intelligence/app_pages/batch_testing.py:481-489 | a review contributes a row exactly for each detected change of a finished review whose pair is not yet in the table |
| BatchTesting.CandidatesMember | dri-intelligence/app_pages/batch_testing.py:466-489 | the candidate rows are exactly the rows some review contributes |
| BatchTesting.HarvestedRows | dri-intelligence/app_pages/batch_testing.py:466-490 | every newly harvested row comes from a detected change of an approved or rejected review, was not yet in the table, and is labelled by that review's decision |
| BatchTesting.HarvestCovers | dri-intelligence/app_pages/batch_testing.py:466-490 | after a harvest, every detected change of every finished review with a deficit id has a row for its review and indicator, and one without a deficit id has had its row inserted |
| BatchTesting.RepeatHarvestOnlyNull | dri-intelligence/app_pages/batch_testing.py:466-490 | for every table, a second harvest with the same reviews can only add rows whose indicator id is NULL |
| BatchTesting.HarvestIdempotent | dri-intelligence/app_pages/batch_testing.py:466-490 | when every detected change of a finished review names its deficit, a second harvest with the same reviews adds nothing |
| BatchTesting.HarvestOne | dri-intelligence/app_pages/batch_testing.py:466-490 | a finished review with one detected change whose pair the table lacks appends exactly that change's row |
| BatchTesting.NullIndicatorHarvestedAgain | dri-intelligence/app_pages/batch_testing.py:481-489 | a detected change without a deficit id is inserted again by every harvest, because the NOT EXISTS comparison with a NULL indicator is never true |
| Observability.Outside | dri-intelligence/src/ai_observability.py:344-345 | the set difference as a list: exactly the elements of the first list not in the other set, each once |
| Observability.MismatchParts | dri-intelligence/src/ai_observability.py:350-354 | at most two mismatch parts |
| Observability.CompareIndicators | dri-intelligence/src/ai_observability.py:336-356 | no expected indicators give no verdict and "No ground truth available"; otherwise the verdict is whether the detected and expected sets are equal, with "Perfect match" when they are |
| Observability.MismatchPartsSpec | dri-intelligence/src/ai_observability.py:344-356 | the text starts with false positives exactly when something was detected that was not expected, reports misses exactly when something expected was not detected, and the parts are joined with "; " |
| Observability.DetailFor | dri-intelligence/src/ai_observability.py:121-221 | each detail belongs to its resident; its status is "FAILED" exactly when evaluating that resident raised, and "COMPLETED" otherwise, as _evaluate_resident sets it |
| Observability.EvaluatedCount | dri-intelligence/src/ai_observability.py:131-132 | no more residents are evaluated than attempted |
| Observability.VerdictCount | dri-intelligence/src/ai_observability.py:143-147 | each verdict count is at most the number of evaluated residents |
| Observability.Finish | dri-intelligence/src/ai_observability.py:157-171 | averages (latency, groundedness, context relevance and answer relevance) are the totals over the evaluated count (latency by floor division) and 0 when none was evaluated; the false positive rate and the precision are the false and true verdicts over all verdicts, and 0 when there is none |
| Observability.RateAndPrecision | dri-intelligence/src/ai_observability.py:164-171 | the false positive rate and the precision lie in [0,1] and add up to one whenever there is a verdict |
| Observability.PrefixStep | dri-intelligence/src/ai_observability.py:121-147 | each further resident adds exactly its own share to every count and total |
| Observability.RunEvaluation | dri-intelligence/src/ai_observability.py:121-173 | one detail per resident in order, and metrics that are the reference totals over the residents that did not raise |
| Observability.NoGroundTruthNoVerdict | dri-intelligence/src/ai_observability.py:143-147 | a resident without ground truth is evaluated but adds to neither verdict count |
| Observability.VerdictsSplit | dri-intelligence/src/ai_observability.py:143-147 | the true and false verdicts together are exactly the evaluated residents that have ground truth |
| EvaluationJob.SearchFrom | dri-intelligence/evaluation_job/evaluate_dri.py:200 | the search returns the leftmost position from the start at which "resident " is followed by a digit, and none when there is no such position |
| EvaluationJob.DigitRun | dri-intelligence/evaluation_job/evaluate_dri.py:200-202 | the run covers only digits and stops just before the first non-digit |
| EvaluationJob.ExtractResidentId | dri-intelligence/evaluation_job/evaluate_dri.py:196-205 | a query in which no "resident " is followed by a digit gives the fallback 871; otherwise a non-negative number |
| EvaluationJob.ExtractDefault | dri-intelligence/evaluation_job/evaluate_dri.py:200-205 | a query that never mentions "resident " gives 871 |
| EvaluationJob.LowerDigits | dri-intelligence/evaluation_job/evaluate_dri.py:200 | lower-casing leaves digits alone |
| EvaluationJob.QueryLowered | dri-intelligence/evaluation_job/evaluate_dri.py:200 | the lower-cased query is "analyze resident ", the number's digits and the lower-cased suffix |
| EvaluationJob.SearchFindsKey | dri-intelligence/evaluation_job/evaluate_dri.py:200 | in a generated query the leftmost match is at position 8, just after "analyze " |
| EvaluationJob.ExtractAt | dri-intelligence/evaluation_job/evaluate_dri.py:200-202 | the extracted id is the value of the digit run after the leftmost match |
| EvaluationJob.ExtractRoundTrip | dri-intelligence/evaluation_job/evaluate_dri.py:196-205 | extracting the id from the generated query for resident n gives back n |
| EvaluationJob.DigitRunOf | dri-intelligence/evaluation_job/evaluate_dri.py:200-202 | a run of n digits followed by a non-digit has length n |
| EvaluationJob.DatasetRoundTrip | dri-intelligence/evaluation_job/evaluate_dri.py:224-230 | every dataset row's query yields its resident's number, and its input id carries that number after "resident_" |
| EvaluationJob.PendingDefaults | dri-intelligence/evaluation_job/evaluate_dri.py:435-442 | a pending run keeps its id and name; a missing or empty version or model becomes "v1.0" or "claude-sonnet-4-5", and a missing or zero sample size becomes 10 |
| EvaluationJob.EnvOr | dri-intelligence/evaluation_job/evaluate_dri.py:537-541 | a set environment variable is used even when empty; an unset one gives the default |
| EvaluationJob.EnvSampleSize | dri-intelligence/evaluation_job/evaluate_dri.py:542-543 | an unset SAMPLE_SIZE gives 10; a set one is accepted exactly when it is a non-empty numeral and then gives its value, and raises otherwise |
| EvaluationJob.ArgumentsWin | dri-intelligence/evaluation_job/evaluate_dri.py:522-546 | command-line arguments are used as given, whatever is pending or set in the environment |
| EvaluationJob.PendingDecides | dri-intelligence/evaluation_job/evaluate_dri.py:522-546 | without arguments a pending run decides every setting, and its missing or empty run name becomes "Eval_" + version + "_" + the time stamp |
| EvaluationJob.NothingGiven | dri-intelligence/evaluation_job/evaluate_dri.py:535-543 | with no argument, pending run or environment, the run uses "Eval_" + time stamp, "v1.0", "claude-sonnet-4-5" and 10 |
| EvaluationJob.EmptyNameReplaced | dri-intelligence/evaluation_job/evaluate_dri.py:545-546 | a given but empty run name is replaced by "Eval_" + version + "_" + the time stamp |
| EvaluationJob.AverageLatency | dri-intelligence/evaluation_job/evaluate_dri.py:404 | the stored average latency is the total over the sample size rounded down, and 0 without samples |
| EvaluationJob.WaitForMetrics | dri-intelligence/evaluation_job/evaluate_dri.py:322-337 | at most 30 polls ten seconds apart; no status before the last sleep was finished; an early stop happens exactly on a finished status, and otherwise the loop ends after 300 seconds |
| SubstringDetector.Matched | verify_regex_detection.py:125-130 | the matched keywords are exactly the listed keywords that occur in the lower-cased text, never more than are listed |
| SubstringDetector.MatchedAppend | verify_regex_detection.py:126-130 | matching a concatenated keyword list is matching each part in turn |
| SubstringDetector.NoneMatched | verify_regex_detection.py:126-132 | when no keyword occurs nothing is matched, so the indicator is not detected |
| SubstringDetector.MatchedFirst | verify_regex_detection.py:126-136 | the first matched keyword, whose window is kept as the sample, is the first listed keyword that occurs |
| SubstringDetector.Sample | verify_regex_detection.py:128-129 | the window is at most 50 characters on each side of the keyword |
| SubstringDetector.SampleShowsKeyword | verify_regex_detection.py:128-129 | the window is a piece of the original text starting 50 characters (or fewer, at the start) before the first occurrence, and its lower-cased form shows the keyword there |
| SubstringDetector.FiresIff | verify_regex_detection.py:132 | an indicator is detected exactly when one of its keywords occurs in the lower-cased text |
| SubstringDetector.Detect | verify_regex_detection.py:119-139 | no more detections than indicators |
| SubstringDetector.DetectErr | verify_regex_detection.py:132-134 | detection raises KeyError exactly when a firing indicator has no name |
| SubstringDetector.DetectSound | verify_regex_detection.py:124-137 | every detection describes a firing indicator of the table with its name, its matched keywords and its sample |
| SubstringDetector.DetectComplete | verify_regex_detection.py:124-137 | every firing indicator of the table is detected |
| SubstringDetector.NotDetected | verify_regex_detection.py:178 | the not-detected ids are ids of the table |
| SubstringDetector.Partition | verify_regex_detection.py:178 | detected and not-detected ids split the table's ids between them |
| SubstringDetector.Monotone | verify_regex_detection.py:119-139 | whatever is detected in a piece of the text is detected in the whole text |
| SubstringDetector.ScriptNeverRaises | verify_regex_detection.py:13-83 | every indicator of the keyword table has a name, so the script never raises and detects at most 33 indicators |
| FirstTermScript.FirstTerm | test_regex.py:22-26 | the recorded term is a listed term that occurs, and none is recorded exactly when no term occurs |
| FirstTermScript.FirstTermIsFirst | test_regex.py:22-26 | the recorded term is the first listed term that occurs |
| FirstTermScript.FirstTermIsFirstMatch | test_regex.py:22-26 | the quick script records exactly the first keyword the full verifier matches for the same list, and nothing exactly when the verifier matches nothing |
| FirstTermScript.Scan | test_regex.py:18-26 | at most one pair per indicator of the table |
| FirstTermScript.ScanSound | test_regex.py:21-26 | every pair names an indicator of the table with its first occurring term |
| FirstTermScript.ScanComplete | test_regex.py:21-26 | every indicator with an occurring term is recorded with its first one |
| FirstTermScript.OnePairPerIndicator | test_regex.py:5-26 | with the distinct keys of a dictionary, no indicator is recorded twice |
| FirstTermScript.ScriptReportsEachOnce | test_regex.py:5-26 | for the script's own ten-indicator dictionary and any context, at most ten detections are recorded and no indicator twice |

## Left out

- Snowflake SQL execution, Cortex LLM calls and TruLens runs. Their results are inputs: sequences of rows, or an outcome value per call.
- Streamlit rendering, reruns, caching and widget state. The exception is the review queue's three per-item flags, which are modelled as state.
- JSON parsing (`json.loads`, `PARSE_JSON`) and the two regular-expression repair passes in prompt_engineering.py:491-492. Parsed payloads are datatypes, and the JSON span and bracket repair are modelled only up to the text handed to the parser.
- Python float rounding (`round(x, 1)` of percentages, and float division in averages). Scores and averages are exact reals. The reject rate is modelled in integer tenths, with half-way cases left open. The four-decimal score rounding is modelled exactly in integers, because n/33 never falls on a tie.
- Unicode. Lower-casing, `\w`, `\s` and `isdigit` are over ASCII only.
- `int()` on text: only plain ASCII digit strings are accepted. Signs, surrounding whitespace and underscores are not.
- Timestamps, UUIDs, elapsed time and sleeping. Time stamps are parameters, and the status poll reads the k-th status from a function.
- Widget clamping of numeric inputs other than the batch slider and the expiry bound.
- The batch query's SQL-side context assembly and its `REPLACE` of the placeholders (batch_testing.py:161-199). The model keeps only the per-resident outcome.
- `true_negatives` and `false_negatives` in the evaluation metrics. The code never changes them from 0.
- The scores in each evaluation detail (groundedness and relevance). They come from calls the code does not define, so they are inputs.
- The order in which the substring verifier prints its results. The script sorts ids before printing, and the model keeps table order.
- The concrete context text in test_regex.py. The model covers every text.
- Logging and printing.
- Comparison.Distinct: Python's `list(set(xs))` has no defined order. The model picks first-seen order, and its contract speaks only of membership and size.
- Observability.Outside: the order of `list(fp)` and `list(fn)` inside the mismatch text is unspecified in Python. The contract states the elements, not their order.
- EvaluationJob.ExtractResidentId: for an arbitrary query the contract states only the fallback 871 and that the result is non-negative. The extracted value itself is stated for generated queries (ExtractRoundTrip) and for a known digit run (ExtractAt).
- FeedbackLoop.RejectRateTenths: states the result within half a tenth. Python's round-half-even choice on exact ties is not modelled.
- RuleConfig.ExactlyOneCurrent: promises a single current row only when no current row of the deficit has a NULL version or already carries the new number, and the INSERT succeeded. RuleConfig.SaveCurrentRows states the outcome for every table and INSERT outcome. RuleConfig.NullVersionStaysCurrent, RuleConfig.ReusedNumberStaysCurrent and RuleConfig.FailedInsertLeavesNoCurrent show the three exceptions.
- RuleConfig.SaveNewVersion: whether the INSERT succeeds is an input, because `PARSE_JSON` and the other literals of the statement are not modelled in full. RuleConfig.QuoteInRulesAsWritten shows one concrete failing input.
- ReviewQueue.DoRejectAll, ReviewQueue.DoApproveNew: the queue id and the indicator ids are placed in the statements unescaped, and the excluded-ids JSON is assumed to parse. Only the names, reasons and notes decide whether a statement succeeds.
- ReviewQueue.StoredText: a body that is not one literal is taken as a failed statement. In Snowflake the text after the swallowed quote could, in rare cases, still form valid SQL.
- Observability.RunEvaluation: the expected indicators are taken as a list. ai_observability.py:333 applies `list()` to the EXPECTED_INDICATORS value, which for an ARRAY column delivered as JSON text gives its characters (the same defect as the feedback page's keywords, see Findings).
- BatchTesting.ResultFor: the `except` branch at batch_testing.py:246-252 is not modelled. The query helper already catches every exception, so a failed query arrives as an empty result and takes the Failed branch.
- ReviewQueue.EscapeSqlRoundTrip, ReviewQueue.StoredNotesBounded: the round trip is promised only for text without backslashes, because Snowflake also reads backslash escapes inside single-quoted literals (see Findings).
- DriAnalysis.RunLlmAnalysis: the sent prompt reads back as the filled template only when the template, configuration, context and catalogue together hold no backslash, for the same reason.
- ReviewQueue.ReadLiteral: the octal, hex and Unicode escapes (`\ooo`, `\xhh`, `\uhhhh`) are read as the character after the backslash. Only the single-character escapes are modelled.
- BatchTesting.HarvestIdempotent: holds only when every detected change of a finished review carries a deficit id. BatchTesting.RepeatHarvestOnlyNull states what a repeat harvest adds in general, and BatchTesting.NullIndicatorHarvestedAgain shows the re-insertion.

## Findings

| source | as written | input that shows it | evidently intended | confidence | as-written member | corrected member |
|---|---|---|---|---|---|---|
| dri-intelligence/app_pages/comparison.py:92-98 | the negation lists hold "-ve" and "doesn't have", but they are searched in text whose punctuation was already replaced by spaces | "doesn't have asthma" with keyword "asthma": the occurrence is counted | negation phrases written in their cleaned form ("doesn t have") so that they can match | not executed; high | Comparison.DoesntHaveExample | Comparison.CleanPhrasesCanMatch |
| dri-intelligence/app_pages/configuration.py:172-176 | the membership test uses `rule.get('source_type')` without the default, so a rule without a source type selects index 0 | a rule with no `source_type` opens on ACTIVE_RESIDENT_MEDICAL_PROFILE | open on ACTIVE_RESIDENT_NOTES, the default the `.index` lookup names | not executed; medium | RuleConfig.MissingSourceTypeAsWritten | RuleConfig.SourceTypeChoice |
| dri-intelligence/app_pages/comparison.py:517-520 | the help text lists High as 14-20 indicators and Very High as 21-33 | 20 indicators: 20/33 = 0.6061 is Very High in the code | High 14-19, Very High 20-33 | not executed; high | Scoring.DocumentedTableWrongAt20 | Scoring.Severity |
| dri-intelligence/app_pages/prompt_engineering.py:274-281 | the next version is computed from `MAX(VERSION_NUMBER)` on text | with "v9999" and "v10000" stored, MAX is "v9999" and "v10000" is offered again | compare version numbers, offering "v10001" | not executed; medium | PromptEngineering.TextMaxRepeatsAfter9999 | PromptEngineering.NextByNumberIsNew |
| dri-intelligence/app_pages/review_queue.py:276-285 | text is placed in single-quoted SQL literals after doubling quotes only, but Snowflake also reads backslash escapes there | a rejection reason "a\" (ending in a backslash) makes the literal swallow its closing quote; "\n" typed in a note is stored as a line break | double backslashes as well, so that every text is stored unchanged | not executed; medium | ReviewQueue.BackslashAsWritten | ReviewQueue.EscapeLiteralRoundTrip |
| dri-intelligence/app_pages/prompt_engineering.py:474-485 | all missing ']' are appended before all missing '}' | the reply `{"a":[{"b":{}` is cut at its last '}' to itself and repaired to `{"a":[{"b":{}]}}`, which is not well nested | close open brackets innermost first: `{"a":[{"b":{}}]}` | not executed; high | PromptEngineering.FixTruncatedMisnests | PromptEngineering.RepairNestedWellNested |
| dri-intelligence/app_pages/prompt_engineering.py:278-280 | the greatest version is taken with text MAX over `LIKE 'v%'` and everything after the "v" goes through `int()` | with "v1.0" (the version every page falls back to) and "v0001" stored, MAX is "v1.0" and `int("1.0")` raises, so no version can be saved from then on | take the greatest number among the versions that are "v" and digits, offering "v0002" | not executed; medium | PromptEngineering.DottedVersionBlocksNext | PromptEngineering.NextByNumberIsNew |
| dri-intelligence/app_pages/configuration.py:322-353 | the edited rules reach `PARSE_JSON('…')` with only single quotes doubled, and the demoting UPDATE runs whether or not the INSERT succeeded; the query helper only shows the error | a rule text holding a double quote: `json.dumps` writes it as `\"`, the literal reads that as a bare `"`, PARSE_JSON fails, and the deficit is left with no current version | escape backslashes as well (or pass the JSON as a bound parameter) and demote only after a successful INSERT | not executed; medium | RuleConfig.QuoteInRulesAsWritten | RuleConfig.CheckedSaveKeepsOneCurrent |
| dri-intelligence/app_pages/feedback_loop.py:305 | `', '.join(ind['KEYWORDS'])` is applied to the KEYWORDS column, which the connector delivers as the array's JSON text | KEYWORDS `["fall"]` is shown as `[, ", f, a, l, l, ", ]`, with no keyword left to read | parse the column into a keyword list first, as comparison.py:106-117 does | not executed; medium (rests on the connector handing ARRAY values over as JSON text, which comparison.py also guards against) | FeedbackLoop.KeywordsSpelledOut | FeedbackLoop.JsonKeywordsShown |
| dri-intelligence/app_pages/review_queue.py:274-302 | the rejection summary is placed in the UPDATE with only quotes doubled, and the flags are cleared whether or not the UPDATE succeeded | one selection with reason "a\": the summary ends in a backslash, the UPDATE fails, the item stays PENDING, and the page reports "Analysis rejected!" | escape backslashes too, so that the UPDATE always succeeds | not executed; medium | ReviewQueue.TrailingBackslashStaysPending | ReviewQueue.EscapeLiteralRoundTrip |
| dri-intelligence/app_pages/resident_history.py:71 | the history page divides the active count by 32 | 13 active indicators: 13/32 = 0.406 is High, while the other pages give Medium for 13/33 | divide by the catalogue size 33, as the other pages do | not executed; medium | Scoring.HistoryAndQueueDisagreeOnlyAt13 | Scoring.Severity |

=== FILE: batch_testing.dfy ===
/** The batch testing page: the production settings a batch runs with, the
    residents a batch covers, the per-resident outcome accounting of a run,
    and the harvest of ground truth from finished reviews. */
module BatchTesting {
  import opened Wrappers
  import opened Text
  import PromptEngineering

  // ---------------------------------------------------------------------
  // Production settings

  const DefaultModel: string := "claude-3-5-sonnet"
  const DefaultPromptVersion: string := "v1.0"
  const NoPromptError: string := "No production prompt configured"

  /** The production settings stored for a client; any may be absent. */
  datatype StoredConfig = StoredConfig(model: Option<string>, promptText: Option<string>,
                                       promptVersion: Option<string>, threshold: Option<int>)

  datatype Settings = Settings(model: string, promptText: string, promptVersion: string, threshold: int)

  /** The settings a batch runs with: stored values when truthy, else the
      defaults; the prompt text falls back to the stored prompt of that
      version, and the page stops when there is still none. */
  function BatchSettings(stored: StoredConfig, prompts: map<string, string>): (r: Result<Settings>)
    ensures r.Err? <==> ((stored.promptText.None? || stored.promptText.value == "")
      && (TextOr(stored.promptVersion, DefaultPromptVersion) !in prompts
          || prompts[TextOr(stored.promptVersion, DefaultPromptVersion)] == ""))
    ensures r.Err? ==> r.msg == NoPromptError
    ensures r.Ok? ==> (r.value.promptText != ""
      && r.value.model == TextOr(stored.model, DefaultModel)
      && r.value.promptVersion == TextOr(stored.promptVersion, DefaultPromptVersion)
      && r.value.threshold == PromptEngineering.ContextThreshold(stored.threshold))
  {
    var version := TextOr(stored.promptVersion, DefaultPromptVersion);
    var text :=
      if stored.promptText.Some? && stored.promptText.value != "" then stored.promptText.value
      else if version in prompts then prompts[version]
      else "";
    if text == "" then Err(NoPromptError)
    else Ok(Settings(TextOr(stored.model, DefaultModel), text, version,
                     PromptEngineering.ContextThreshold(stored.threshold)))
  }

  /** With nothing stored, a batch uses the default model, version and
      threshold, and the stored prompt of version "v1.0". */
  lemma BatchDefaults(prompts: map<string, string>)
    requires DefaultPromptVersion in prompts && prompts[DefaultPromptVersion] != ""
    ensures BatchSettings(StoredConfig(None, None, None, None), prompts)
      == Ok(Settings(DefaultModel, prompts[DefaultPromptVersion], DefaultPromptVersion, 6000))
  {
  }

  // ---------------------------------------------------------------------
  // The batch

  const MaxBatch: nat := 50
  const NoResidentsError: string := "No residents found"

  /** The slider keeps the chosen count between 1 and min(len, 50), and the
      batch is that many residents from the front of the list. */
  function Batch(residents: seq<int>, chosen: int): (r: Result<seq<int>>)
    ensures r.Err? <==> |residents| == 0
    ensures r.Ok? ==> (1 <= |r.value| <= |residents| && |r.value| <= MaxBatch
      && r.value == residents[..|r.value|])
    ensures r.Ok? && 1 <= chosen <= |residents| && chosen <= MaxBatch ==> |r.value| == chosen
  {
    if |residents| == 0 then Err(NoResidentsError)
    else
      var top := if |residents| < MaxBatch then |residents| else MaxBatch;
      var size := if chosen < 1 then 1 else if chosen > top then top else chosen;
      Ok(residents[..size])
  }

  // ---------------------------------------------------------------------
  // Running a batch

  /** What the analysis query gave for one resident. `execute_query`
      catches every exception of the query and returns None, so a query
      that raised arrives here as NoResult, as does an empty result. */
  datatype Outcome = Answered(timeMs: int) | NoResult

  datatype RunStatus = Success | Failed

  datatype ResultRow = ResultRow(residentId: int, status: RunStatus, timeMs: int)

  /** The row reported for one resident: Success with the measured time
      when the query answered, otherwise Failed with 0 ms, also when the
      query raised. */
  function ResultFor(residentId: int, o: Outcome): (r: ResultRow)
    ensures r.residentId == residentId
    ensures r.status == Success <==> o.Answered?
    ensures r.status == Failed <==> o.NoResult?
    ensures o.Answered? ==> r.timeMs == o.timeMs
    ensures o.NoResult? ==> r.timeMs == 0
  {
    match o
    case Answered(t) => ResultRow(residentId, Success, t)
    case NoResult => ResultRow(residentId, Failed, 0)
  }

  /** The residents whose query answered. */
  function CountAnswered(os: seq<Outcome>): (r: nat)
    ensures r <= |os|
  {
    if |os| == 0 then 0
    else CountAnswered(os[..|os| - 1]) + (if os[|os| - 1].Answered? then 1 else 0)
  }

  /** One row per resident, in order; the successful and failed counts add
      up to the batch size. */
  method RunBatch(batch: seq<int>, outcomes: seq<Outcome>) returns (results: seq<ResultRow>, successful: nat, failed: nat)
    requires |outcomes| == |batch|
    ensures |results| == |batch|
    ensures forall k :: 0 <= k < |batch| ==> results[k] == ResultFor(batch[k], outcomes[k])
    ensures successful == CountAnswered(outcomes)
    ensures successful + failed == |batch|
  {
    results := [];
    successful := 0;
    failed := 0;
    var i := 0;
    while i < |batch|
      invariant 0 <= i <= |batch|
      invariant |results| == i
      invariant forall k :: 0 <= k < i ==> results[k] == ResultFor(batch[k], outcomes[k])
      invariant successful == CountAnswered(outcomes[..i])
      invariant successful + failed == i
    {
      assert outcomes[..i + 1][..i] == outcomes[..i];
      results := results + [ResultFor(batch[i], outcomes[i])];
      if outcomes[i].Answered? {
        successful := successful + 1;
      } else {
        failed := failed + 1;
      }
      i := i + 1;
    }
    assert outcomes[..i] == outcomes;
  }

  /** The rows that report success are exactly the answered residents. */
  lemma SuccessRowsCount(batch: seq<int>, outcomes: seq<Outcome>)
    requires |outcomes| == |batch|
    ensures |set k | 0 <= k < |batch| && ResultFor(batch[k], outcomes[k]).status == Success| == CountAnswered(outcomes)
  {
    assert (set k | 0 <= k < |batch| && ResultFor(batch[k], outcomes[k]).status == Success) == AnsweredAt(outcomes);
    AnsweredAtCount(outcomes);
  }

  function AnsweredAt(os: seq<Outcome>): set<nat> {
    set k: nat | k < |os| && os[k].Answered?
  }

  lemma {:induction false} AnsweredAtCount(os: seq<Outcome>)
    ensures |AnsweredAt(os)| == CountAnswered(os)
  {
    if |os| > 0 {
      var n := |os| - 1;
      AnsweredAtCount(os[..n]);
      assert AnsweredAt(os[..n]) == set k: nat | k < n && os[k].Answered?;
      if os[n].Answered? {
        assert AnsweredAt(os) == AnsweredAt(os[..n]) + {n};
      } else {
        assert AnsweredAt(os) == AnsweredAt(os[..n]);
      }
    }
  }

  // ---------------------------------------------------------------------
  // Ground truth harvest

  const Approved: string := "APPROVED"
  const Rejected: string := "REJECTED"
  const RejectedPrefix: string := "REJECTED: "
  const NoNotes: string := "No notes"

  /** One indicator change proposed by the analysis. Its deficit id is
      read from the change's JSON and is NULL (None) when the key is
      missing. */
  datatype Change = Change(deficitId: Option<string>, detected: bool, reasoning: string)

  /** A review queue entry joined with its analysis. */
  datatype Review = Review(queueId: int, residentId: int, status: string, notes: Option<string>,
                           reviewer: string, promptVersion: string, changes: seq<Change>)

  datatype GroundTruth = GroundTruth(residentId: int, indicatorId: Option<string>, expected: bool, evidence: string,
                                     validatedBy: string, sourceReviewId: int, promptVersion: string)

  /** The evidence text: the reasoning when approved, otherwise the reviewer
      notes (or "No notes" when there are none) after "REJECTED: ". */
  function Evidence(status: string, reasoning: string, notes: Option<string>): (r: string)
    ensures status == Approved ==> r == reasoning
    ensures status != Approved ==> StartsWith(r, RejectedPrefix) && r[|RejectedPrefix|..] == notes.GetOr(NoNotes)
  {
    if status == Approved then reasoning else RejectedPrefix + notes.GetOr(NoNotes)
  }

  predicate Finished(r: Review) {
    r.status == Approved || r.status == Rejected
  }

  function Row(r: Review, c: Change): (g: GroundTruth)
    ensures g.sourceReviewId == r.queueId && g.indicatorId == c.deficitId
    ensures g.expected <==> r.status == Approved
  {
    GroundTruth(r.residentId, c.deficitId, r.status == Approved, Evidence(r.status, c.reasoning, r.notes),
                r.reviewer, r.queueId, r.promptVersion)
  }

  /** The NOT EXISTS subquery finds a row for this review and indicator.
      In SQL a comparison with NULL is never true, so a NULL indicator id
      matches no row, not even a row whose id is NULL too. */
  predicate HasKey(table: seq<GroundTruth>, queueId: int, deficitId: Option<string>) {
    deficitId.Some? && exists g :: g in table && g.sourceReviewId == queueId && g.indicatorId == deficitId
  }

  /** The rows one review contributes. */
  function ReviewRows(r: Review, changes: seq<Change>, table: seq<GroundTruth>): seq<GroundTruth>
  {
    if |changes| == 0 then []
    else
      (if Finished(r) && changes[0].detected && !HasKey(table, r.queueId, changes[0].deficitId)
       then [Row(r, changes[0])] else [])
      + ReviewRows(r, changes[1..], table)
  }

  function Candidates(reviews: seq<Review>, table: seq<GroundTruth>): seq<GroundTruth>
  {
    if |reviews| == 0 then [] else ReviewRows(reviews[0], reviews[0].changes, table) + Candidates(reviews[1..], table)
  }

  /** SQL DISTINCT: each row once. */
  function Distinct(xs: seq<GroundTruth>): (r: seq<GroundTruth>)
    ensures forall x :: x in r <==> x in xs
    ensures forall i, j :: 0 <= i < j < |r| ==> r[i] != r[j]
  {
    if |xs| == 0 then []
    else
      var d := Distinct(xs[..|xs| - 1]);
      assert forall x :: x in xs <==> x in xs[..|xs| - 1] || x == xs[|xs| - 1];
      if xs[|xs| - 1] in d then d else d + [xs[|xs| - 1]]
  }

  /** The table after a harvest: the old rows, then each new row once. */
  function Harvest(reviews: seq<Review>, table: seq<GroundTruth>): seq<GroundTruth> {
    table + Distinct(Candidates(reviews, table))
  }

  /** A row is harvested exactly when it comes from a detected change of a
      finished review whose pair is not yet in the table. */
  lemma {:induction false} ReviewRowsMember(r: Review, changes: seq<Change>, table: seq<GroundTruth>, g: GroundTruth)
    ensures g in ReviewRows(r, changes, table) <==>
      exists c :: c in changes && Finished(r) && c.detected && !HasKey(table, r.queueId, c.deficitId) && g == Row(r, c)
  {
    if |changes| > 0 {
      ReviewRowsMember(r, changes[1..], table, g);
      assert forall c :: c in changes <==> c == changes[0] || c in changes[1..];
    }
  }

  lemma {:induction false} CandidatesMember(reviews: seq<Review>, table: seq<GroundTruth>, g: GroundTruth)
    ensures g in Candidates(reviews, table) <==>
      exists r :: r in reviews && g in ReviewRows(r, r.changes, table)
  {
    if |reviews| > 0 {
      CandidatesMember(reviews[1..], table, g);
      assert forall r :: r in reviews <==> r == reviews[0] || r in reviews[1..];
    }
  }

  /** Every harvested row is labelled by its review's decision and keyed
      by a detected change of a finished review. */
  lemma HarvestedRows(reviews: seq<Review>, table: seq<GroundTruth>, g: GroundTruth)
    requires g in Harvest(reviews, table) && g !in table
    ensures exists r, c :: (r in reviews && c in r.changes && Finished(r) && c.detected
      && !HasKey(table, r.queueId, c.deficitId) && g == Row(r, c))
  {
    CandidatesMember(reviews, table, g);
    var r :| r in reviews && g in ReviewRows(r, r.changes, table);
    ReviewRowsMember(r, r.changes, table, g);
  }

  /** Once harvested, every eligible pair with an indicator id is in the
      table; a change without one has had its row inserted. */
  lemma HarvestCovers(reviews: seq<Review>, table: seq<GroundTruth>, r: Review, c: Change)
    requires r in reviews && c in r.changes && Finished(r) && c.detected
    ensures c.deficitId.Some? ==> HasKey(Harvest(reviews, table), r.queueId, c.deficitId)
    ensures c.deficitId.None? ==> Row(r, c) in Harvest(reviews, table)
  {
    var h := Harvest(reviews, table);
    if !HasKey(table, r.queueId, c.deficitId) {
      ReviewRowsMember(r, r.changes, table, Row(r, c));
      CandidatesMember(reviews, table, Row(r, c));
      assert Row(r, c) in h;
    } else {
      var g :| g in table && g.sourceReviewId == r.queueId && g.indicatorId == c.deficitId;
      assert g in h;
    }
  }

  /** Every row a second harvest with the same reviews would add has a
      NULL indicator id. */
  lemma RepeatHarvestOnlyNull(reviews: seq<Review>, table: seq<GroundTruth>, g: GroundTruth)
    requires g in Candidates(reviews, Harvest(reviews, table))
    ensures g.indicatorId.None?
  {
    var h := Harvest(reviews, table);
    CandidatesMember(reviews, h, g);
    var r :| r in reviews && g in ReviewRows(r, r.changes, h);
    ReviewRowsMember(r, r.changes, h, g);
    var c :| c in r.changes && Finished(r) && c.detected && !HasKey(h, r.queueId, c.deficitId) && g == Row(r, c);
    HarvestCovers(reviews, table, r, c);
  }

  /** A second harvest with the same reviews adds nothing, provided every
      detected change of a finished review names its indicator. */
  lemma HarvestIdempotent(reviews: seq<Review>, table: seq<GroundTruth>)
    requires forall r :: r in reviews && Finished(r) ==> forall c :: c in r.changes && c.detected ==> c.deficitId.Some?
    ensures Harvest(reviews, Harvest(reviews, table)) == Harvest(reviews, table)
  {
    var h := Harvest(reviews, table);
    var cs := Candidates(reviews, h);
    if |cs| > 0 {
      var g := cs[0];
      CandidatesMember(reviews, h, g);
      var r :| r in reviews && g in ReviewRows(r, r.changes, h);
      ReviewRowsMember(r, r.changes, h, g);
      var c :| c in r.changes && Finished(r) && c.detected && !HasKey(h, r.queueId, c.deficitId) && g == Row(r, c);
      HarvestCovers(reviews, table, r, c);
    }
    assert Distinct(cs) == [];
    assert h + [] == h;
  }

  /** One finished review with one detected change whose pair the table
      lacks appends exactly that change's row. */
  lemma HarvestOne(r: Review, c: Change, table: seq<GroundTruth>)
    requires r.changes == [c] && Finished(r) && c.detected && !HasKey(table, r.queueId, c.deficitId)
    ensures Harvest([r], table) == table + [Row(r, c)]
  {
    assert ReviewRows(r, [c], table) == [Row(r, c)];
    assert Candidates([r], table) == [Row(r, c)];
    assert Distinct([Row(r, c)]) == [Row(r, c)];
  }

  /** Without that proviso a harvest is not idempotent: a detected change
      with no deficit id gives a row with a NULL indicator, which the NOT
      EXISTS test never finds, so every harvest inserts it again. */
  lemma NullIndicatorHarvestedAgain()
    ensures var c := Change(None, true, "why");
      var r := Review(1, 7, Approved, None, "nurse", "v1", [c]);
      var h := Harvest([r], []);
      h == [Row(r, c)] && Harvest([r], h) == [Row(r, c), Row(r, c)]
  {
    var c := Change(None, true, "why");
    var r := Review(1, 7, Approved, None, "nurse", "v1", [c]);
    HarvestOne(r, c, []);
    HarvestOne(r, c, [Row(r, c)]);
  }
}

=== FILE: comparison.dfy ===
/** The comparison page's rule-based detector: for each indicator's keyword
    list, find whole-word occurrences of every keyword in the resident text,
    discard occurrences with a negation phrase nearby, and report how many
    distinct keywords matched. The text is lower-cased and every character
    that is neither a word character nor whitespace becomes a space; `\b`
    is a change between word and non-word characters, with the ends of the
    searched text counting as non-word. Also the agree / only-LLM /
    only-rules split of the two detections. */
module Comparison {
  import opened Wrappers
  import opened Text

  /** Keywords shorter than this (after lower-casing and stripping) are skipped. */
  const MinKeywordLength: nat := 2

  /** Characters of cleaned text searched for negation on each side. */
  const NegationWindow: nat := 50

  /** Characters of original text kept on each side of a reported match. */
  const SnippetMargin: nat := 30

  /** Reported matches and matched keywords are cut to this many. */
  const MaxListed: nat := 5

  /** The negation phrases, as the page lists them. */
  const SourceNegationBefore: seq<string> := ["no", "no symptoms of", "nil signs of", "does not require",
    "-ve", "doesn't have", "neg", "negative", "denies", "no evidence of"]
  const SourceNegationAfter: seq<string> := ["absent", "doesn't have", "neg", "nad", "ruled out"]

  /** The same lists with each phrase in the form it takes in cleaned text:
      "doesn't have" becomes "doesn t have"; "-ve" is dropped, since it can
      never match cleaned text and its cleaned form "ve" would also match
      "+ve". */
  const CleanNegationBefore: seq<string> := ["no", "no symptoms of", "nil signs of", "does not require",
    "doesn t have", "neg", "negative", "denies", "no evidence of"]
  const CleanNegationAfter: seq<string> := ["absent", "doesn t have", "neg", "nad", "ruled out"]

  datatype Negation = Negation(before: seq<string>, after: seq<string>)

  const SourceNegation: Negation := Negation(SourceNegationBefore, SourceNegationAfter)
  const CleanNegation: Negation := Negation(CleanNegationBefore, CleanNegationAfter)

  function Max(a: int, b: int): int {
    if a >= b then a else b
  }

  function MinInt(a: int, b: int): int {
    if a <= b then a else b
  }

  // ---------------------------------------------------------------------
  // Cleaning and whole-word search

  function CleanChar(c: char): char {
    if IsWordChar(c) || IsSpace(c) then c else ' '
  }

  /** `re.sub(r'[^\w\s]', ' ', t)`: same length, punctuation turned to spaces. */
  function Clean(t: string): (r: string)
    ensures |r| == |t|
    ensures forall i :: 0 <= i < |t| ==> r[i] == CleanChar(t[i])
    ensures forall i :: 0 <= i < |t| ==> IsWordChar(r[i]) || IsSpace(r[i])
  {
    seq(|t|, i requires 0 <= i < |t| => CleanChar(t[i]))
  }

  /** Character p is a word character; positions outside the text are not. */
  predicate WordAt(t: string, p: int) {
    0 <= p < |t| && IsWordChar(t[p])
  }

  /** `\b` holds at position p. */
  predicate Boundary(t: string, p: int) {
    WordAt(t, p - 1) != WordAt(t, p)
  }

  /** `\bw\b` matches at index i. */
  predicate WholeWordAt(t: string, w: string, i: int) {
    OccursAt(t, w, i) && Boundary(t, i) && Boundary(t, i + |w|)
  }

  ghost predicate ContainsWord(t: string, w: string) {
    exists i :: WholeWordAt(t, w, i)
  }

  /** Leftmost whole-word match of `w` at or after `from`, or -1. */
  function FindWord(t: string, w: string, from: nat): int
    decreases |t| - from
  {
    if from + |w| > |t| then -1
    else if WholeWordAt(t, w, from) then from
    else FindWord(t, w, from + 1)
  }

  /** FindWord returns the leftmost whole-word match, and -1 exactly when
      there is none. */
  lemma {:induction false} FindWordSpec(t: string, w: string, from: nat)
    ensures FindWord(t, w, from) == -1 || (from <= FindWord(t, w, from) && WholeWordAt(t, w, FindWord(t, w, from)))
    ensures FindWord(t, w, from) == -1 ==> forall j :: from <= j ==> !WholeWordAt(t, w, j)
    ensures FindWord(t, w, from) >= 0 ==> forall j :: from <= j < FindWord(t, w, from) ==> !WholeWordAt(t, w, j)
    decreases |t| - from
  {
    if from + |w| <= |t| && !WholeWordAt(t, w, from) {
      FindWordSpec(t, w, from + 1);
    }
  }

  /** `re.search(rf'\b{re.escape(w)}\b', t) is not None`. */
  function HasWord(t: string, w: string): bool {
    FindWord(t, w, 0) >= 0
  }

  lemma HasWordSpec(t: string, w: string)
    ensures HasWord(t, w) <==> ContainsWord(t, w)
  {
    FindWordSpec(t, w, 0);
    if ContainsWord(t, w) {
      var i :| WholeWordAt(t, w, i);
      assert 0 <= i;
    }
  }

  /** Start positions `finditer` reports for `\bw\b` from `from` on: matches
      found left to right, each search resuming at the previous match's end. */
  function Occurrences(t: string, w: string, from: nat): (r: seq<nat>)
    requires |w| > 0
    decreases |t| - from
  {
    FindWordSpec(t, w, from);
    var i := FindWord(t, w, from);
    if i < 0 then [] else [i as nat] + Occurrences(t, w, i + |w|)
  }

  /** Every reported start is a whole-word match at or after `from`. */
  lemma {:induction false} OccurrencesAreMatches(t: string, w: string, from: nat)
    requires |w| > 0
    ensures forall k :: 0 <= k < |Occurrences(t, w, from)| ==>
      from <= Occurrences(t, w, from)[k] && WholeWordAt(t, w, Occurrences(t, w, from)[k])
    decreases |t| - from
  {
    FindWordSpec(t, w, from);
    var i := FindWord(t, w, from);
    if i >= 0 {
      var rest := Occurrences(t, w, i + |w|);
      OccurrencesAreMatches(t, w, i + |w|);
      var r := Occurrences(t, w, from);
      assert r == [i as nat] + rest;
      forall k | 0 < k < |r| ensures r[k] == rest[k - 1] {
      }
    }
  }

  /** The reported matches come in increasing order and do not overlap. */
  lemma {:induction false} OccurrencesApart(t: string, w: string, from: nat)
    requires |w| > 0
    ensures forall k :: 0 <= k < |Occurrences(t, w, from)| ==> from <= Occurrences(t, w, from)[k]
    ensures forall a, b :: 0 <= a < b < |Occurrences(t, w, from)| ==>
      Occurrences(t, w, from)[a] + |w| <= Occurrences(t, w, from)[b]
    decreases |t| - from
  {
    FindWordSpec(t, w, from);
    var i := FindWord(t, w, from);
    var r := Occurrences(t, w, from);
    if i >= 0 {
      var next: nat := i + |w|;
      var rest := Occurrences(t, w, next);
      OccurrencesApart(t, w, next);
      assert r == [i as nat] + rest;
      forall k | 0 <= k < |r| ensures from <= r[k] {
        if k > 0 {
          assert r[k] == rest[k - 1];
        }
      }
      forall a, b | 0 <= a < b < |r| ensures r[a] + |w| <= r[b] {
        assert r[b] == rest[b - 1];
        if a > 0 {
          assert r[a] == rest[a - 1];
        }
      }
    } else {
      assert r == [];
    }
  }

  /** The first step of `finditer` when some match lies at or after `from`. */
  lemma OccurrencesStep(t: string, w: string, from: nat, j: nat)
    requires |w| > 0
    requires from <= j && WholeWordAt(t, w, j)
    ensures from <= FindWord(t, w, from) <= j
    ensures FindWord(t, w, from) + |w| <= |t|
    ensures Occurrences(t, w, from) == [FindWord(t, w, from) as nat] + Occurrences(t, w, FindWord(t, w, from) + |w|)
  {
    FindWordSpec(t, w, from);
  }

  /** Nothing is skipped: every whole-word match at or after `from` is one
      `finditer` reports or overlaps one it reports. */
  lemma OccurrencesCover(t: string, w: string, from: nat, j: nat)
    requires |w| > 0
    requires from <= j && WholeWordAt(t, w, j)
    ensures CoveredBy(Occurrences(t, w, from), |w|, j)
  {
    var k := CoveringOccurrence(t, w, from, j);
    assert Covers(Occurrences(t, w, from)[k], |w|, j);
  }

  /** The index of the reported match that covers `j`. */
  lemma {:induction false} CoveringOccurrence(t: string, w: string, from: nat, j: nat) returns (k: nat)
    requires |w| > 0
    requires from <= j && WholeWordAt(t, w, j)
    ensures k < |Occurrences(t, w, from)| && Covers(Occurrences(t, w, from)[k], |w|, j)
    decreases |t| - from
  {
    OccurrencesStep(t, w, from, j);
    var i: nat := FindWord(t, w, from);
    var rest := Occurrences(t, w, i + |w|);
    var occ := Occurrences(t, w, from);
    assert occ == [i] + rest;
    if j >= i + |w| {
      var k' := CoveringOccurrence(t, w, i + |w|, j);
      k := k' + 1;
      assert occ[k] == rest[k'];
    } else {
      k := 0;
      assert occ[0] == i;
    }
  }

  /** A match at `s` of length `n` covers position `j`. */
  predicate Covers(s: nat, n: nat, j: nat) {
    s <= j < s + n
  }

  /** Some match in `occ` covers position `j`. */
  predicate CoveredBy(occ: seq<nat>, n: nat, j: nat) {
    exists k :: 0 <= k < |occ| && Covers(occ[k], n, j)
  }

  // ---------------------------------------------------------------------
  // Negation

  /** Python `t[a:b]` for `0 <= a`, clamped at the end of the text. */
  function Slice(t: string, a: nat, b: int): string {
    if a >= |t| || b <= a then "" else t[a..MinInt(b, |t|)]
  }

  /** The stripped cleaned text in the 50 characters before a match. */
  function BeforeContext(clean: string, start: nat): string {
    Strip(Slice(clean, Max(0, start - NegationWindow) as nat, start))
  }

  /** The stripped cleaned text in the 50 characters after a match. */
  function AfterContext(clean: string, end: nat): string {
    Strip(Slice(clean, end, end + NegationWindow))
  }

  /** Python `any(re.search(...) for phrase in phrases)`. */
  function AnyWord(ctx: string, phrases: seq<string>): bool {
    if |phrases| == 0 then false
    else HasWord(ctx, phrases[0]) || AnyWord(ctx, phrases[1..])
  }

  /** Some phrase of the list occurs as a whole word in the context. */
  lemma {:induction false} AnyWordSpec(ctx: string, phrases: seq<string>)
    ensures AnyWord(ctx, phrases) <==> exists k :: 0 <= k < |phrases| && ContainsWord(ctx, phrases[k])
    decreases |phrases|
  {
    if |phrases| > 0 {
      HasWordSpec(ctx, phrases[0]);
      AnyWordSpec(ctx, phrases[1..]);
      assert forall k :: 1 <= k < |phrases| ==> phrases[k] == phrases[1..][k - 1];
      if AnyWord(ctx, phrases[1..]) {
        var k :| 0 <= k < |phrases[1..]| && ContainsWord(ctx, phrases[1..][k]);
        assert ContainsWord(ctx, phrases[k + 1]);
      }
    }
  }

  predicate Negated(neg: Negation, clean: string, start: nat, end: nat) {
    AnyWord(BeforeContext(clean, start), neg.before) || AnyWord(AfterContext(clean, end), neg.after)
  }

  /** The elements of `xs` that `keep` accepts, in order. */
  function Filter(keep: nat -> bool, xs: seq<nat>): (r: seq<nat>)
    ensures |r| <= |xs|
    ensures forall x :: x in r ==> x in xs
  {
    if |xs| == 0 then []
    else
      var rest := Filter(keep, xs[1..]);
      if keep(xs[0]) then [xs[0]] + rest else rest
  }

  /** An element survives exactly when it is in `xs` and accepted. */
  lemma {:induction false} FilterMember(keep: nat -> bool, xs: seq<nat>, x: nat)
    ensures x in Filter(keep, xs) <==> x in xs && keep(x)
  {
    if |xs| > 0 {
      FilterMember(keep, xs[1..], x);
      assert x in xs <==> x == xs[0] || x in xs[1..];
    }
  }

  /** The test the detector applies to an `n`-character match at `s`. */
  function NotNegated(neg: Negation, clean: string, n: nat): nat -> bool {
    (s: nat) => !Negated(neg, clean, s, s + n)
  }

  /** Python `kw.lower().strip()`. */
  function NormKeyword(kw: string): string {
    Strip(Lower(kw))
  }

  /** An occurrence `finditer` reports with no negation phrase in either
      window (`NotNegated` is the test `!Negated`). */
  predicate Unnegated(neg: Negation, clean: string, w: string, s: nat)
    requires |w| > 0
  {
    s in Occurrences(clean, w, 0) && NotNegated(neg, clean, |w|)(s)
  }

  /** The occurrences of a normalised keyword the detector counts: none for
      a keyword shorter than two characters, else exactly the `finditer`
      matches with no negation phrase in either window. */
  function CountedStarts(neg: Negation, clean: string, w: string): (r: seq<nat>)
    ensures |w| < MinKeywordLength ==> r == []
  {
    if |w| < MinKeywordLength then []
    else Filter(NotNegated(neg, clean, |w|), Occurrences(clean, w, 0))
  }

  /** For a keyword of two or more characters the counted starts are exactly
      the unnegated occurrences. */
  lemma {:induction false} CountedStartsSpec(neg: Negation, clean: string, w: string, s: nat)
    requires |w| >= MinKeywordLength
    ensures s in CountedStarts(neg, clean, w) <==> Unnegated(neg, clean, w, s)
  {
    var occ := Occurrences(clean, w, 0);
    var keep := NotNegated(neg, clean, |w|);
    FilterMember(keep, occ, s);
    assert CountedStarts(neg, clean, w) == Filter(keep, occ);
  }

  /** The keyword counts for the indicator. */
  predicate Matched(neg: Negation, clean: string, w: string) {
    |CountedStarts(neg, clean, w)| > 0
  }

  /** A keyword is counted exactly when it has at least two characters and
      some occurrence `finditer` reports has no negation phrase nearby. */
  lemma MatchedSpec(neg: Negation, clean: string, w: string)
    ensures Matched(neg, clean, w) <==>
      |w| >= MinKeywordLength && exists s: nat :: Unnegated(neg, clean, w, s)
  {
    var r := CountedStarts(neg, clean, w);
    if |w| >= MinKeywordLength {
      if exists s: nat :: Unnegated(neg, clean, w, s) {
        var s: nat :| Unnegated(neg, clean, w, s);
        CountedStartsSpec(neg, clean, w, s);
      }
      if |r| > 0 {
        CountedStartsSpec(neg, clean, w, r[0]);
      }
    }
  }

  // ---------------------------------------------------------------------
  // One indicator row

  /** A counted occurrence: the keyword and the original text around it. */
  datatype Hit = Hit(keyword: string, snippet: string)

  /** `text[max(0, s-30):min(len(text), e+30)]`. */
  function Snippet(text: string, start: nat, end: nat): string {
    Slice(text, Max(0, start - SnippetMargin) as nat, MinInt(|text|, end + SnippetMargin))
  }

  function HitsFor(text: string, w: string, starts: seq<nat>): (r: seq<Hit>)
    ensures |r| == |starts|
    ensures forall k :: 0 <= k < |r| ==> r[k] == Hit(w, Snippet(text, starts[k], starts[k] + |w|))
  {
    seq(|starts|, k requires 0 <= k < |starts| => Hit(w, Snippet(text, starts[k], starts[k] + |w|)))
  }

  function KeywordHits(neg: Negation, text: string, clean: string, kw: string): (r: seq<Hit>)
    ensures forall h :: h in r ==> h.keyword == NormKeyword(kw)
    ensures |r| > 0 <==> Matched(neg, clean, NormKeyword(kw))
  {
    var w := NormKeyword(kw);
    var r := HitsFor(text, w, CountedStarts(neg, clean, w));
    assert |r| > 0 ==> r[0] in r;
    r
  }

  /** The hits of all keywords, keyword by keyword, in list order. */
  function RowHits(neg: Negation, text: string, clean: string, kws: seq<string>): seq<Hit>
  {
    if |kws| == 0 then []
    else KeywordHits(neg, text, clean, kws[0]) + RowHits(neg, text, clean, kws[1..])
  }

  function HitKeywords(hits: seq<Hit>): set<string> {
    set h | h in hits :: h.keyword
  }

  /** The distinct normalised keywords that are counted. */
  ghost function MatchedSet(neg: Negation, clean: string, kws: seq<string>): set<string> {
    set k | k in kws && Matched(neg, clean, NormKeyword(k)) :: NormKeyword(k)
  }

  /** The set of matched keywords is exactly the set of counted keywords. */
  lemma {:induction false} RowHitsKeywords(neg: Negation, text: string, clean: string, kws: seq<string>)
    ensures HitKeywords(RowHits(neg, text, clean, kws)) == MatchedSet(neg, clean, kws)
    decreases |kws|
  {
    if |kws| > 0 {
      var first := KeywordHits(neg, text, clean, kws[0]);
      var rest := RowHits(neg, text, clean, kws[1..]);
      RowHitsKeywords(neg, text, clean, kws[1..]);
      HitKeywordsAppend(first, rest);
      KeywordHitsKeyword(neg, text, clean, kws[0]);
      MatchedSetCons(neg, clean, kws);
    } else {
      assert MatchedSet(neg, clean, kws) == {};
    }
  }

  lemma HitKeywordsAppend(a: seq<Hit>, b: seq<Hit>)
    ensures HitKeywords(a + b) == HitKeywords(a) + HitKeywords(b)
  {
    assert forall h :: h in a + b <==> h in a || h in b;
  }

  /** One keyword contributes its normalised form exactly when it is counted. */
  lemma KeywordHitsKeyword(neg: Negation, text: string, clean: string, kw: string)
    ensures HitKeywords(KeywordHits(neg, text, clean, kw)) ==
      (if Matched(neg, clean, NormKeyword(kw)) then {NormKeyword(kw)} else {})
  {
    var r := KeywordHits(neg, text, clean, kw);
    if |r| > 0 {
      assert r[0] in r;
    }
  }

  lemma MatchedSetCons(neg: Negation, clean: string, kws: seq<string>)
    requires |kws| > 0
    ensures MatchedSet(neg, clean, kws) ==
      (if Matched(neg, clean, NormKeyword(kws[0])) then {NormKeyword(kws[0])} else {}) + MatchedSet(neg, clean, kws[1..])
  {
    assert forall k :: k in kws <==> k == kws[0] || k in kws[1..];
  }

  /** Distinct elements of a list (Python `list(set(xs))`, in first-seen order). */
  function Distinct(xs: seq<string>): (r: seq<string>)
    ensures forall x :: x in r <==> x in xs
    ensures forall i, j :: 0 <= i < j < |r| ==> r[i] != r[j]
    ensures |r| == |set x | x in xs|
  {
    if |xs| == 0 then []
    else
      var init := xs[..|xs| - 1];
      var last := xs[|xs| - 1];
      var rest := Distinct(init);
      assert xs == init + [last];
      assert (set x | x in xs) == (set x | x in init) + {last};
      if last in rest then
        assert last in init;
        assert (set x | x in xs) == (set x | x in init);
        rest
      else
        assert last !in (set x | x in init);
        rest + [last]
  }

  /** The keyword column: absent, a list, text (with the outcome of
      `json.loads` on it, None when that raises or is not a list), or any
      other value. */
  datatype KeywordColumn = Absent | ListValue(items: seq<string>) | TextValue(raw: string, json: Option<seq<string>>) | OtherValue

  datatype KeywordRow = KeywordRow(deficitId: string, deficitName: string, keywords: KeywordColumn)

  predicate IsQuote(c: char) {
    c == '"' || c == '\''
  }

  /** Python `s.strip('"\'')`. */
  function StripQuotes(s: string): (r: string)
    ensures |r| <= |s|
    ensures |r| > 0 ==> !IsQuote(r[0]) && !IsQuote(r[|r| - 1])
    ensures |s| > 0 && !IsQuote(s[0]) && !IsQuote(s[|s| - 1]) ==> r == s
    decreases |s|
  {
    if |s| > 0 && IsQuote(s[0]) then StripQuotes(s[1..])
    else if |s| > 0 && IsQuote(s[|s| - 1]) then StripQuotes(s[..|s| - 1])
    else s
  }

  function StripAll(parts: seq<string>): (r: seq<string>)
    ensures |r| == |parts|
    ensures forall k :: 0 <= k < |r| ==> r[k] == Strip(parts[k])
  {
    seq(|parts|, k requires 0 <= k < |parts| => Strip(parts[k]))
  }

  function StripAllQuoted(parts: seq<string>): (r: seq<string>)
    ensures |r| == |parts|
    ensures forall k :: 0 <= k < |r| ==> r[k] == StripQuotes(Strip(parts[k]))
  {
    seq(|parts|, k requires 0 <= k < |parts| => StripQuotes(Strip(parts[k])))
  }

  /** Python `t[1:-1]`: the text without its first and last characters,
      empty when there are fewer than two. */
  function Inner(t: string): (r: string)
    ensures |t| >= 2 ==> t == [t[0]] + r + [t[|t| - 1]]
    ensures |t| < 2 ==> r == ""
  {
    if |t| >= 2 then t[1..|t| - 1] else ""
  }

  /** The keyword list of a row: a list as is; text starting with '[' as
      JSON, falling back to splitting the bracketed inside on commas and
      stripping spaces and quotes; other text split on commas and stripped. */
  function ParseKeywords(col: KeywordColumn): (r: seq<string>)
    ensures col.Absent? || col.OtherValue? ==> r == []
    ensures col.ListValue? ==> r == col.items
    ensures col.TextValue? && !StartsWith(Strip(col.raw), "[") ==>
      r == StripAll(Split(Strip(col.raw), ","))
    ensures col.TextValue? && StartsWith(Strip(col.raw), "[") && col.json.Some? ==> r == col.json.value
    ensures col.TextValue? && StartsWith(Strip(col.raw), "[") && col.json.None? ==>
      |r| == |Split(Inner(Strip(col.raw)), ",")|
      && forall k :: 0 <= k < |r| ==> r[k] == StripQuotes(Strip(Split(Inner(Strip(col.raw)), ",")[k]))
  {
    match col
    case Absent => []
    case OtherValue => []
    case ListValue(items) => items
    case TextValue(raw, json) =>
      var t := Strip(raw);
      if StartsWith(t, "[") then
        match json
        case Some(items) => items
        case None => StripAllQuoted(Split(Inner(t), ","))
      else StripAll(Split(t, ","))
  }

  predicate Trimmed(k: string) {
    |k| > 0 && !IsSpace(k[0]) && !IsSpace(k[|k| - 1])
  }

  predicate CommaFree(k: string) {
    forall j :: 0 <= j < |k| ==> k[j] != ','
  }

  /** Comma-separated text round-trips: keywords that are non-empty, have no
      surrounding whitespace and contain no comma are recovered from
      `", ".join`-free text `"a,b,c"`, as long as it does not start with '['. */
  lemma CommaTextRoundTrip(items: seq<string>, json: Option<seq<string>>)
    requires |items| >= 1
    requires forall k :: 0 <= k < |items| ==> Trimmed(items[k]) && CommaFree(items[k])
    requires !StartsWith(items[0], "[")
    ensures ParseKeywords(TextValue(Join(items, ","), json)) == items
  {
    CommaTextEdges(items);
    SplitJoin(items, ",");
    StripAllTrimmed(items);
  }

  /** Bracketed text that JSON does not accept, such as `['a','b']` or
      `[a,b]`, still gives its keywords back: each comma-separated piece
      loses its surrounding whitespace and quotes. */
  lemma BracketFallbackRoundTrip(items: seq<string>, quote: string)
    requires |items| >= 1
    requires quote == "" || quote == "'" || quote == "\""
    requires forall k :: 0 <= k < |items| ==> PlainKeyword(items[k])
    ensures ParseKeywords(TextValue("[" + Join(Quoted(items, quote), ",") + "]", None)) == items
  {
    var q := Quoted(items, quote);
    var j := Join(q, ",");
    var raw := "[" + j + "]";
    assert raw[0] == '[' && raw[|raw| - 1] == ']';
    StripNoEdgeSpace(raw);
    assert StartsWith(raw, "[") by {
      assert raw[..1] == "[";
    }
    assert Inner(raw) == j;
    SplitJoin(q, ",");
    forall k | 0 <= k < |items| ensures StripQuotes(Strip(q[k])) == items[k] {
      QuotedStrips(items[k], quote);
    }
  }

  /** Each keyword between the given quote marks. */
  function Quoted(items: seq<string>, quote: string): (r: seq<string>)
    ensures |r| == |items| && forall k :: 0 <= k < |r| ==> r[k] == quote + items[k] + quote
  {
    seq(|items|, k requires 0 <= k < |items| => quote + items[k] + quote)
  }

  /** A keyword the fallback gives back as written: no surrounding
      whitespace or quotes, and no comma. */
  predicate PlainKeyword(x: string) {
    Trimmed(x) && CommaFree(x) && !IsQuote(x[0]) && !IsQuote(x[|x| - 1])
  }

  lemma QuotedStrips(x: string, quote: string)
    requires PlainKeyword(x)
    requires quote == "" || quote == "'" || quote == "\""
    ensures StripQuotes(Strip(quote + x + quote)) == x
  {
    if quote == "" {
      assert quote + x + quote == x;
      StripNoEdgeSpace(x);
    } else {
      QuoteCharStrips(x, quote[0]);
      assert quote + x + quote == [quote[0]] + x + [quote[0]];
    }
  }

  lemma QuoteCharStrips(x: string, c: char)
    requires PlainKeyword(x) && IsQuote(c)
    ensures StripQuotes(Strip([c] + x + [c])) == x
  {
    var t := [c] + x + [c];
    StripNoEdgeSpace(t);
    assert t[1..] == x + [c];
    assert StripQuotes(t) == StripQuotes(x + [c]);
    var u := x + [c];
    assert u[0] == x[0] && u[|u| - 1] == c && u[..|u| - 1] == x;
    assert StripQuotes(u) == StripQuotes(x);
  }

  /** The joined text has no surrounding whitespace and keeps the first
      keyword's first character. */
  lemma CommaTextEdges(items: seq<string>)
    requires |items| >= 1
    requires forall k :: 0 <= k < |items| ==> Trimmed(items[k])
    requires !StartsWith(items[0], "[")
    ensures Strip(Join(items, ",")) == Join(items, ",")
    ensures !StartsWith(Join(items, ","), "[")
  {
    var raw := Join(items, ",");
    var first, last := items[0], items[|items| - 1];
    assert Trimmed(first) && Trimmed(last);
    JoinEnds(items, ",");
    assert raw[0] == first[0] && raw[|raw| - 1] == last[|last| - 1];
    StripNoEdgeSpace(raw);
    assert !StartsWith(raw, "[") by {
      assert first[..1] == [first[0]] && raw[..1] == [raw[0]];
    }
  }

  /** Stripping keywords that have no surrounding whitespace changes nothing. */
  lemma StripAllTrimmed(items: seq<string>)
    requires forall k :: 0 <= k < |items| ==> Trimmed(items[k])
    ensures StripAll(items) == items
  {
    forall k | 0 <= k < |items| ensures Strip(items[k]) == items[k] {
      assert Trimmed(items[k]);
      StripNoEdgeSpace(items[k]);
    }
  }

  /** The first and last characters of a join are those of the first and
      last parts, when no part is empty. */
  lemma {:induction false} JoinEnds(items: seq<string>, sep: string)
    requires |items| >= 1
    requires forall k :: 0 <= k < |items| ==> |items[k]| > 0
    ensures |Join(items, sep)| > 0
    ensures Join(items, sep)[0] == items[0][0]
    ensures Join(items, sep)[|Join(items, sep)| - 1] == items[|items| - 1][|items[|items| - 1]| - 1]
    decreases |items|
  {
    if |items| > 1 {
      JoinEnds(items[1..], sep);
    }
  }

  // ---------------------------------------------------------------------
  // Detection results

  datatype Detection = Detection(
    id: string, name: string, detected: bool, matchCount: nat,
    matches: seq<string>, matchedKeywords: seq<string>)

  function Keywords(hits: seq<Hit>): (r: seq<string>)
    ensures |r| == |hits|
    ensures forall x :: x in r <==> x in HitKeywords(hits)
  {
    var r := seq(|hits|, k requires 0 <= k < |hits| => hits[k].keyword);
    assert forall x :: x in r ==> x in HitKeywords(hits);
    assert forall x :: x in HitKeywords(hits) ==> x in r by {
      forall x | x in HitKeywords(hits) ensures x in r {
        var h :| h in hits && h.keyword == x;
        var k :| 0 <= k < |hits| && hits[k] == h;
        assert r[k] == x;
      }
    }
    r
  }

  function Snippets(hits: seq<Hit>): (r: seq<string>)
    ensures |r| == |hits|
  {
    seq(|hits|, k requires 0 <= k < |hits| => hits[k].snippet)
  }

  /** One row of `run_regex_detection`'s result. */
  function DetectRow(neg: Negation, text: string, row: KeywordRow): (d: Detection)
    ensures d.id == row.deficitId && d.name == row.deficitName
    ensures d.matchCount == |MatchedSet(neg, Clean(Lower(text)), ParseKeywords(row.keywords))|
    ensures d.detected <==> d.matchCount > 0
    ensures |d.matches| <= MaxListed && |d.matchedKeywords| <= MaxListed
    ensures forall x :: x in d.matchedKeywords ==> x in MatchedSet(neg, Clean(Lower(text)), ParseKeywords(row.keywords))
    ensures d.matchCount <= MaxListed ==>
      forall x :: x in MatchedSet(neg, Clean(Lower(text)), ParseKeywords(row.keywords)) ==> x in d.matchedKeywords
  {
    var clean := Clean(Lower(text));
    var kws := ParseKeywords(row.keywords);
    var hits := RowHits(neg, text, clean, kws);
    RowHitsKeywords(neg, text, clean, kws);
    var unique := Distinct(Keywords(hits));
    assert (set x | x in Keywords(hits)) == HitKeywords(hits);
    assert forall x :: x in Take(unique, MaxListed) ==> x in unique;
    Detection(row.deficitId, row.deficitName, |unique| > 0, |unique|,
              Take(Snippets(hits), MaxListed), Take(unique, MaxListed))
  }

  function KeySet(rows: seq<KeywordRow>): set<string> {
    set r | r in rows :: r.deficitId
  }

  /** `run_regex_detection`: one entry per deficit id among the rows. */
  function RunDetection(neg: Negation, text: string, rows: seq<KeywordRow>): (m: map<string, Detection>)
    ensures m.Keys == KeySet(rows)
  {
    if |rows| == 0 then map[]
    else
      var init := rows[..|rows| - 1];
      var last := rows[|rows| - 1];
      assert rows == init + [last];
      assert KeySet(rows) == KeySet(init) + {last.deficitId};
      RunDetection(neg, text, init)[last.deficitId := DetectRow(neg, text, last)]
  }

  /** When ids repeat, the entry of the last row with that id stays. */
  lemma {:induction false} RunDetectionLastWins(neg: Negation, text: string, rows: seq<KeywordRow>, i: nat)
    requires i < |rows|
    requires forall j :: i < j < |rows| ==> rows[j].deficitId != rows[i].deficitId
    ensures RunDetection(neg, text, rows)[rows[i].deficitId] == DetectRow(neg, text, rows[i])
    decreases |rows|
  {
    var init := rows[..|rows| - 1];
    if i < |rows| - 1 {
      RunDetectionLastWins(neg, text, init, i);
    }
  }

  /** Ids the detector flags, the set the page compares. */
  function DetectedIds(m: map<string, Detection>): (r: set<string>)
    ensures r <= m.Keys
    ensures forall k :: k in r <==> k in m && m[k].detected
  {
    set k | k in m && m[k].detected
  }

  // ---------------------------------------------------------------------
  // The two detections compared

  datatype Difference = Difference(both: set<string>, onlyLlm: set<string>, onlyRules: set<string>, all: set<string>)

  /** Agreement split of the LLM's and the rules' detected ids. */
  function Compare(llm: set<string>, rules: set<string>): (d: Difference)
    ensures d.both !! d.onlyLlm && d.both !! d.onlyRules && d.onlyLlm !! d.onlyRules
    ensures d.both + d.onlyLlm + d.onlyRules == d.all
    ensures d.all == llm + rules
    ensures d.both + d.onlyLlm == llm && d.both + d.onlyRules == rules
  {
    Difference(llm * rules, llm - rules, rules - llm, llm + rules)
  }

  // ---------------------------------------------------------------------
  // Negation phrases with punctuation

  /** Cleaned text (and every strip of a slice of it) holds only word
      characters and whitespace. */
  predicate CleanText(t: string) {
    forall i :: 0 <= i < |t| ==> IsWordChar(t[i]) || IsSpace(t[i])
  }

  lemma ContextsAreClean(clean: string, start: nat, end: nat)
    requires CleanText(clean)
    ensures CleanText(BeforeContext(clean, start))
    ensures CleanText(AfterContext(clean, end))
  {
    var a := Slice(clean, Max(0, start - NegationWindow) as nat, start);
    var b := Slice(clean, end, end + NegationWindow);
    SliceClean(clean, Max(0, start - NegationWindow) as nat, start);
    SliceClean(clean, end, end + NegationWindow);
    StripClean(a);
    StripClean(b);
  }

  lemma SliceClean(t: string, a: nat, b: int)
    requires CleanText(t)
    ensures CleanText(Slice(t, a, b))
  {
    if !(a >= |t| || b <= a) {
      var s := Slice(t, a, b);
      assert forall i :: 0 <= i < |s| ==> s[i] == t[a + i];
    }
  }

  lemma StripClean(s: string)
    requires CleanText(s)
    ensures CleanText(Strip(s))
  {
    var r := Strip(s);
    var p := |s| - |LStrip(s)|;
    StripSpec(s);
    assert OccursAt(s, r, p);
    assert forall i :: 0 <= i < |r| ==> r[i] == s[p + i];
  }

  /** A phrase holding a character that is neither a word character nor
      whitespace never matches in text that has none. */
  lemma PunctuatedPhraseNeverMatches(t: string, phrase: string, c: nat)
    requires CleanText(t)
    requires c < |phrase| && !IsWordChar(phrase[c]) && !IsSpace(phrase[c])
    ensures !ContainsWord(t, phrase)
  {
    forall i | 0 <= i && i + |phrase| <= |t| ensures !OccursAt(t, phrase, i) {
      assert t[i..i + |phrase|][c] == t[i + c];
    }
  }

  /** "-ve" and "doesn't have" never negate anything in the page as written:
      the text they are searched in has had its punctuation replaced. */
  lemma SourcePhrasesWithPunctuationAreDead(text: string, start: nat, end: nat)
    ensures !ContainsWord(BeforeContext(Clean(Lower(text)), start), "-ve")
    ensures !ContainsWord(BeforeContext(Clean(Lower(text)), start), "doesn't have")
    ensures !ContainsWord(AfterContext(Clean(Lower(text)), end), "doesn't have")
  {
    var clean := Clean(Lower(text));
    assert CleanText(clean);
    PunctuatedPhrasesDeadInClean(clean, start, end);
  }

  lemma PunctuatedPhrasesDeadInClean(clean: string, start: nat, end: nat)
    requires CleanText(clean)
    ensures !ContainsWord(BeforeContext(clean, start), "-ve")
    ensures !ContainsWord(BeforeContext(clean, start), "doesn't have")
    ensures !ContainsWord(AfterContext(clean, end), "doesn't have")
  {
    ContextsAreClean(clean, start, end);
    PunctuatedPhraseNeverMatches(BeforeContext(clean, start), "-ve", 0);
    PunctuatedPhraseNeverMatches(BeforeContext(clean, start), "doesn't have", 5);
    PunctuatedPhraseNeverMatches(AfterContext(clean, end), "doesn't have", 5);
  }

  /** Every phrase of the cleaned lists can match: each is made of word
      characters and spaces, starts and ends with a word character, and so
      is found as a whole word in itself. */
  lemma CleanPhrasesCanMatch()
    ensures forall k :: 0 <= k < |CleanNegationBefore| ==> ContainsWord(CleanNegationBefore[k], CleanNegationBefore[k])
    ensures forall k :: 0 <= k < |CleanNegationAfter| ==> ContainsWord(CleanNegationAfter[k], CleanNegationAfter[k])
  {
    forall k | 0 <= k < |CleanNegationBefore|
      ensures ContainsWord(CleanNegationBefore[k], CleanNegationBefore[k])
    {
      SelfWholeWord(CleanNegationBefore[k]);
    }
    forall k | 0 <= k < |CleanNegationAfter|
      ensures ContainsWord(CleanNegationAfter[k], CleanNegationAfter[k])
    {
      SelfWholeWord(CleanNegationAfter[k]);
    }
  }

  lemma SelfWholeWord(p: string)
    requires |p| > 0 && IsWordChar(p[0]) && IsWordChar(p[|p| - 1])
    ensures ContainsWord(p, p)
  {
    assert p[0..|p|] == p;
    assert WholeWordAt(p, p, 0);
  }

  /** No occurrence at all means no whole-word match. */
  lemma NoWord(t: string, w: string)
    requires forall j :: 0 <= j && j + |w| <= |t| ==> !OccursAt(t, w, j)
    ensures !HasWord(t, w)
  {
    FindWordSpec(t, w, 0);
  }

  /** No phrase of a list of non-empty phrases matches empty text. */
  lemma {:induction false} NoWordInEmpty(phrases: seq<string>)
    requires forall k :: 0 <= k < |phrases| ==> |phrases[k]| > 0
    ensures !AnyWord("", phrases)
    decreases |phrases|
  {
    if |phrases| > 0 {
      assert FindWord("", phrases[0], 0) == -1;
      NoWordInEmpty(phrases[1..]);
    }
  }

  const ExampleText: string := "doesn't have asthma"
  const ExampleClean: string := "doesn t have asthma"

  lemma ExampleCleaned()
    ensures Clean(Lower(ExampleText)) == ExampleClean
  {
  }

  /** A text whose only whole-word match of `w` is at `i`, with no room for
      another after it, yields exactly one occurrence. */
  lemma SingleOccurrence(t: string, w: string, i: nat)
    requires |w| > 0 && WholeWordAt(t, w, i)
    requires forall j :: 0 <= j < i ==> !OccursAt(t, w, j)
    requires i + 2 * |w| > |t|
    ensures Occurrences(t, w, 0) == [i]
  {
    OccurrencesStep(t, w, 0, i);
    FindWordSpec(t, w, 0);
    assert FindWord(t, w, 0) == i;
    assert FindWord(t, w, i + |w|) == -1;
  }

  /** "asthma" is matched once, at index 13. */
  lemma ExampleOccurrences()
    ensures Occurrences(ExampleClean, "asthma", 0) == [13]
  {
    ExampleNoEarlyMatch();
    ExampleMatchAt13();
    SingleOccurrence(ExampleClean, "asthma", 13);
  }

  lemma ExampleNoEarlyMatch()
    ensures forall j :: 0 <= j < 13 ==> !OccursAt(ExampleClean, "asthma", j)
  {
    forall j | 0 <= j < 13 ensures !OccursAt(ExampleClean, "asthma", j) {
      if j == 9 { Mismatch(ExampleClean, "asthma", j, 1); } else { Mismatch(ExampleClean, "asthma", j, 0); }
    }
  }

  lemma ExampleMatchAt13()
    ensures WholeWordAt(ExampleClean, "asthma", 13)
  {
    assert ExampleClean[13..19] == "asthma";
  }

  lemma ExampleContexts()
    ensures BeforeContext(ExampleClean, 13) == "doesn t have"
    ensures AfterContext(ExampleClean, 19) == ""
  {
    assert Slice(ExampleClean, 0, 13) == "doesn t have" + [' '];
    StripTrailing("doesn t have", ' ');
    assert Slice(ExampleClean, 19, 69) == "";
  }

  lemma NoShortSourcePhrase()
    ensures !HasWord("doesn t have", "no") && !HasWord("doesn t have", "neg")
  {
    var t := "doesn t have";
    assert t == "does" + "n" + " t have";
    forall j | 0 <= j < |t| && j != 4 ensures t[j] != 'n' {
      if j < 4 {
        assert t[j] in "does";
      } else {
        assert t[j] in " t have";
      }
    }
    forall j | 0 <= j && j + 2 <= |t| ensures !OccursAt(t, "no", j) {
      if j == 4 { Mismatch(t, "no", j, 1); } else { Mismatch(t, "no", j, 0); }
    }
    NoWord(t, "no");
    forall j | 0 <= j && j + 3 <= |t| ensures !OccursAt(t, "neg", j) {
      if j == 4 { Mismatch(t, "neg", j, 1); } else { Mismatch(t, "neg", j, 0); }
    }
    NoWord(t, "neg");
  }

  lemma NoLongSourcePhrase()
    ensures !HasWord("doesn t have", "negative") && !HasWord("doesn t have", "denies")
    ensures !HasWord("doesn t have", "nil signs of")
  {
    NoNegativeInExample();
    NoDeniesInExample();
    NoNilSignsInExample();
  }

  lemma NoNegativeInExample()
    ensures !HasWord("doesn t have", "negative")
  {
    var t := "doesn t have";
    forall j | 0 <= j && j + 8 <= |t| ensures !OccursAt(t, "negative", j) {
      if j == 4 { Mismatch(t, "negative", j, 1); } else { Mismatch(t, "negative", j, 0); }
    }
    NoWord(t, "negative");
  }

  lemma NoDeniesInExample()
    ensures !HasWord("doesn t have", "denies")
  {
    var t := "doesn t have";
    forall j | 0 <= j && j + 6 <= |t| ensures !OccursAt(t, "denies", j) {
      if j == 0 { Mismatch(t, "denies", j, 1); } else { Mismatch(t, "denies", j, 0); }
    }
    NoWord(t, "denies");
  }

  lemma NoNilSignsInExample()
    ensures !HasWord("doesn t have", "nil signs of")
  {
    var t := "doesn t have";
    Mismatch(t, "nil signs of", 0, 0);
    NoWord(t, "nil signs of");
  }

  lemma NoPunctuatedSourcePhrase()
    ensures !HasWord("doesn t have", "-ve") && !HasWord("doesn t have", "doesn't have")
  {
    var t := "doesn t have";
    assert CleanText(t);
    PunctuatedPhraseNeverMatches(t, "-ve", 0);
    PunctuatedPhraseNeverMatches(t, "doesn't have", 5);
    HasWordSpec(t, "-ve");
    HasWordSpec(t, "doesn't have");
  }

  /** None of the page's before-phrases occurs in "doesn t have". */
  lemma NoSourceBeforePhrase()
    ensures !AnyWord("doesn t have", SourceNegationBefore)
  {
    var t := "doesn t have";
    NoShortSourcePhrase();
    NoLongSourcePhrase();
    NoPunctuatedSourcePhrase();
    assert !HasWord(t, "no symptoms of");
    assert !HasWord(t, "does not require");
    assert !HasWord(t, "no evidence of");
    AnyWordSpec(t, SourceNegationBefore);
    forall k | 0 <= k < |SourceNegationBefore| ensures !ContainsWord(t, SourceNegationBefore[k]) {
      HasWordSpec(t, SourceNegationBefore[k]);
    }
  }

  /** With a single occurrence, the keyword counts exactly when that
      occurrence is not negated. */
  lemma SingleOccurrenceCounted(neg: Negation, t: string, w: string, i: nat)
    requires |w| >= MinKeywordLength && Occurrences(t, w, 0) == [i]
    ensures Matched(neg, t, w) <==> !Negated(neg, t, i, i + |w|)
  {
    var keep := NotNegated(neg, t, |w|);
    assert keep(i) == !Negated(neg, t, i, i + |w|);
    assert CountedStarts(neg, t, w) == Filter(keep, [i]);
    assert [i][1..] == [];
    assert Filter(keep, [i]) == if keep(i) then [i] else [];
  }

  lemma SourceMissesExample()
    ensures !Negated(SourceNegation, ExampleClean, 13, 19)
  {
    assert BeforeContext(ExampleClean, 13) == "doesn t have" && AfterContext(ExampleClean, 19) == "" by {
      ExampleContexts();
    }
    assert !AnyWord("doesn t have", SourceNegationBefore) by {
      NoSourceBeforePhrase();
    }
    assert !AnyWord("", SourceNegationAfter) by {
      NoSourceAfterPhraseInEmpty();
    }
  }

  lemma NoSourceAfterPhraseInEmpty()
    ensures !AnyWord("", SourceNegationAfter)
  {
    forall k | 0 <= k < |SourceNegationAfter| ensures |SourceNegationAfter[k]| > 0 {
      assert SourceNegationAfter[k][0] in "adnr";
    }
    NoWordInEmpty(SourceNegationAfter);
  }

  lemma CleanCatchesExample()
    ensures Negated(CleanNegation, ExampleClean, 13, 19)
  {
    ExampleContexts();
    SelfWholeWord("doesn t have");
    AnyWordSpec("doesn t have", CleanNegationBefore);
    assert ContainsWord("doesn t have", CleanNegationBefore[4]);
  }

  /** "doesn't have asthma" with keyword "asthma": as written, the negation
      is missed and the keyword is counted; with the cleaned phrase list the
      occurrence is negated and nothing is counted. */
  lemma DoesntHaveExample()
    ensures Matched(SourceNegation, Clean(Lower(ExampleText)), "asthma")
    ensures !Matched(CleanNegation, Clean(Lower(ExampleText)), "asthma")
  {
    ExampleCleaned();
    ExampleOccurrences();
    SourceMissesExample();
    CleanCatchesExample();
    SingleOccurrenceCounted(SourceNegation, ExampleClean, "asthma", 13);
    SingleOccurrenceCounted(CleanNegation, ExampleClean, "asthma", 13);
  }

  /** Stripping text that ends in one space. */
  lemma StripTrailing(s: string, c: char)
    requires Trimmed(s) && IsSpace(c)
    ensures Strip(s + [c]) == s
  {
    var t := s + [c];
    assert LStrip(t) == t;
    assert t[..|t| - 1] == s;
    assert RStrip(t) == RStrip(s);
  }
}

=== FILE: dri_analysis.dfy ===
/** The analysis pipeline's deterministic part: the resident context and the
    indicator catalogue rendered as prompt text, the prompt template filled
    with them, the two early exits, and what is sent to and recorded after
    the LLM call. Query results and the LLM's answer are parameters. */
module DriAnalysis {
  import opened Wrappers
  import opened Text
  import ReviewQueue

  // ---------------------------------------------------------------------
  // Resident context

  datatype Note = Note(text: string, date: string, noteType: string)
  datatype Medication = Medication(name: string, route: string, status: string)
  datatype Observation = Observation(chart: string, chartLabel: string, value: string, date: string)
  datatype FormAnswer = FormAnswer(form: string, element: string, response: string)

  /** The four clinical queries' rows for one resident, in query order and
      before their LIMIT. */
  datatype ClinicalRows = ClinicalRows(notes: seq<Note>, meds: seq<Medication>,
                                       obs: seq<Observation>, forms: seq<FormAnswer>)

  /** Row limits of the four queries (notes, observations and forms are the
      function's defaults; medications are fixed). */
  const MaxNotes: nat := 15
  const MaxMeds: nat := 20
  const MaxObs: nat := 30
  const MaxForms: nat := 30

  /** Characters kept of a note, an observation value and a form response. */
  const NoteChars: nat := 500
  const ObsValueChars: nat := 100
  const ResponseChars: nat := 200

  const NotesHeader: string := "=== PROGRESS NOTES ==="
  const MedsHeader: string := "\n=== MEDICATIONS ==="
  const ObsHeader: string := "\n=== OBSERVATIONS ==="
  const FormsHeader: string := "\n=== ASSESSMENT FORMS ==="
  const NoteSeparator: string := "---"

  function NoteLine(n: Note): string {
    "Note: " + Take(n.text, NoteChars)
  }

  /** The three lines written for one note. */
  function NoteLines(n: Note): seq<string> {
    ["Date: " + n.date + ", Type: " + n.noteType, NoteLine(n), NoteSeparator]
  }

  function MedLine(m: Medication): string {
    "- " + m.name + " (" + m.route + ") - Status: " + m.status
  }

  function ObsLine(o: Observation): string {
    "- " + o.chart + "/" + o.chartLabel + ": " + Take(o.value, ObsValueChars) + " (" + o.date + ")"
  }

  function FormLine(f: FormAnswer): string {
    "- " + f.form + ": " + f.element + " = " + Take(f.response, ResponseChars)
  }

  /** A header followed by its lines, or nothing when there are no lines. */
  function Section(header: string, lines: seq<string>): (r: seq<string>)
    ensures |r| == if |lines| == 0 then 0 else 1 + |lines|
    ensures |lines| > 0 ==> r[0] == header && r[1..] == lines
  {
    if |lines| == 0 then [] else [header] + lines
  }

  /** Note lines, three per note, in note order. */
  function NotesLines(notes: seq<Note>): (r: seq<string>)
    ensures |r| == 3 * |notes|
    ensures forall k :: 0 <= k < |notes| ==> r[3 * k + 1] == NoteLine(notes[k])
  {
    if |notes| == 0 then []
    else
      var rest := NotesLines(notes[1..]);
      var r := NoteLines(notes[0]) + rest;
      assert forall k :: 1 <= k < |notes| ==> r[3 * k + 1] == rest[3 * (k - 1) + 1];
      r
  }

  function MedsLines(meds: seq<Medication>): (r: seq<string>)
    ensures |r| == |meds| && forall k :: 0 <= k < |meds| ==> r[k] == MedLine(meds[k])
  {
    seq(|meds|, k requires 0 <= k < |meds| => MedLine(meds[k]))
  }

  function ObsLines(obs: seq<Observation>): (r: seq<string>)
    ensures |r| == |obs| && forall k :: 0 <= k < |obs| ==> r[k] == ObsLine(obs[k])
  {
    seq(|obs|, k requires 0 <= k < |obs| => ObsLine(obs[k]))
  }

  function FormsLines(forms: seq<FormAnswer>): (r: seq<string>)
    ensures |r| == |forms| && forall k :: 0 <= k < |forms| ==> r[k] == FormLine(forms[k])
  {
    seq(|forms|, k requires 0 <= k < |forms| => FormLine(forms[k]))
  }

  /** get_resident_context's list of parts: the four sections in order,
      each limited to its query's row count. */
  function ContextParts(q: ClinicalRows): seq<string> {
    Section(NotesHeader, NotesLines(Take(q.notes, MaxNotes)))
    + Section(MedsHeader, MedsLines(Take(q.meds, MaxMeds)))
    + Section(ObsHeader, ObsLines(Take(q.obs, MaxObs)))
    + Section(FormsHeader, FormsLines(Take(q.forms, MaxForms)))
  }

  /** The context text: the parts joined with newlines. */
  function ResidentContext(q: ClinicalRows): string {
    Join(ContextParts(q), "\n")
  }

  predicate NoClinicalRows(q: ClinicalRows) {
    |q.notes| == 0 && |q.meds| == 0 && |q.obs| == 0 && |q.forms| == 0
  }

  /** The context is empty exactly when all four queries return nothing. */
  lemma ContextEmptyIff(q: ClinicalRows)
    ensures ResidentContext(q) == "" <==> NoClinicalRows(q)
  {
    var parts := ContextParts(q);
    assert |parts| > 0 ==> |parts[0]| > 0;
    JoinEmpty(parts, "\n");
  }

  /** Every line of a section starts with 'D', 'N' or '-'; headers start
      with '=' or a newline. */
  predicate LinesTagged(lines: seq<string>) {
    forall x :: x in lines ==> |x| > 0 && x[0] in {'D', 'N', '-'}
  }

  /** A header shows in its own section exactly when there are lines. */
  lemma InOwnSection(h: string, lines: seq<string>)
    ensures h in Section(h, lines) <==> |lines| > 0
  {
  }

  /** A header never shows in another header's section. */
  lemma NotInOtherSection(h: string, other: string, lines: seq<string>)
    requires h != other && LinesTagged(lines)
    requires |h| > 0 && h[0] !in {'D', 'N', '-'}
    ensures h !in Section(other, lines)
  {
  }

  lemma ContextLinesTagged(q: ClinicalRows)
    ensures LinesTagged(NotesLines(Take(q.notes, MaxNotes)))
    ensures LinesTagged(MedsLines(Take(q.meds, MaxMeds)))
    ensures LinesTagged(ObsLines(Take(q.obs, MaxObs)))
    ensures LinesTagged(FormsLines(Take(q.forms, MaxForms)))
  {
    NotesLinesShape(Take(q.notes, MaxNotes));
  }

  /** Each section's header is among the parts exactly when its query
      returned rows: no other part can equal a header. */
  lemma HeadersIff(q: ClinicalRows)
    ensures NotesHeader in ContextParts(q) <==> |q.notes| > 0
    ensures MedsHeader in ContextParts(q) <==> |q.meds| > 0
    ensures ObsHeader in ContextParts(q) <==> |q.obs| > 0
    ensures FormsHeader in ContextParts(q) <==> |q.forms| > 0
  {
    var n := NotesLines(Take(q.notes, MaxNotes));
    var m := MedsLines(Take(q.meds, MaxMeds));
    var o := ObsLines(Take(q.obs, MaxObs));
    var f := FormsLines(Take(q.forms, MaxForms));
    ContextLinesTagged(q);
    assert |NotesHeader| == 22 && |MedsHeader| == 20 && |ObsHeader| == 21 && |FormsHeader| == 25;
    assert NotesHeader[0] == '=' && MedsHeader[0] == '\n' && ObsHeader[0] == '\n' && FormsHeader[0] == '\n';
    InOwnSection(NotesHeader, n);
    InOwnSection(MedsHeader, m);
    InOwnSection(ObsHeader, o);
    InOwnSection(FormsHeader, f);
    NotInOtherSection(NotesHeader, MedsHeader, m);
    NotInOtherSection(NotesHeader, ObsHeader, o);
    NotInOtherSection(NotesHeader, FormsHeader, f);
    NotInOtherSection(MedsHeader, NotesHeader, n);
    NotInOtherSection(MedsHeader, ObsHeader, o);
    NotInOtherSection(MedsHeader, FormsHeader, f);
    NotInOtherSection(ObsHeader, NotesHeader, n);
    NotInOtherSection(ObsHeader, MedsHeader, m);
    NotInOtherSection(ObsHeader, FormsHeader, f);
    NotInOtherSection(FormsHeader, NotesHeader, n);
    NotInOtherSection(FormsHeader, MedsHeader, m);
    NotInOtherSection(FormsHeader, ObsHeader, o);
  }

  /** Every note line starts with 'D', 'N' or '-', never with '\n' or '='. */
  lemma NotesLinesShape(notes: seq<Note>)
    ensures forall x :: x in NotesLines(notes) ==> |x| > 0 && x[0] in {'D', 'N', '-'}
  {
    var r := NotesLines(notes);
    forall x | x in r ensures |x| > 0 && x[0] in {'D', 'N', '-'} {
      NotesLinesMember(notes, x);
    }
  }

  lemma {:induction false} NotesLinesMember(notes: seq<Note>, x: string)
    requires x in NotesLines(notes)
    ensures |x| > 0 && x[0] in {'D', 'N', '-'}
  {
    if |notes| > 0 {
      var r := NotesLines(notes);
      assert r == NoteLines(notes[0]) + NotesLines(notes[1..]);
      if x !in NoteLines(notes[0]) {
        NotesLinesMember(notes[1..], x);
      }
    }
  }

  /** A line of a section shows in the joined text, wherever the section
      sits among the parts. */
  lemma SectionLineShown(before: seq<string>, h: string, lines: seq<string>, after: seq<string>, k: nat)
    requires k < |lines|
    ensures Occurs(Join(before + Section(h, lines) + after, "\n"), lines[k])
  {
    var parts := before + Section(h, lines) + after;
    assert parts[|before| + 1 + k] == lines[k];
    JoinHasPart(parts, "\n", |before| + 1 + k);
  }

  /** Every note kept by the query limit appears, cut to 500 characters,
      in the context. */
  lemma NoteShown(q: ClinicalRows, k: nat)
    requires k < |q.notes| && k < MaxNotes
    ensures Occurs(ResidentContext(q), "Note: " + Take(q.notes[k].text, NoteChars))
    ensures |Take(q.notes[k].text, NoteChars)| <= NoteChars
  {
    var notes := Take(q.notes, MaxNotes);
    var lines := NotesLines(notes);
    var rest := Section(MedsHeader, MedsLines(Take(q.meds, MaxMeds)))
              + Section(ObsHeader, ObsLines(Take(q.obs, MaxObs)))
              + Section(FormsHeader, FormsLines(Take(q.forms, MaxForms)));
    assert ContextParts(q) == [] + Section(NotesHeader, lines) + rest;
    assert lines[3 * k + 1] == "Note: " + Take(q.notes[k].text, NoteChars) by {
      assert notes[k] == q.notes[k];
    }
    SectionLineShown([], NotesHeader, lines, rest, 3 * k + 1);
  }

  /** Every medication kept by the query limit appears in the context as
      its name, route and status line. */
  lemma MedicationShown(q: ClinicalRows, k: nat)
    requires k < |q.meds| && k < MaxMeds
    ensures Occurs(ResidentContext(q), "- " + q.meds[k].name + " (" + q.meds[k].route + ") - Status: " + q.meds[k].status)
  {
    var s1 := Section(NotesHeader, NotesLines(Take(q.notes, MaxNotes)));
    var lines := MedsLines(Take(q.meds, MaxMeds));
    var rest := Section(ObsHeader, ObsLines(Take(q.obs, MaxObs)))
              + Section(FormsHeader, FormsLines(Take(q.forms, MaxForms)));
    assert ContextParts(q) == s1 + Section(MedsHeader, lines) + rest;
    SectionLineShown(s1, MedsHeader, lines, rest, k);
  }

  /** Every observation kept by the query limit appears in the context with
      its value cut to 100 characters. */
  lemma ObservationShown(q: ClinicalRows, k: nat)
    requires k < |q.obs| && k < MaxObs
    ensures Occurs(ResidentContext(q), ObsLine(q.obs[k]))
    ensures |Take(q.obs[k].value, ObsValueChars)| <= ObsValueChars
  {
    var s1 := Section(NotesHeader, NotesLines(Take(q.notes, MaxNotes)));
    var s2 := Section(MedsHeader, MedsLines(Take(q.meds, MaxMeds)));
    var lines := ObsLines(Take(q.obs, MaxObs));
    var s4 := Section(FormsHeader, FormsLines(Take(q.forms, MaxForms)));
    assert ContextParts(q) == (s1 + s2) + Section(ObsHeader, lines) + s4;
    SectionLineShown(s1 + s2, ObsHeader, lines, s4, k);
  }

  /** Every form answer kept by the query limit appears in the context with
      its response cut to 200 characters. */
  lemma FormShown(q: ClinicalRows, k: nat)
    requires k < |q.forms| && k < MaxForms
    ensures Occurs(ResidentContext(q), FormLine(q.forms[k]))
    ensures |Take(q.forms[k].response, ResponseChars)| <= ResponseChars
  {
    var s1 := Section(NotesHeader, NotesLines(Take(q.notes, MaxNotes)));
    var s2 := Section(MedsHeader, MedsLines(Take(q.meds, MaxMeds)));
    var s3 := Section(ObsHeader, ObsLines(Take(q.obs, MaxObs)));
    var lines := FormsLines(Take(q.forms, MaxForms));
    assert ContextParts(q) == (s1 + s2 + s3) + Section(FormsHeader, lines) + [];
    SectionLineShown(s1 + s2 + s3, FormsHeader, lines, [], k);
  }

  /** The context has one part per header plus one per line: three per note
      and one per medication, observation and form row, after the limits. */
  lemma ContextPartCount(q: ClinicalRows)
    ensures var n := |Take(q.notes, MaxNotes)|;
      var m := |Take(q.meds, MaxMeds)|;
      var o := |Take(q.obs, MaxObs)|;
      var f := |Take(q.forms, MaxForms)|;
      |ContextParts(q)| == (if n > 0 then 1 + 3 * n else 0) + (if m > 0 then 1 + m else 0)
                         + (if o > 0 then 1 + o else 0) + (if f > 0 then 1 + f else 0)
    ensures |ContextParts(q)| <= 1 + 3 * MaxNotes + 1 + MaxMeds + 1 + MaxObs + 1 + MaxForms
  {
  }

  // ---------------------------------------------------------------------
  // Indicator catalogue

  datatype Indicator = Indicator(id: string, name: string, definition: string, temporalType: string,
                                 expiryDays: Option<int>, inclusion: string, exclusion: string)

  const Chronic: string := "N/A (chronic)"

  /** Python `days or 'N/A (chronic)'`: NULL and 0 are falsy. */
  function ExpiryText(days: Option<int>): (r: string)
    ensures r == Chronic <==> days.None? || days.value == 0
    ensures days.Some? && days.value > 0 ==> AllDigits(r) && DigitsValue(r) == days.value
  {
    if days.None? || days.value == 0 then Chronic
    else
      assert Chronic[0] == 'N';
      NatToStringRoundTrip(if days.value >= 0 then days.value else -days.value);
      IntToString(days.value)
  }

  /** One catalogue entry as a block of text, starting and ending with a
      newline. */
  function IndicatorBlock(ind: Indicator): string {
    "\n" + ind.id + " - " + ind.name
    + "\n  Type: " + ind.temporalType
    + "\n  Definition: " + ind.definition
    + "\n  Expiry Days: " + ExpiryText(ind.expiryDays)
    + "\n  Include when: " + ind.inclusion
    + "\n  Exclude when: " + ind.exclusion + "\n"
  }

  function IndicatorBlocks(inds: seq<Indicator>): (r: seq<string>)
    ensures |r| == |inds| && forall k :: 0 <= k < |inds| ==> r[k] == IndicatorBlock(inds[k])
  {
    seq(|inds|, k requires 0 <= k < |inds| => IndicatorBlock(inds[k]))
  }

  /** get_rag_indicators: the blocks joined with newlines. */
  function RagText(inds: seq<Indicator>): string {
    Join(IndicatorBlocks(inds), "\n")
  }

  /** The catalogue text is empty exactly when the catalogue is, and every
      entry's block appears in it. */
  lemma RagTextShowsEach(inds: seq<Indicator>, k: nat)
    requires k < |inds|
    ensures RagText(inds) != ""
    ensures Occurs(RagText(inds), IndicatorBlock(inds[k]))
  {
    JoinHasPart(IndicatorBlocks(inds), "\n", k);
    JoinHasPart(IndicatorBlocks(inds), "\n", 0);
  }

  /** The catalogue text is empty exactly when the indicator table is. */
  lemma RagTextEmptyIff(inds: seq<Indicator>)
    ensures RagText(inds) == "" <==> |inds| == 0
  {
    if |inds| > 0 {
      RagTextShowsEach(inds, 0);
    }
  }

  // ---------------------------------------------------------------------
  // Prompt template

  const FormMappingsSlot: string := "{client_form_mappings}"
  const ContextSlot: string := "{resident_context}"
  const IndicatorSlot: string := "{rag_indicator_context}"

  /** The three chained `replace` calls, in their order. */
  function FillTemplate(template: string, config: string, context: string, rag: string): string {
    Replace(Replace(Replace(template, FormMappingsSlot, config), ContextSlot, context), IndicatorSlot, rag)
  }

  /** A template without placeholders is sent unchanged. */
  lemma FillWithoutSlots(template: string, config: string, context: string, rag: string)
    requires !Occurs(template, FormMappingsSlot)
    requires !Occurs(template, ContextSlot)
    requires !Occurs(template, IndicatorSlot)
    ensures FillTemplate(template, config, context, rag) == template
  {
    ReplaceAbsent(template, FormMappingsSlot, config);
    ReplaceAbsent(template, ContextSlot, context);
    ReplaceAbsent(template, IndicatorSlot, rag);
  }

  /** Replacements cascade: a client configuration that itself contains the
      context placeholder has it replaced by the context, and a
      `{rag_indicator_context}` inside the context is replaced in turn. */
  lemma FillCascades(context: string, rag: string)
    ensures FillTemplate(FormMappingsSlot, ContextSlot, context, rag) == Replace(context, IndicatorSlot, rag)
  {
    ReplaceWhole(FormMappingsSlot, ContextSlot);
    ReplaceWhole(ContextSlot, context);
  }

  /** Each slot is replaced by its own value: a template that is one slot
      becomes that slot's value when no value holds a later slot. */
  lemma FillSlots(config: string, context: string, rag: string)
    requires !Occurs(config, ContextSlot) && !Occurs(config, IndicatorSlot)
    requires !Occurs(context, IndicatorSlot)
    ensures FillTemplate(FormMappingsSlot, config, context, rag) == config
    ensures FillTemplate(IndicatorSlot, config, context, rag) == rag
  {
    ReplaceWhole(FormMappingsSlot, config);
    ReplaceAbsent(config, ContextSlot, context);
    ReplaceAbsent(config, IndicatorSlot, rag);
    IndicatorSlotHoldsNoOther();
    ReplaceAbsent(IndicatorSlot, FormMappingsSlot, config);
    ReplaceAbsent(IndicatorSlot, ContextSlot, context);
    ReplaceWhole(IndicatorSlot, rag);
  }

  /** The indicator placeholder holds neither of the other two. */
  lemma IndicatorSlotHoldsNoOther()
    ensures !Occurs(IndicatorSlot, FormMappingsSlot) && !Occurs(IndicatorSlot, ContextSlot)
  {
    forall j | 0 <= j && j + |FormMappingsSlot| <= |IndicatorSlot|
      ensures !OccursAt(IndicatorSlot, FormMappingsSlot, j)
    {
      if j == 0 { Mismatch(IndicatorSlot, FormMappingsSlot, j, 1); } else { Mismatch(IndicatorSlot, FormMappingsSlot, j, 0); }
    }
    forall j | 0 <= j && j + |ContextSlot| <= |IndicatorSlot|
      ensures !OccursAt(IndicatorSlot, ContextSlot, j)
    {
      if j == 0 { Mismatch(IndicatorSlot, ContextSlot, j, 2); } else { Mismatch(IndicatorSlot, ContextSlot, j, 0); }
    }
  }

  // ---------------------------------------------------------------------
  // run_llm_analysis

  const NoContextError: string := "Failed to retrieve resident context"
  const NoTemplateError: string := "No prompt template found"
  const NoResponseError: string := "No response from LLM"
  const DefaultConfig: string := "{}"
  const DefaultVersion: string := "v1.0"
  const AnalysisModel: string := "claude-3-5-sonnet"

  /** Which prompt query runs: a given (truthy) version is looked up by
      number, otherwise the active prompt is taken. */
  datatype PromptQuery = ByVersion(version: string) | ActivePrompt

  function PromptQueryFor(promptVersion: Option<string>): (r: PromptQuery)
    ensures r.ActivePrompt? <==> promptVersion.None? || promptVersion.value == ""
    ensures r.ByVersion? ==> r.version == promptVersion.value
  {
    if promptVersion.Some? && promptVersion.value != "" then ByVersion(promptVersion.value) else ActivePrompt
  }

  /** Python `prompt_version or "v1.0"`: the version written to the
      analysis record. */
  function RecordedVersion(promptVersion: Option<string>): (r: string)
    ensures r != ""
    ensures r == DefaultVersion <==> promptVersion.None? || promptVersion.value in {"", DefaultVersion}
    ensures PromptQueryFor(promptVersion).ByVersion? ==> r == PromptQueryFor(promptVersion).version
  {
    if promptVersion.Some? && promptVersion.value != "" then promptVersion.value else DefaultVersion
  }

  /** The client configuration text: the first active row, or "{}". */
  function ClientConfig(configRows: seq<string>): string {
    if |configRows| == 0 then DefaultConfig else configRows[0]
  }

  /** What the completion query and the record insert did. */
  datatype Completion =
    | Raised(message: string)                        // the completion query raised
    | NoRows                                         // it returned no row
    | Answered(text: string, insertError: Option<string>)  // a response; the insert may then raise

  /** The row written to the analysis table. */
  datatype Record = Record(residentId: int, clientKey: string, model: string, promptVersion: string, response: string)

  /** The returned `(response, error)` pair, the escaped prompt sent to the
      LLM (if it was called) and the record written (if any). */
  datatype Analysis = Analysis(response: Option<string>, error: Option<string>,
                               sent: Option<string>, record: Option<Record>)

  function RunLlmAnalysis(residentId: int, clientKey: string, promptVersion: Option<string>,
                          q: ClinicalRows, inds: seq<Indicator>, promptRows: seq<string>,
                          configRows: seq<string>, completion: Completion): (r: Analysis)
    ensures r.response.Some? <==> r.error.None?
    ensures r.record.Some? <==> r.response.Some?
    ensures ResidentContext(q) == "" ==> r.error == Some(NoContextError) && r.sent.None?
    ensures ResidentContext(q) != "" && |promptRows| == 0 ==> r.error == Some(NoTemplateError) && r.sent.None?
    ensures r.sent.Some? <==> ResidentContext(q) != "" && |promptRows| > 0
    ensures r.sent.Some? && ReviewQueue.BackslashFree(FillTemplate(promptRows[0], ClientConfig(configRows), ResidentContext(q), RagText(inds)))
      ==> ReviewQueue.ReadLiteral(r.sent.value)
          == Some(FillTemplate(promptRows[0], ClientConfig(configRows), ResidentContext(q), RagText(inds)))
    ensures r.record.Some? ==>
      r.record.value == Record(residentId, clientKey, AnalysisModel, RecordedVersion(promptVersion), r.response.value)
    ensures r.sent.Some? && completion.NoRows? ==> r.error == Some(NoResponseError)
    ensures r.sent.Some? && completion.Raised? ==> r.error == Some(completion.message)
    ensures r.sent.Some? && completion.Answered? && completion.insertError.Some? ==>
      r.error == completion.insertError && r.record.None?
    ensures r.sent.Some? && completion.Answered? && completion.insertError.None? ==>
      r.response == Some(completion.text)
    ensures r.response.Some? <==> r.sent.Some? && completion.Answered? && completion.insertError.None?
  {
    var context := ResidentContext(q);
    if context == "" then Analysis(None, Some(NoContextError), None, None)
    else if |promptRows| == 0 then Analysis(None, Some(NoTemplateError), None, None)
    else
      var final := FillTemplate(promptRows[0], ClientConfig(configRows), context, RagText(inds));
      var sent := ReviewQueue.EscapeSql(final);
      ReviewQueue.EscapeSqlRoundTrip(final);
      match completion
      case Raised(e) => Analysis(None, Some(e), Some(sent), None)
      case NoRows => Analysis(None, Some(NoResponseError), Some(sent), None)
      case Answered(t, Some(e)) => Analysis(None, Some(e), Some(sent), None)
      case Answered(t, None) =>
        Analysis(Some(t), None, Some(sent),
                 Some(Record(residentId, clientKey, AnalysisModel, RecordedVersion(promptVersion), t)))
  }

  /** A resident with no clinical rows at all never reaches the LLM. */
  lemma NoRowsShortCircuits(residentId: int, clientKey: string, promptVersion: Option<string>,
                            q: ClinicalRows, inds: seq<Indicator>, promptRows: seq<string>,
                            configRows: seq<string>, completion: Completion)
    requires NoClinicalRows(q)
    ensures RunLlmAnalysis(residentId, clientKey, promptVersion, q, inds, promptRows, configRows, completion)
      == Analysis(None, Some(NoContextError), None, None)
  {
    ContextEmptyIff(q);
  }
}

=== FILE: evaluation_job.dfy ===
/** The evaluation job: the dataset it builds from resident ids, reading the
    resident id back out of a query, the settings it runs with, the latency
    it stores, and its wait for the metric computation. */
module EvaluationJob {
  import opened Wrappers
  import opened Text

  // ---------------------------------------------------------------------
  // Resident ids in queries

  const DefaultResidentId: int := 871
  const Key: string := "resident "

  /** The pattern `resident (\d+)` starts at `i`. */
  predicate MatchAt(t: string, i: nat) {
    OccursAt(t, Key, i) && i + |Key| < |t| && IsDigit(t[i + |Key|])
  }

  /** Regex search: the leftmost position, from `i` on, where the pattern
      starts. */
  function SearchFrom(t: string, i: nat): (r: Option<nat>)
    ensures r.Some? ==> i <= r.value && MatchAt(t, r.value)
    ensures forall q :: i <= q && (r.None? || q < r.value) ==> !MatchAt(t, q)
    decreases |t| - i
  {
    if i + |Key| >= |t| then None
    else if MatchAt(t, i) then Some(i)
    else SearchFrom(t, i + 1)
  }

  /** The length of the run of digits starting at `j` (greedy `\d+`). */
  function DigitRun(t: string, j: nat): (r: nat)
    ensures j + r <= |t| || r == 0
    ensures forall k :: j <= k < j + r ==> IsDigit(t[k])
    ensures j + r < |t| ==> !IsDigit(t[j + r])
    decreases |t| - j
  {
    if j < |t| && IsDigit(t[j]) then 1 + DigitRun(t, j + 1) else 0
  }

  /** `_extract_resident_id`: the digits after the leftmost "resident "
      that is followed by a digit, in the lower-cased query; 871 when there
      is none. */
  function ExtractResidentId(query: string): (r: int)
    ensures SearchFrom(Lower(query), 0).None? ==> r == DefaultResidentId
    ensures SearchFrom(Lower(query), 0).Some? ==> r >= 0
  {
    var t := Lower(query);
    match SearchFrom(t, 0)
    case None => DefaultResidentId
    case Some(p) =>
      var j := p + |Key|;
      var n := DigitRun(t, j);
      assert AllDigits(t[j..j + n]);
      DigitsValue(t[j..j + n])
  }

  /** A query that never says "resident " gives the default resident. */
  lemma ExtractDefault(query: string)
    requires !Occurs(Lower(query), Key)
    ensures ExtractResidentId(query) == DefaultResidentId
  {
    var t := Lower(query);
    assert forall q :: !OccursAt(t, Key, q);
    assert SearchFrom(t, 0).None?;
  }

  const QueryPrefix: string := "Analyze resident "
  const QuerySuffix: string := " for health deterioration indicators"
  const IdPrefix: string := "resident_"

  /** The dataset's `input_query` and `input_id` for one resident. */
  function InputQuery(id: int): string {
    QueryPrefix + IntToString(id) + QuerySuffix
  }

  function InputId(id: int): (r: string)
    ensures StartsWith(r, IdPrefix) && r[|IdPrefix|..] == IntToString(id)
  {
    IdPrefix + IntToString(id)
  }

  datatype DatasetRow = DatasetRow(inputQuery: string, inputId: string, residentId: int)

  function Dataset(ids: seq<int>): (rows: seq<DatasetRow>)
    ensures |rows| == |ids|
    ensures forall k :: 0 <= k < |ids| ==> rows[k] == DatasetRow(InputQuery(ids[k]), InputId(ids[k]), ids[k])
  {
    seq(|ids|, k requires 0 <= k < |ids| => DatasetRow(InputQuery(ids[k]), InputId(ids[k]), ids[k]))
  }

  /** Digits are their own lower case. */
  lemma LowerDigits(d: string)
    requires AllDigits(d)
    ensures Lower(d) == d
  {
  }

  lemma LowerPrefix()
    ensures Lower(QueryPrefix) == "analyze resident "
  {
  }

  /** The lower-cased query of a resident with a non-negative id. */
  lemma QueryLowered(id: nat)
    ensures Lower(InputQuery(id)) == "analyze resident " + NatToString(id) + Lower(QuerySuffix)
  {
    var d := NatToString(id);
    LowerConcat(QueryPrefix + d, QuerySuffix);
    LowerConcat(QueryPrefix, d);
    LowerPrefix();
    LowerDigits(d);
  }

  /** In such a query the pattern first starts after "analyze ". */
  lemma SearchFindsKey(t: string, d: string, rest: string)
    requires t == "analyze resident " + d + rest && |d| > 0 && IsDigit(d[0])
    ensures SearchFrom(t, 0) == Some(8)
  {
    forall j | 0 <= j < 8 ensures !MatchAt(t, j) {
      Mismatch(t, Key, j, 0);
    }
    assert t[8..8 + |Key|] == Key;
    assert MatchAt(t, 8);
  }

  /** What the extractor reads once it knows where the match is and how
      long the digit run after it is. */
  lemma ExtractAt(query: string, p: nat, n: nat)
    requires SearchFrom(Lower(query), 0) == Some(p)
    requires p + |Key| + n < |Lower(query)|
    requires forall k :: p + |Key| <= k < p + |Key| + n ==> IsDigit(Lower(query)[k])
    requires !IsDigit(Lower(query)[p + |Key| + n])
    ensures ExtractResidentId(query) == DigitsValue(Lower(query)[p + |Key|..p + |Key| + n])
  {
    DigitRunOf(Lower(query), p + |Key|, n);
  }

  /** The id a dataset row was built from is read back from its query. */
  lemma ExtractRoundTrip(id: nat)
    ensures ExtractResidentId(InputQuery(id)) == id
  {
    var d := NatToString(id);
    var q := InputQuery(id);
    var ls := Lower(QuerySuffix);
    var t := Lower(q);
    QueryLowered(id);
    assert t == "analyze resident " + d + ls;
    SearchFindsKey(t, d, ls);
    assert t[17..17 + |d|] == d;
    assert ls[0] == ' ' by { assert QuerySuffix[0] == ' '; }
    assert t[17 + |d|] == ls[0];
    ExtractAt(q, 8, |d|);
    NatToStringRoundTrip(id);
  }

  /** A run of exactly `n` digits ends at the first non-digit. */
  lemma {:induction false} DigitRunOf(t: string, j: nat, n: nat)
    requires j + n < |t|
    requires forall k :: j <= k < j + n ==> IsDigit(t[k])
    requires !IsDigit(t[j + n])
    ensures DigitRun(t, j) == n
    decreases n
  {
    if n > 0 {
      DigitRunOf(t, j + 1, n - 1);
    }
  }

  /** Every dataset row names its resident in a way the extractor recovers,
      and its input id carries the same number. */
  lemma DatasetRoundTrip(ids: seq<int>, k: nat)
    requires k < |ids| && ids[k] >= 0
    ensures ExtractResidentId(Dataset(ids)[k].inputQuery) == ids[k]
    ensures DigitsValue(Dataset(ids)[k].inputId[|IdPrefix|..]) == ids[k]
  {
    ExtractRoundTrip(ids[k]);
    NatToStringRoundTrip(ids[k]);
  }

  // ---------------------------------------------------------------------
  // The settings a run uses

  const DefaultVersion: string := "v1.0"
  const DefaultModel: string := "claude-sonnet-4-5"
  const DefaultSampleSize: int := 10
  const RunNamePrefix: string := "Eval_"

  /** The oldest pending run, as stored. */
  datatype PendingRow = PendingRow(runId: string, runName: Option<string>, promptVersion: Option<string>,
                                   model: Option<string>, sampleSize: Option<int>)

  datatype PendingConfig = PendingConfig(runId: string, runName: Option<string>, promptVersion: string,
                                         model: string, sampleSize: int)

  /** Empty or missing stored values fall back to "v1.0",
      "claude-sonnet-4-5" and 10; the run name is taken as stored. */
  function PendingDefaults(row: PendingRow): (c: PendingConfig)
    ensures c.runId == row.runId && c.runName == row.runName
    ensures row.promptVersion.Some? && row.promptVersion.value != "" ==> c.promptVersion == row.promptVersion.value
    ensures row.promptVersion.None? || row.promptVersion.value == "" ==> c.promptVersion == DefaultVersion
    ensures row.model.Some? && row.model.value != "" ==> c.model == row.model.value
    ensures row.model.None? || row.model.value == "" ==> c.model == DefaultModel
    ensures c.sampleSize == (if row.sampleSize.Some? && row.sampleSize.value != 0 then row.sampleSize.value else DefaultSampleSize)
  {
    PendingConfig(row.runId, row.runName, TextOr(row.promptVersion, DefaultVersion), TextOr(row.model, DefaultModel),
                  if row.sampleSize.Some? && row.sampleSize.value != 0 then row.sampleSize.value else DefaultSampleSize)
  }

  /** Command-line arguments; `None` when not given. */
  datatype Args = Args(runName: Option<string>, promptVersion: Option<string>, model: Option<string>, sampleSize: Option<int>)

  /** The environment variables the job reads, when set. */
  datatype Env = Env(runName: Option<string>, promptVersion: Option<string>, model: Option<string>,
                     sampleSize: Option<string>)

  datatype RunConfig = RunConfig(runName: string, promptVersion: string, model: string, sampleSize: int)

  /** `os.environ.get(name, default)`: a set variable wins, even when empty. */
  function EnvOr(v: Option<string>, default: string): (r: string)
    ensures v.Some? ==> r == v.value
    ensures v.None? ==> r == default
  {
    if v.Some? then v.value else default
  }

  /** `int()` on the SAMPLE_SIZE variable, which raises on anything but
      digits (signs and surrounding blanks are not modelled). */
  function EnvSampleSize(v: Option<string>): (r: Result<int>)
    ensures v.None? ==> r == Ok(DefaultSampleSize)
    ensures r.Ok? && v.Some? ==> AllDigits(v.value) && |v.value| > 0 && r.value == DigitsValue(v.value)
    ensures r.Err? <==> v.Some? && !(|v.value| > 0 && AllDigits(v.value))
  {
    if v.None? then Ok(DefaultSampleSize)
    else if |v.value| > 0 && AllDigits(v.value) then Ok(DigitsValue(v.value))
    else Err("invalid literal for int() with base 10")
  }

  /** `main`: a given argument always wins; otherwise the pending run's
      value, or else the environment's or the default; an empty or missing
      run name finally becomes "Eval_<version>_<stamp>". */
  function ResolveConfig(args: Args, pending: Option<PendingConfig>, env: Env, startStamp: string, endStamp: string): (r: Result<RunConfig>)
  {
    var name: Option<string> :=
      if args.runName.Some? then args.runName
      else if pending.Some? then pending.value.runName
      else Some(EnvOr(env.runName, RunNamePrefix + startStamp));
    var version :=
      if args.promptVersion.Some? then args.promptVersion.value
      else if pending.Some? then pending.value.promptVersion
      else EnvOr(env.promptVersion, DefaultVersion);
    var model :=
      if args.model.Some? then args.model.value
      else if pending.Some? then pending.value.model
      else EnvOr(env.model, DefaultModel);
    var size: Result<int> :=
      if args.sampleSize.Some? then Ok(args.sampleSize.value)
      else if pending.Some? then Ok(pending.value.sampleSize)
      else EnvSampleSize(env.sampleSize);
    var finalName := if name.None? || name.value == "" then RunNamePrefix + version + "_" + endStamp else name.value;
    if size.Err? then Err(size.msg) else Ok(RunConfig(finalName, version, model, size.value))
  }

  /** Arguments given on the command line are used as given. */
  lemma ArgumentsWin(args: Args, pending: Option<PendingConfig>, env: Env, s1: string, s2: string)
    requires args.promptVersion.Some? && args.model.Some? && args.sampleSize.Some?
    ensures ResolveConfig(args, pending, env, s1, s2).Ok?
    ensures var c := ResolveConfig(args, pending, env, s1, s2).value;
      c.promptVersion == args.promptVersion.value && c.model == args.model.value
      && c.sampleSize == args.sampleSize.value
      && (args.runName.Some? && args.runName.value != "" ==> c.runName == args.runName.value)
  {
  }

  /** Without arguments, a pending run decides, and its missing run name is
      replaced by one naming the version. */
  lemma PendingDecides(pending: PendingConfig, env: Env, s1: string, s2: string)
    ensures var r := ResolveConfig(Args(None, None, None, None), Some(pending), env, s1, s2);
      r == Ok(RunConfig(if pending.runName.None? || pending.runName.value == "" then RunNamePrefix + pending.promptVersion + "_" + s2
                        else pending.runName.value,
                        pending.promptVersion, pending.model, pending.sampleSize))
  {
  }

  /** With nothing given, pending or set, the defaults apply. */
  lemma NothingGiven(s1: string, s2: string)
    ensures ResolveConfig(Args(None, None, None, None), None, Env(None, None, None, None), s1, s2)
      == Ok(RunConfig(RunNamePrefix + s1, DefaultVersion, DefaultModel, DefaultSampleSize))
  {
  }

  /** A given but empty run name is still replaced. */
  lemma EmptyNameReplaced(version: string, model: string, size: int, pending: Option<PendingConfig>, env: Env, s1: string, s2: string)
    ensures ResolveConfig(Args(Some(""), Some(version), Some(model), Some(size)), pending, env, s1, s2)
      == Ok(RunConfig(RunNamePrefix + version + "_" + s2, version, model, size))
  {
  }

  // ---------------------------------------------------------------------
  // Stored latency

  /** Total time divided by the sample size (floor), or 0 without samples. */
  function AverageLatency(totalMs: int, sampleSize: int): (r: int)
    ensures sampleSize <= 0 ==> r == 0
    ensures sampleSize > 0 ==> r * sampleSize <= totalMs < (r + 1) * sampleSize
  {
    if sampleSize > 0 then totalMs / sampleSize else 0
  }

  // ---------------------------------------------------------------------
  // Waiting for the metrics

  const MaxWait: nat := 300
  const WaitInterval: nat := 10

  predicate Finished(status: string) {
    status == "COMPLETED" || status == "PARTIALLY_COMPLETED" || status == "CANCELLED"
  }

  /** Poll the run's status every ten seconds for at most five minutes,
      stopping at the first finished status; `statusAt(k)` is what the k-th
      poll reports. */
  method WaitForMetrics(statusAt: nat -> string) returns (polls: nat, sleeps: nat)
    ensures polls <= MaxWait / WaitInterval && sleeps <= polls
    ensures forall k :: 0 <= k < sleeps ==> !Finished(statusAt(k))
    ensures polls == sleeps + 1 ==> Finished(statusAt(sleeps))
    ensures polls == sleeps ==> polls == MaxWait / WaitInterval
    ensures polls == sleeps || polls == sleeps + 1
  {
    var elapsed := 0;
    polls, sleeps := 0, 0;
    while elapsed < MaxWait
      invariant elapsed == sleeps * WaitInterval && elapsed <= MaxWait
      invariant polls == sleeps
      invariant forall k :: 0 <= k < sleeps ==> !Finished(statusAt(k))
      decreases MaxWait - elapsed
    {
      var status := statusAt(polls);
      polls := polls + 1;
      if Finished(status) {
        return;
      }
      sleeps := sleeps + 1;
      elapsed := elapsed + WaitInterval;
    }
  }
}

=== FILE: feedback_loop.dfy ===
/** The feedback loop page: reject rates and their traffic-light status, the
    filters of the statistics query, the indicator text and the prompt
    filled for the improvement suggestions, and the extraction of a fenced
    JSON answer. */
module FeedbackLoop {
  import opened Wrappers
  import opened Text
  import DriAnalysis
  import Comparison

  // ---------------------------------------------------------------------
  // Reject rates

  /** round(100 * rejected / total, 1), in tenths of a percent, rounding the
      exact value to the nearest tenth; 0 when there are no reviews. */
  function RejectRateTenths(rejected: int, total: int): (r: int)
    ensures total <= 0 ==> r == 0
    ensures total > 0 ==> -total < 2 * r * total - 2000 * rejected <= total
  {
    if total > 0 then
      var q := (2000 * rejected + total) / (2 * total);
      assert 2 * total * q <= 2000 * rejected + total < 2 * total * (q + 1);
      q
    else 0
  }

  /** The rate is a percentage when the rejected reviews are among the
      total, and it never falls as rejections grow. */
  lemma RejectRateRange(rejected: int, total: int)
    requires 0 <= rejected <= total
    ensures 0 <= RejectRateTenths(rejected, total) <= 1000
    ensures rejected == total && total > 0 ==> RejectRateTenths(rejected, total) == 1000
    ensures rejected == 0 ==> RejectRateTenths(rejected, total) == 0
  {
    var r := RejectRateTenths(rejected, total);
    if total > 0 {
      MulCancelLt(-1, 2 * r, total);
      MulCancelLe(2 * r, 2001, total);
      if rejected == total {
        MulCancelLt(1999, 2 * r, total);
      }
      if rejected == 0 {
        MulCancelLe(2 * r, 1, total);
      }
    }
  }

  lemma RejectRateMonotone(a: int, b: int, total: int)
    requires a <= b
    ensures RejectRateTenths(a, total) <= RejectRateTenths(b, total)
  {
    if total > 0 {
      var ra := RejectRateTenths(a, total);
      var rb := RejectRateTenths(b, total);
      assert 2 * ra * total - 2 * rb * total == 2 * ((ra - rb) * total);
      MulCancelLt(ra - rb, 1, total);
    }
  }

  lemma MulCancelLe(x: int, y: int, t: int)
    requires t > 0 && x * t <= y * t
    ensures x <= y
  {
  }

  lemma MulCancelLt(x: int, y: int, t: int)
    requires t > 0 && x * t < y * t
    ensures x < y
  {
  }

  datatype Status = Red | Yellow | Green

  /** The light shown beside an indicator's reject rate. */
  function RateStatus(rate: real): (r: Status)
    ensures r == Red <==> rate >= 50.0
    ensures r == Yellow <==> 20.0 <= rate < 50.0
    ensures r == Green <==> rate < 20.0
  {
    if rate >= 50.0 then Red else if rate >= 20.0 then Yellow else Green
  }

  function Severity(s: Status): nat {
    match s
    case Green => 0
    case Yellow => 1
    case Red => 2
  }

  /** A higher rate never shows a milder light. */
  lemma RateStatusMonotone(a: real, b: real)
    requires a <= b
    ensures Severity(RateStatus(a)) <= Severity(RateStatus(b))
  {
  }

  // ---------------------------------------------------------------------
  // Query filters

  const AllFacilities: string := "All Facilities"
  const ClauseSeparator: string := " AND "

  function VersionClause(v: string): string {
    "PROMPT_VERSION = '" + v + "'"
  }

  function FacilityClause(f: string): string {
    "CLIENT_SYSTEM_KEY = '" + f + "'"
  }

  /** A selected (truthy) version and a facility other than "All Facilities"
      each give one clause, version first. */
  function WhereClauses(version: Option<string>, facility: string): (r: seq<string>)
    ensures |r| <= 2
  {
    (if version.Some? && version.value != "" then [VersionClause(version.value)] else [])
    + (if facility != AllFacilities then [FacilityClause(facility)] else [])
  }

  /** "WHERE " and the clauses joined with " AND ", or nothing. */
  function WhereSql(clauses: seq<string>): (r: string)
    ensures r == "" <==> |clauses| == 0
    ensures |clauses| > 0 ==> StartsWith(r, "WHERE ")
  {
    if |clauses| > 0 then "WHERE " + Join(clauses, ClauseSeparator) else ""
  }

  /** The WHERE text is empty exactly when no filter is chosen, and shows
      each chosen one. */
  lemma WhereShowsFilters(version: Option<string>, facility: string)
    ensures WhereSql(WhereClauses(version, facility)) == ""
      <==> (version.None? || version.value == "") && facility == AllFacilities
    ensures version.Some? && version.value != "" ==>
      Occurs(WhereSql(WhereClauses(version, facility)), VersionClause(version.value))
    ensures facility != AllFacilities ==>
      Occurs(WhereSql(WhereClauses(version, facility)), FacilityClause(facility))
  {
    var cs := WhereClauses(version, facility);
    if version.Some? && version.value != "" {
      WhereShowsClause(cs, 0);
    }
    if facility != AllFacilities {
      WhereShowsClause(cs, |cs| - 1);
    }
  }

  /** Each clause appears in the WHERE text. */
  lemma WhereShowsClause(cs: seq<string>, k: nat)
    requires k < |cs|
    ensures Occurs(WhereSql(cs), cs[k])
  {
    JoinHasPart(cs, ClauseSeparator, k);
    var i := JoinOffset(cs, ClauseSeparator, k);
    assert OccursAt(WhereSql(cs), cs[k], |"WHERE "| + i);
  }

  datatype Period = AllTime | Last7Days | Last30Days | Last90Days

  function PeriodDays(p: Period): Option<int> {
    match p
    case AllTime => None
    case Last7Days => Some(7)
    case Last30Days => Some(30)
    case Last90Days => Some(90)
  }

  /** The rejection-time filter; none when no (truthy) day count is chosen. */
  function TimeFilter(days: Option<int>): (r: string)
    ensures r == "" <==> days.None? || days.value == 0
  {
    if days.Some? && days.value != 0 then
      "ir.REJECTED_TIMESTAMP >= DATEADD(day, -" + IntToString(days.value) + ", CURRENT_TIMESTAMP())"
    else ""
  }

  /** Only "All Time" leaves the rejections unfiltered, and a chosen period
      shows its day count. */
  lemma PeriodFilter(p: Period)
    ensures TimeFilter(PeriodDays(p)) == "" <==> p == AllTime
    ensures p != AllTime ==> Occurs(TimeFilter(PeriodDays(p)), IntToString(PeriodDays(p).value))
  {
    if p != AllTime {
      var t := TimeFilter(PeriodDays(p));
      var prefix := "ir.REJECTED_TIMESTAMP >= DATEADD(day, -";
      assert OccursAt(t, IntToString(PeriodDays(p).value), |prefix|);
    }
  }

  // ---------------------------------------------------------------------
  // Indicator text for the suggestion prompt

  const NoKeywords: string := "N/A"

  /** One current rule of the catalogue, as the page reads it. KEYWORDS is
      an ARRAY column, which the connector hands over as its JSON text. */
  datatype Rule = Rule(deficitId: string, name: string, deficitType: string, definition: string,
                       expiryDays: Option<int>, keywords: Comparison.KeywordColumn)

  /** `', '.join(x) if x else 'N/A'` applied to the column as delivered:
      NULL and the empty text give "N/A"; a text is joined character by
      character. */
  function KeywordsAsWritten(cell: Option<string>): (r: string)
    ensures cell.None? || cell == Some("") ==> r == NoKeywords
    ensures cell.Some? && cell.value != "" ==>
      |r| == 3 * |cell.value| - 2
      && (forall i :: 0 <= i < |cell.value| ==> r[3 * i] == cell.value[i])
      && (forall i :: 0 <= i < |cell.value| - 1 ==> r[3 * i + 1] == ',' && r[3 * i + 2] == ' ')
  {
    if cell.Some? && cell.value != "" then
      var t := cell.value;
      var chars := seq(|t|, i requires 0 <= i < |t| => [t[i]]);
      SpelledOut(chars, t);
      Join(chars, ", ")
    else NoKeywords
  }

  /** Joining one-character pieces with ", " puts piece i at position 3i
      and the separator right after it. */
  lemma {:induction false} SpelledOut(chars: seq<string>, t: string)
    requires |t| >= 1 && |chars| == |t|
    requires forall i :: 0 <= i < |t| ==> chars[i] == [t[i]]
    ensures |Join(chars, ", ")| == 3 * |t| - 2
    ensures forall i :: 0 <= i < |t| ==> Join(chars, ", ")[3 * i] == t[i]
    ensures forall i :: 0 <= i < |t| - 1 ==> Join(chars, ", ")[3 * i + 1] == ',' && Join(chars, ", ")[3 * i + 2] == ' '
    decreases |t|
  {
    if |t| > 1 {
      SpelledOut(chars[1..], t[1..]);
      var j := Join(chars, ", ");
      var rest := Join(chars[1..], ", ");
      assert j == [t[0]] + ", " + rest;
      forall i | 0 <= i < |t| ensures j[3 * i] == t[i] {
        if i > 0 {
          assert j[3 * i] == rest[3 * (i - 1)];
        }
      }
      forall i | 0 <= i < |t| - 1 ensures j[3 * i + 1] == ',' && j[3 * i + 2] == ' ' {
        if i > 0 {
          assert j[3 * i + 1] == rest[3 * (i - 1) + 1] && j[3 * i + 2] == rest[3 * (i - 1) + 2];
        }
      }
    } else {
      assert Join(chars, ", ") == chars[0];
    }
  }

  /** Spelled out, the keyword array shows no keyword of two or more
      characters: every character is followed by ", ". So the array
      `["fall"]` reaches the prompt as `[, ", f, a, l, l, ", ]`. */
  lemma KeywordsSpelledOut(raw: string, w: string)
    requires raw != ""
    requires |w| >= 2 && w[0] != ',' && w[0] != ' ' && w[1] != ','
    ensures KeywordsAsWritten(Some(raw)) != NoKeywords
    ensures !Occurs(KeywordsAsWritten(Some(raw)), w)
  {
    var r := KeywordsAsWritten(Some(raw));
    forall i | 0 <= i ensures !OccursAt(r, w, i) {
      if i + |w| <= |r| {
        var q := i / 3;
        if i % 3 == 0 {
          assert r[3 * q + 1] == ',';
          Mismatch(r, w, i, 1);
        } else if i % 3 == 1 {
          assert r[3 * q + 1] == ',';
          Mismatch(r, w, i, 0);
        } else {
          assert r[3 * q + 2] == ' ';
          Mismatch(r, w, i, 0);
        }
      }
    }
  }

  /** The keyword list JSON parsing gives, joined with ", ", or "N/A" when
      there are none. */
  function KeywordsListText(keywords: seq<string>): (r: string)
    ensures |keywords| == 0 ==> r == NoKeywords
    ensures forall k :: 0 <= k < |keywords| ==> Occurs(r, keywords[k])
  {
    if |keywords| > 0 then
      var r := Join(keywords, ", ");
      forall k | 0 <= k < |keywords| ensures Occurs(r, keywords[k]) {
        JoinHasPart(keywords, ", ", k);
      }
      r
    else NoKeywords
  }

  /** The keyword line of a rule, with the column read as a keyword list
      first. */
  function KeywordsText(col: Comparison.KeywordColumn): (r: string)
    ensures Comparison.ParseKeywords(col) == [] ==> r == NoKeywords
    ensures forall k :: 0 <= k < |Comparison.ParseKeywords(col)| ==> Occurs(r, Comparison.ParseKeywords(col)[k])
  {
    KeywordsListText(Comparison.ParseKeywords(col))
  }

  /** An array delivered as JSON text shows each of its keywords. */
  lemma JsonKeywordsShown(raw: string, items: seq<string>)
    requires StartsWith(Strip(raw), "[")
    ensures forall k :: 0 <= k < |items| ==> Occurs(KeywordsText(Comparison.TextValue(raw, Some(items))), items[k])
    ensures |items| == 0 ==> KeywordsText(Comparison.TextValue(raw, Some(items))) == NoKeywords
  {
  }

  function RuleBlock(rule: Rule): (r: string)
    ensures |r| > 0 && r[0] == '\n'
  {
    "\n" + rule.deficitId + " - " + rule.name
    + "\n  Type: " + rule.deficitType
    + "\n  Definition: " + rule.definition
    + "\n  Expiry Days: " + DriAnalysis.ExpiryText(rule.expiryDays)
    + "\n  Keywords: " + KeywordsText(rule.keywords) + "\n"
  }

  function RuleBlocks(rules: seq<Rule>): (r: seq<string>)
    ensures |r| == |rules| && forall k :: 0 <= k < |rules| ==> r[k] == RuleBlock(rules[k])
  {
    seq(|rules|, k requires 0 <= k < |rules| => RuleBlock(rules[k]))
  }

  /** The blocks of the current rules, joined with newlines. */
  function RulesText(rules: seq<Rule>): string {
    Join(RuleBlocks(rules), "\n")
  }

  /** The text is empty exactly when there are no rules, and shows every
      rule's block. */
  lemma RulesTextShowsEach(rules: seq<Rule>)
    ensures RulesText(rules) == "" <==> |rules| == 0
    ensures forall k :: 0 <= k < |rules| ==> Occurs(RulesText(rules), RuleBlock(rules[k]))
  {
    JoinEmpty(RuleBlocks(rules), "\n");
    forall k | 0 <= k < |rules| ensures Occurs(RulesText(rules), RuleBlock(rules[k])) {
      JoinHasPart(RuleBlocks(rules), "\n", k);
    }
  }

  // ---------------------------------------------------------------------
  // Filling the prompt

  /** The stand-ins for the per-facility and per-resident parts. */
  const PreviewMappings: string := "[Client-specific form mappings]"
  const PreviewContext: string := "[Resident clinical data]"
  const SuggestionMappings: string := "[Client-specific form mappings - varies per facility]"
  const SuggestionContext: string := "[Resident clinical data - varies per resident]"

  /** The indicator text first, then the two stand-ins. */
  function FeedbackFill(template: string, rag: string, mappings: string, context: string): string {
    Replace(Replace(Replace(template, DriAnalysis.IndicatorSlot, rag), DriAnalysis.FormMappingsSlot, mappings),
            DriAnalysis.ContextSlot, context)
  }

  /** Text without a '{' holds no placeholder. */
  lemma NoBraceNoSlot(s: string, slot: string)
    requires |slot| > 0 && slot[0] == '{'
    requires '{' !in s
    ensures !Occurs(s, slot)
  {
    forall j | 0 <= j && j + |slot| <= |s| ensures !OccursAt(s, slot, j) {
      Mismatch(s, slot, j, 0);
    }
  }

  lemma StandInsHaveNoSlot(slot: string)
    requires |slot| > 0 && slot[0] == '{'
    ensures !Occurs(PreviewMappings, slot) && !Occurs(PreviewContext, slot)
    ensures !Occurs(SuggestionMappings, slot) && !Occurs(SuggestionContext, slot)
  {
    NoBraceNoSlot(PreviewMappings, slot);
    NoBraceNoSlot(PreviewContext, slot);
    NoBraceNoSlot(SuggestionMappings, slot);
    NoBraceNoSlot(SuggestionContext, slot);
  }

  /** The placeholders are filled with the given texts: the indicator slot
      with the indicator text (when that holds no placeholder), the other
      two with their stand-ins. */
  lemma FeedbackFillSlots(rag: string)
    requires !Occurs(rag, DriAnalysis.FormMappingsSlot) && !Occurs(rag, DriAnalysis.ContextSlot)
    ensures FeedbackFill(DriAnalysis.IndicatorSlot, rag, SuggestionMappings, SuggestionContext) == rag
    ensures FeedbackFill(DriAnalysis.FormMappingsSlot, rag, SuggestionMappings, SuggestionContext) == SuggestionMappings
    ensures FeedbackFill(DriAnalysis.ContextSlot, rag, SuggestionMappings, SuggestionContext) == SuggestionContext
  {
    ReplaceWhole(DriAnalysis.IndicatorSlot, rag);
    ReplaceAbsent(rag, DriAnalysis.FormMappingsSlot, SuggestionMappings);
    ReplaceAbsent(rag, DriAnalysis.ContextSlot, SuggestionContext);
    StandInsHaveNoSlot(DriAnalysis.ContextSlot);
    SlotsDistinct();
    ReplaceAbsent(DriAnalysis.FormMappingsSlot, DriAnalysis.IndicatorSlot, rag);
    ReplaceWhole(DriAnalysis.FormMappingsSlot, SuggestionMappings);
    ReplaceAbsent(SuggestionMappings, DriAnalysis.ContextSlot, SuggestionContext);
    ReplaceAbsent(DriAnalysis.ContextSlot, DriAnalysis.IndicatorSlot, rag);
    ReplaceAbsent(DriAnalysis.ContextSlot, DriAnalysis.FormMappingsSlot, SuggestionMappings);
    ReplaceWhole(DriAnalysis.ContextSlot, SuggestionContext);
  }

  /** The form-mapping and context placeholders hold neither the indicator
      placeholder nor each other. */
  lemma SlotsDistinct()
    ensures !Occurs(DriAnalysis.FormMappingsSlot, DriAnalysis.IndicatorSlot)
    ensures !Occurs(DriAnalysis.ContextSlot, DriAnalysis.IndicatorSlot)
    ensures !Occurs(DriAnalysis.ContextSlot, DriAnalysis.FormMappingsSlot)
  {
    assert |DriAnalysis.FormMappingsSlot| < |DriAnalysis.IndicatorSlot|;
    assert |DriAnalysis.ContextSlot| < |DriAnalysis.IndicatorSlot|;
    assert |DriAnalysis.ContextSlot| < |DriAnalysis.FormMappingsSlot|;
  }

  /** Unlike the analysis, which fills the indicator text last, this page
      fills it first, so a placeholder inside the indicator text is filled
      too. */
  lemma IndicatorTextIsRescanned()
    ensures FeedbackFill(DriAnalysis.IndicatorSlot, DriAnalysis.ContextSlot, PreviewMappings, PreviewContext) == PreviewContext
    ensures DriAnalysis.FillTemplate(DriAnalysis.IndicatorSlot, PreviewMappings, PreviewContext, DriAnalysis.ContextSlot)
      == DriAnalysis.ContextSlot
  {
    ReplaceWhole(DriAnalysis.IndicatorSlot, DriAnalysis.ContextSlot);
    SlotsDistinct();
    ReplaceAbsent(DriAnalysis.ContextSlot, DriAnalysis.FormMappingsSlot, PreviewMappings);
    ReplaceWhole(DriAnalysis.ContextSlot, PreviewContext);
    StandInsHaveNoSlot(DriAnalysis.ContextSlot);
    StandInsHaveNoSlot(DriAnalysis.IndicatorSlot);
    DriAnalysis.FillSlots(PreviewMappings, PreviewContext, DriAnalysis.ContextSlot);
  }

  // ---------------------------------------------------------------------
  // Fenced JSON answers

  const JsonFence: string := "```json"
  const Fence: string := "```"

  lemma SplitAtOccurrence(s: string, sep: string)
    requires |sep| > 0 && Find(s, sep) >= 0
    ensures |Split(s, sep)| >= 2
  {
  }

  /** A "```json" fence starts with a plain one. */
  lemma JsonFenceIsFence(s: string)
    ensures Find(s, JsonFence) >= 0 ==> Find(s, Fence) >= 0
  {
    FindSpec(s, JsonFence);
    FindSpec(s, Fence);
    var i := Find(s, JsonFence);
    if i >= 0 {
      assert s[i..i + |Fence|] == s[i..i + |JsonFence|][..|Fence|];
      assert JsonFence[..|Fence|] == Fence;
      assert OccursAt(s, Fence, i);
    }
  }

  /** The text after the first "```json" up to the next "```"; else the text
      between the first two "```"; else all of it; then stripped. */
  function FencedJson(response: string): (r: string)
    ensures Find(response, Fence) < 0 ==> r == Strip(response)
  {
    JsonFenceIsFence(response);
    if Find(response, JsonFence) >= 0 then
      SplitAtOccurrence(response, JsonFence);
      Strip(Split(Split(response, JsonFence)[1], Fence)[0])
    else if Find(response, Fence) >= 0 then
      SplitAtOccurrence(response, Fence);
      Strip(Split(Split(response, Fence)[1], Fence)[0])
    else Strip(response)
  }

  /** Text without a backtick holds no fence before `at`. */
  lemma NoBacktickFind(t: string, fence: string, at: nat)
    requires |fence| > 0 && fence[0] == '`'
    requires at <= |t| && forall k :: 0 <= k < at ==> t[k] != '`'
    ensures forall j :: 0 <= j < at ==> !OccursAt(t, fence, j)
  {
    forall j | 0 <= j < at ensures !OccursAt(t, fence, j) {
      if j + |fence| <= |t| {
        Mismatch(t, fence, j, 0);
      }
    }
  }

  /** An answer that ends with a body fenced as "```json ... ```" has that
      body parsed. */
  lemma FencedJsonRoundTrip(before: string, body: string)
    requires forall k :: 0 <= k < |before| ==> before[k] != '`'
    requires forall k :: 0 <= k < |body| ==> body[k] != '`'
    ensures FencedJson(before + JsonFence + body + Fence) == Strip(body)
  {
    var s := before + JsonFence + body + Fence;
    assert OccursAt(s, JsonFence, |before|);
    NoBacktickFind(s, JsonFence, |before|);
    SplitFirst(s, JsonFence, |before|);
    var rest := s[|before| + |JsonFence|..];
    assert rest == body + Fence;
    NoBacktickFind(rest, JsonFence, |body|);
    SplitNone(rest, JsonFence);
    assert OccursAt(rest, Fence, |body|);
    NoBacktickFind(rest, Fence, |body|);
    SplitFirst(rest, Fence, |body|);
    assert rest[..|body|] == body;
  }

  /** Without a "```json" fence, an answer that ends with a body between
      plain fences has that body parsed. */
  lemma FencedPlainRoundTrip(before: string, body: string)
    requires forall k :: 0 <= k < |before| ==> before[k] != '`'
    requires forall k :: 0 <= k < |body| ==> body[k] != '`'
    requires !Occurs(before + Fence + body + Fence, JsonFence)
    ensures FencedJson(before + Fence + body + Fence) == Strip(body)
  {
    var s := before + Fence + body + Fence;
    FindSpec(s, JsonFence);
    assert OccursAt(s, Fence, |before|);
    FindSpec(s, Fence);
    PlainFenceBody(before, body);
  }

  /** The piece after the first plain fence, up to the next, is the body. */
  lemma PlainFenceBody(before: string, body: string)
    requires forall k :: 0 <= k < |before| ==> before[k] != '`'
    requires forall k :: 0 <= k < |body| ==> body[k] != '`'
    ensures |Split(before + Fence + body + Fence, Fence)| >= 2
    ensures Split(Split(before + Fence + body + Fence, Fence)[1], Fence)[0] == body
  {
    var s := before + Fence + body + Fence;
    assert OccursAt(s, Fence, |before|);
    NoBacktickFind(s, Fence, |before|);
    SplitFirst(s, Fence, |before|);
    var rest := s[|before| + |Fence|..];
    assert rest == body + Fence;
    assert OccursAt(rest, Fence, |body|);
    NoBacktickFind(rest, Fence, |body|);
    SplitFirst(rest, Fence, |body|);
    assert rest[..|body|] == body;
    NoBacktickFind(body, Fence, |body|);
    SplitNone(body, Fence);
  }
}

=== FILE: first_term_script.dfy ===
/** The quick keyword script: for each indicator it records only the first
    of its terms that occurs in the lower-cased text. */
module FirstTermScript {
  import opened Wrappers
  import opened Text
  import SubstringDetector

  type Indicator = SubstringDetector.Indicator

  /** The first term, in list order, that occurs in the text (the loop's
      `break`). */
  function FirstTerm(terms: seq<string>, lowered: string): (r: Option<string>)
    ensures r.Some? ==> r.value in terms && Occurs(lowered, r.value)
    ensures r.None? <==> forall j :: 0 <= j < |terms| ==> !Occurs(lowered, terms[j])
  {
    if terms == [] then None
    else
      ContainsSpec(lowered, terms[0]);
      if Contains(lowered, terms[0]) then Some(terms[0])
      else
        var rest := FirstTerm(terms[1..], lowered);
        assert forall j :: 1 <= j < |terms| ==> terms[j] == terms[1..][j - 1];
        rest
  }

  /** The recorded term is the first in list order that occurs. */
  lemma {:induction false} FirstTermIsFirst(terms: seq<string>, lowered: string)
    requires FirstTerm(terms, lowered).Some?
    ensures exists i :: (0 <= i < |terms| && terms[i] == FirstTerm(terms, lowered).value
      && forall j :: 0 <= j < i ==> !Occurs(lowered, terms[j]))
  {
    ContainsSpec(lowered, terms[0]);
    if !Contains(lowered, terms[0]) {
      FirstTermIsFirst(terms[1..], lowered);
      var i :| 0 <= i < |terms[1..]| && terms[1..][i] == FirstTerm(terms[1..], lowered).value
        && forall j :: 0 <= j < i ==> !Occurs(lowered, terms[1..][j]);
      assert terms[i + 1] == terms[1..][i];
      forall j | 0 <= j < i + 1 ensures !Occurs(lowered, terms[j]) {
        if j > 0 {
          assert terms[j] == terms[1..][j - 1];
        }
      }
    } else {
      assert terms[0] == FirstTerm(terms, lowered).value;
    }
  }

  /** The first term is the first keyword the detector reports for the
      same list. */
  lemma FirstTermIsFirstMatch(terms: seq<string>, lowered: string)
    ensures FirstTerm(terms, lowered).None? <==> SubstringDetector.Matched(terms, lowered) == []
    ensures FirstTerm(terms, lowered).Some? ==>
      FirstTerm(terms, lowered).value == SubstringDetector.Matched(terms, lowered)[0]
  {
    if FirstTerm(terms, lowered).Some? {
      FirstTermIsFirst(terms, lowered);
      var i :| 0 <= i < |terms| && terms[i] == FirstTerm(terms, lowered).value
        && forall j :: 0 <= j < i ==> !Occurs(lowered, terms[j]);
      SubstringDetector.MatchedFirst(terms, lowered, i);
    } else {
      SubstringDetector.NoneMatched(terms, lowered);
    }
  }

  /** The (indicator, term) pairs, in table order. */
  function Scan(table: seq<Indicator>, lowered: string): (r: seq<(string, string)>)
    ensures |r| <= |table|
  {
    if table == [] then []
    else
      var init := Scan(table[..|table| - 1], lowered);
      var ind := table[|table| - 1];
      match FirstTerm(ind.keywords, lowered)
      case None => init
      case Some(t) => init + [(ind.id, t)]
  }

  /** Every pair is an indicator of the table with its first occurring
      term. */
  lemma {:induction false} ScanSound(table: seq<Indicator>, lowered: string)
    ensures forall p :: p in Scan(table, lowered) ==>
      exists k :: 0 <= k < |table| && table[k].id == p.0 && FirstTerm(table[k].keywords, lowered) == Some(p.1)
    decreases |table|
  {
    if table != [] {
      var n := |table| - 1;
      var init := table[..n];
      ScanSound(init, lowered);
      assert forall k :: 0 <= k < n ==> table[k] == init[k];
    }
  }

  /** An indicator with an occurring term is recorded with the first one;
      together with ScanSound, an indicator appears exactly when one of its
      terms occurs. */
  lemma {:induction false} ScanComplete(table: seq<Indicator>, lowered: string)
    ensures forall k :: 0 <= k < |table| && FirstTerm(table[k].keywords, lowered).Some? ==>
      (table[k].id, FirstTerm(table[k].keywords, lowered).value) in Scan(table, lowered)
    decreases |table|
  {
    if table != [] {
      var n := |table| - 1;
      var init := table[..n];
      ScanComplete(init, lowered);
      assert forall k :: 0 <= k < n ==> table[k] == init[k];
    }
  }

  predicate DistinctIds(table: seq<Indicator>) {
    forall i, j :: 0 <= i < j < |table| ==> table[i].id != table[j].id
  }

  predicate DistinctFirsts(r: seq<(string, string)>) {
    forall i, j :: 0 <= i < j < |r| ==> r[i].0 != r[j].0
  }

  lemma AppendDistinct(r: seq<(string, string)>, x: (string, string))
    requires DistinctFirsts(r)
    requires forall p :: p in r ==> p.0 != x.0
    ensures DistinctFirsts(r + [x])
  {
    forall i, j | 0 <= i < j < |r + [x]| ensures (r + [x])[i].0 != (r + [x])[j].0 {
      assert (r + [x])[i] == r[i] && r[i] in r;
    }
  }

  /** With the distinct keys of a dictionary, an indicator is recorded at
      most once. */
  lemma {:induction false} OnePairPerIndicator(table: seq<Indicator>, lowered: string)
    requires DistinctIds(table)
    ensures DistinctFirsts(Scan(table, lowered))
    decreases |table|
  {
    if table != [] {
      var n := |table| - 1;
      var init := table[..n];
      OnePairPerIndicator(init, lowered);
      ScanSound(init, lowered);
      var ri := Scan(init, lowered);
      if FirstTerm(table[n].keywords, lowered).Some? {
        var x := (table[n].id, FirstTerm(table[n].keywords, lowered).value);
        forall p | p in ri ensures p.0 != x.0 {
          var k :| 0 <= k < n && init[k].id == p.0 && FirstTerm(init[k].keywords, lowered) == Some(p.1);
          assert table[k] == init[k];
        }
        AppendDistinct(ri, x);
      }
    }
  }

  const ScriptTable: seq<Indicator> := [
    SubstringDetector.Indicator("DM_02", ["diabetes", "insulin", "metformin", "blood glucose", "bgl", "oral hypoglycemic"]),
    SubstringDetector.Indicator("NEURO_01", ["dementia", "donepezil", "alzheimer", "cognitive"]),
    SubstringDetector.Indicator("INF_01", ["infection", "antibiotic", "cellulitis", "sepsis"]),
    SubstringDetector.Indicator("SKIN_02", ["skin tear", "wound", "dressing", "fragile skin"]),
    SubstringDetector.Indicator("MED_02", ["insulin", "warfarin", "opioid", "anticoagulant"]),
    SubstringDetector.Indicator("RESP_01", ["copd", "spiriva", "emphysema", "bronchodilator", "inhaler"]),
    SubstringDetector.Indicator("MH_03", ["behaviour", "aggression", "bpsd", "antipsychotic"]),
    SubstringDetector.Indicator("CONT_01", ["incontinence", "continence", "bladder"]),
    SubstringDetector.Indicator("PAIN_01", ["pain", "analgesia"]),
    SubstringDetector.Indicator("FALL_01", ["fall", "mobility aid"])
  ]

  /** The script's own dictionary: whatever the context, it reports at most
      ten detections and never the same indicator twice. */
  lemma ScriptReportsEachOnce(lowered: string)
    ensures |Scan(ScriptTable, lowered)| <= 10
    ensures DistinctFirsts(Scan(ScriptTable, lowered))
  {
    assert DistinctIds(ScriptTable) by {
      var ids := seq(|ScriptTable|, k requires 0 <= k < |ScriptTable| => ScriptTable[k].id);
      assert ids == ["DM_02", "NEURO_01", "INF_01", "SKIN_02", "MED_02", "RESP_01", "MH_03", "CONT_01", "PAIN_01", "FALL_01"];
    }
    OnePairPerIndicator(ScriptTable, lowered);
  }
}

=== FILE: history.dfy ===
/** The resident history page: counts over a resident's clinical decisions,
    the /32 score and band built on them, and the split of the active
    decisions into persistent and time-limited ones. */
module History {
  import opened Wrappers
  import opened Scoring

  /** One row of the clinical-decision query (only the columns the counts
      and the split read). */
  datatype Decision = Decision(deficitId: string, decisionType: string, deficitType: string, status: string)

  /** The column a row filter compares. */
  datatype Column = Status | DecisionType | DeficitType

  function ValueOf(d: Decision, c: Column): string {
    match c
    case Status => d.status
    case DecisionType => d.decisionType
    case DeficitType => d.deficitType
  }

  /** pandas `df[df[c] == v]`: the rows whose column equals `v`, in order. */
  function Select(ds: seq<Decision>, c: Column, v: string): (r: seq<Decision>)
    ensures |r| <= |ds|
    ensures forall k :: 0 <= k < |r| ==> ValueOf(r[k], c) == v
  {
    if |ds| == 0 then []
    else if ValueOf(ds[0], c) == v then [ds[0]] + Select(ds[1..], c, v)
    else Select(ds[1..], c, v)
  }

  /** pandas `df[df[c] != v]`. */
  function Exclude(ds: seq<Decision>, c: Column, v: string): (r: seq<Decision>)
    ensures |r| <= |ds|
    ensures forall k :: 0 <= k < |r| ==> ValueOf(r[k], c) != v
  {
    if |ds| == 0 then []
    else if ValueOf(ds[0], c) != v then [ds[0]] + Exclude(ds[1..], c, v)
    else Exclude(ds[1..], c, v)
  }

  /** A row is selected exactly when it is in the input with the value. */
  lemma {:induction false} SelectMember(ds: seq<Decision>, c: Column, v: string, d: Decision)
    ensures d in Select(ds, c, v) <==> d in ds && ValueOf(d, c) == v
  {
    if |ds| > 0 {
      SelectMember(ds[1..], c, v, d);
      assert d in ds <==> d == ds[0] || d in ds[1..];
    }
  }

  /** `==` and `!=` on one column split the rows: every row lands in exactly
      one side, as often as it occurs. */
  lemma {:induction false} SelectExcludePartition(ds: seq<Decision>, c: Column, v: string)
    ensures multiset(Select(ds, c, v)) + multiset(Exclude(ds, c, v)) == multiset(ds)
    ensures |Select(ds, c, v)| + |Exclude(ds, c, v)| == |ds|
  {
    if |ds| > 0 {
      SelectExcludePartition(ds[1..], c, v);
      assert ds == [ds[0]] + ds[1..];
    }
  }

  /** Two different values of one column select disjoint rows, so their
      counts add up to at most the number of rows. */
  lemma {:induction false} DistinctValuesCount(ds: seq<Decision>, c: Column, v1: string, v2: string)
    requires v1 != v2
    ensures |Select(ds, c, v1)| + |Select(ds, c, v2)| <= |ds|
  {
    if |ds| > 0 {
      DistinctValuesCount(ds[1..], c, v1, v2);
    }
  }

  /** One column of the rows, in row order (a pandas series). */
  function Values(ds: seq<Decision>, c: Column): (r: seq<string>)
    ensures |r| == |ds| && forall k :: 0 <= k < |ds| ==> r[k] == ValueOf(ds[k], c)
  {
    seq(|ds|, k requires 0 <= k < |ds| => ValueOf(ds[k], c))
  }

  /** The length of a filter is the number of times the value occurs in the
      column. */
  lemma {:induction false} SelectCount(ds: seq<Decision>, c: Column, v: string)
    ensures |Select(ds, c, v)| == multiset(Values(ds, c))[v]
  {
    if |ds| > 0 {
      SelectCount(ds[1..], c, v);
      assert Values(ds, c) == [ValueOf(ds[0], c)] + Values(ds[1..], c);
    }
  }

  const ActiveStatus: string := "ACTIVE"
  const ExpiredStatus: string := "EXPIRED"
  const RejectedDecision: string := "REJECTED"
  const PersistentType: string := "PERSISTENT"

  datatype Counts = Counts(active: nat, expired: nat, rejected: nat)

  /** The three metrics; all zero when the query returned nothing. */
  function DecisionCounts(decisions: Option<seq<Decision>>): (r: Counts)
    ensures decisions.None? ==> r == Counts(0, 0, 0)
    ensures decisions.Some? ==> r.active + r.expired <= |decisions.value| && r.rejected <= |decisions.value|
    ensures decisions.Some? ==>
      r.active == multiset(Values(decisions.value, Status))[ActiveStatus]
      && r.expired == multiset(Values(decisions.value, Status))[ExpiredStatus]
      && r.rejected == multiset(Values(decisions.value, DecisionType))[RejectedDecision]
  {
    match decisions
    case None => Counts(0, 0, 0)
    case Some(ds) =>
      DistinctValuesCount(ds, Status, ActiveStatus, ExpiredStatus);
      SelectCount(ds, Status, ActiveStatus);
      SelectCount(ds, Status, ExpiredStatus);
      SelectCount(ds, DecisionType, RejectedDecision);
      Counts(|Select(ds, Status, ActiveStatus)|, |Select(ds, Status, ExpiredStatus)|,
             |Select(ds, DecisionType, RejectedDecision)|)
  }

  /** The rejected count is keyed on a different column, so one row can be
      counted both as active and as rejected. */
  lemma RejectedMayOverlapActive()
    ensures var d := Decision("D001", RejectedDecision, PersistentType, ActiveStatus);
      var c := DecisionCounts(Some([d]));
      c.active == 1 && c.rejected == 1 && c.active + c.expired + c.rejected > 1
  {
    var d := Decision("D001", RejectedDecision, PersistentType, ActiveStatus);
    assert Select([d], Status, ActiveStatus) == [d];
    assert Select([d], DecisionType, RejectedDecision) == [d];
  }

  /** The page header: score, band and emoji. */
  datatype Summary = Summary(score: real, band: Band, emoji: Emoji, counts: Counts)

  function Summarize(decisions: Option<seq<Decision>>): (r: Summary)
    ensures r.counts == DecisionCounts(decisions)
    ensures r.score * 32.0 == r.counts.active as real
    ensures r.band == HistoryBand(r.counts.active) && r.emoji == EmojiOf(r.band)
    ensures decisions.None? ==> r.band == Low && r.score == 0.0
  {
    var c := DecisionCounts(decisions);
    var (b, e) := HistorySeverityBand(HistoryScore(c.active));
    Summary(HistoryScore(c.active), b, e, c)
  }

  /** The "Currently Active Indicators" tab: persistent rows first, then
      every other active row. */
  function ActiveTabs(ds: seq<Decision>): (r: (seq<Decision>, seq<Decision>))
    ensures forall k :: 0 <= k < |r.0| ==> r.0[k].status == ActiveStatus && r.0[k].deficitType == PersistentType
    ensures forall k :: 0 <= k < |r.1| ==> r.1[k].status == ActiveStatus && r.1[k].deficitType != PersistentType
  {
    var active := Select(ds, Status, ActiveStatus);
    var persistent := Select(active, DeficitType, PersistentType);
    var fluctuating := Exclude(active, DeficitType, PersistentType);
    forall k | 0 <= k < |persistent| ensures persistent[k].status == ActiveStatus {
      SelectMember(active, DeficitType, PersistentType, persistent[k]);
      assert persistent[k] in active;
    }
    forall k | 0 <= k < |fluctuating| ensures fluctuating[k].status == ActiveStatus {
      assert fluctuating[k] in multiset(active) by {
        SelectExcludePartition(active, DeficitType, PersistentType);
        assert fluctuating[k] in multiset(fluctuating);
      }
    }
    (persistent, fluctuating)
  }

  /** The two tabs together show every active decision exactly once. */
  lemma ActiveTabsPartition(ds: seq<Decision>)
    ensures multiset(ActiveTabs(ds).0) + multiset(ActiveTabs(ds).1) == multiset(Select(ds, Status, ActiveStatus))
    ensures |ActiveTabs(ds).0| + |ActiveTabs(ds).1| == DecisionCounts(Some(ds)).active
  {
    SelectExcludePartition(Select(ds, Status, ActiveStatus), DeficitType, PersistentType);
  }
}

=== FILE: observability.dfy ===
/** The evaluation runner: comparing the indicators an analysis detected
    with the expected ones, and aggregating per-resident results into run
    metrics. */
module Observability {
  import opened Wrappers
  import opened Text

  // ---------------------------------------------------------------------
  // Comparing indicators

  const NoGroundTruth: string := "No ground truth available"
  const PerfectMatch: string := "Perfect match"
  const FalsePositivesLabel: string := "False positives: "
  const MissedLabel: string := "Missed: "
  const PartSeparator: string := "; "

  function SetOf(xs: seq<string>): set<string> {
    set x | x in xs
  }

  /** The elements of `xs` outside `other`, each once, in first-seen order. */
  function Outside(xs: seq<string>, other: set<string>): (r: seq<string>)
    ensures SetOf(r) == SetOf(xs) - other
    ensures forall i, j :: 0 <= i < j < |r| ==> r[i] != r[j]
  {
    if |xs| == 0 then []
    else
      var rest := Outside(xs[..|xs| - 1], other);
      var x := xs[|xs| - 1];
      assert SetOf(xs) == SetOf(xs[..|xs| - 1]) + {x};
      assert SetOf(rest + [x]) == SetOf(rest) + {x};
      if x in other || x in rest then rest else rest + [x]
  }

  /** Python's rendering of a list of strings. */
  function ListText(xs: seq<string>): string {
    "[" + Join(seq(|xs|, k requires 0 <= k < |xs| => "'" + xs[k] + "'"), ", ") + "]"
  }

  /** The parts of the mismatch text: false positives first, then misses. */
  function MismatchParts(actual: seq<string>, expected: seq<string>): (r: seq<string>)
    ensures |r| <= 2
  {
    var fp := Outside(actual, SetOf(expected));
    var fn := Outside(expected, SetOf(actual));
    (if |fp| > 0 then [FalsePositivesLabel + ListText(fp)] else [])
    + (if |fn| > 0 then [MissedLabel + ListText(fn)] else [])
  }

  /** No ground truth gives no verdict; otherwise the verdict is whether the
      two lists hold the same indicators, with the parts joined by "; ". */
  function CompareIndicators(actual: seq<string>, expected: seq<string>): (r: (Option<bool>, string))
    ensures |expected| == 0 ==> r == (None, NoGroundTruth)
    ensures |expected| > 0 ==> r.0 == Some(SetOf(actual) == SetOf(expected))
    ensures |expected| > 0 && SetOf(actual) == SetOf(expected) ==> r.1 == PerfectMatch
  {
    if |expected| == 0 then (None, NoGroundTruth)
    else
      var parts := MismatchParts(actual, expected);
      if |parts| == 0 then
        assert SetOf(actual) - SetOf(expected) == {} && SetOf(expected) - SetOf(actual) == {};
        (Some(true), PerfectMatch)
      else
        assert SetOf(actual) != SetOf(expected) by {
          if |Outside(actual, SetOf(expected))| > 0 {
            assert Outside(actual, SetOf(expected))[0] in SetOf(actual) - SetOf(expected);
          } else {
            assert Outside(expected, SetOf(actual))[0] in SetOf(expected) - SetOf(actual);
          }
        }
        (Some(false), Join(parts, PartSeparator))
  }

  /** A mismatch text reports false positives exactly when something was
      detected that was not expected, and misses exactly when something
      expected was not detected. */
  lemma MismatchPartsSpec(actual: seq<string>, expected: seq<string>)
    ensures var parts := MismatchParts(actual, expected);
      (|parts| > 0 && StartsWith(parts[0], FalsePositivesLabel)) <==> SetOf(actual) - SetOf(expected) != {}
    ensures var parts := MismatchParts(actual, expected);
      (exists k :: 0 <= k < |parts| && StartsWith(parts[k], MissedLabel)) <==> SetOf(expected) - SetOf(actual) != {}
    ensures |expected| > 0 && SetOf(actual) != SetOf(expected) ==>
      CompareIndicators(actual, expected).1 == Join(MismatchParts(actual, expected), PartSeparator)
  {
    var fp := Outside(actual, SetOf(expected));
    var fn := Outside(expected, SetOf(actual));
    var parts := MismatchParts(actual, expected);
    OutsideNonEmpty(actual, SetOf(expected));
    OutsideNonEmpty(expected, SetOf(actual));
    PartLabels(actual, expected);
    if |fn| > 0 {
      assert StartsWith(parts[|parts| - 1], MissedLabel);
    }
  }

  lemma OutsideNonEmpty(xs: seq<string>, other: set<string>)
    ensures |Outside(xs, other)| > 0 <==> SetOf(xs) - other != {}
  {
    var r := Outside(xs, other);
    if |r| > 0 {
      assert r[0] in SetOf(r);
    }
  }

  /** Only a leading false-positive part carries that label; every other
      part is a miss. */
  lemma PartLabels(actual: seq<string>, expected: seq<string>)
    ensures var parts := MismatchParts(actual, expected);
      var lead := |Outside(actual, SetOf(expected))| > 0;
      forall k :: 0 <= k < |parts| ==>
        (StartsWith(parts[k], FalsePositivesLabel) <==> k == 0 && lead)
        && (StartsWith(parts[k], MissedLabel) <==> !(k == 0 && lead))
  {
    var parts := MismatchParts(actual, expected);
    var lead := |Outside(actual, SetOf(expected))| > 0;
    forall k | 0 <= k < |parts|
      ensures StartsWith(parts[k], FalsePositivesLabel) <==> k == 0 && lead
      ensures StartsWith(parts[k], MissedLabel) <==> !(k == 0 && lead)
    {
      if k == 0 && lead {
        assert parts[k][0] == 'F';
      } else {
        assert parts[k][0] == 'M';
      }
    }
  }

  // ---------------------------------------------------------------------
  // Aggregating a run

  /** What evaluating one resident gave: the detail's verdict, its scores
      and latency (each may be missing), or the exception text. */
  datatype Attempt =
    | Evaluated(isCorrect: Option<bool>, groundedness: Option<real>, contextRelevance: Option<real>,
                answerRelevance: Option<real>, latencyMs: Option<int>)
    | Raised(error: string)

  datatype Detail = Detail(residentId: int, attempt: Attempt, status: string)

  const FailedStatus: string := "FAILED"
  const CompletedStatus: string := "COMPLETED"

  /** The detail recorded for one resident: a failed detail when evaluating
      raised, otherwise the completed one _evaluate_resident built. */
  function DetailFor(residentId: int, a: Attempt): (d: Detail)
    ensures d.residentId == residentId && d.attempt == a
    ensures d.status == FailedStatus <==> a.Raised?
    ensures a.Raised? ==> d.status == "FAILED"
    ensures a.Evaluated? ==> d.status == "COMPLETED"
  {
    Detail(residentId, a, if a.Raised? then FailedStatus else CompletedStatus)
  }

  datatype Score = Groundedness | ContextRelevance | AnswerRelevance

  /** A score as added to its total: missing counts as nothing. */
  function ScoreOf(a: Attempt, s: Score): real {
    if a.Raised? then 0.0
    else
      var v := match s
        case Groundedness => a.groundedness
        case ContextRelevance => a.contextRelevance
        case AnswerRelevance => a.answerRelevance;
      v.GetOr(0.0)
  }

  function LatencyOf(a: Attempt): int {
    if a.Raised? then 0 else a.latencyMs.GetOr(0)
  }

  /** The reference totals, over a prefix of the attempts. */
  function EvaluatedCount(as_: seq<Attempt>): (r: nat)
    ensures r <= |as_|
  {
    if |as_| == 0 then 0 else EvaluatedCount(as_[..|as_| - 1]) + (if as_[|as_| - 1].Evaluated? then 1 else 0)
  }

  function VerdictCount(as_: seq<Attempt>, verdict: bool): (r: nat)
    ensures r <= EvaluatedCount(as_)
  {
    if |as_| == 0 then 0
    else
      var a := as_[|as_| - 1];
      VerdictCount(as_[..|as_| - 1], verdict) + (if a.Evaluated? && a.isCorrect == Some(verdict) then 1 else 0)
  }

  function ScoreTotal(as_: seq<Attempt>, s: Score): real {
    if |as_| == 0 then 0.0 else ScoreTotal(as_[..|as_| - 1], s) + ScoreOf(as_[|as_| - 1], s)
  }

  function LatencyTotal(as_: seq<Attempt>): int {
    if |as_| == 0 then 0 else LatencyTotal(as_[..|as_| - 1]) + LatencyOf(as_[|as_| - 1])
  }

  datatype Metrics = Metrics(recordsEvaluated: nat, truePositives: nat, falsePositives: nat,
                             avgGroundedness: real, avgContextRelevance: real, avgAnswerRelevance: real,
                             avgLatencyMs: int, falsePositiveRate: real, precision: real)

  /** Averages over the evaluated residents (latency by floor division),
      zero when none was evaluated; rate and precision over the verdicts. */
  function Finish(n: nat, tp: nat, fp: nat, g: real, c: real, a: real, latency: int): (m: Metrics)
    ensures m.recordsEvaluated == n && m.truePositives == tp && m.falsePositives == fp
    ensures n > 0 ==> m.avgGroundedness * n as real == g && m.avgLatencyMs * n <= latency < (m.avgLatencyMs + 1) * n
    ensures n > 0 ==> m.avgContextRelevance * n as real == c && m.avgAnswerRelevance * n as real == a
    ensures n == 0 ==> m.avgGroundedness == 0.0 && m.avgLatencyMs == 0
    ensures n == 0 ==> m.avgContextRelevance == 0.0 && m.avgAnswerRelevance == 0.0
    ensures tp + fp == 0 ==> m.falsePositiveRate == 0.0 && m.precision == 0.0
    ensures tp + fp > 0 ==> (m.falsePositiveRate * (tp + fp) as real == fp as real
      && m.precision * (tp + fp) as real == tp as real)
  {
    var verdicts := (tp + fp) as real;
    Metrics(n, tp, fp,
            if n > 0 then g / n as real else 0.0,
            if n > 0 then c / n as real else 0.0,
            if n > 0 then a / n as real else 0.0,
            if n > 0 then latency / n else 0,
            if tp + fp > 0 then fp as real / verdicts else 0.0,
            if tp + fp > 0 then tp as real / verdicts else 0.0)
  }

  /** With any verdict, the false positive rate and the precision are
      fractions that add up to one. */
  lemma RateAndPrecision(m: Metrics, n: nat, tp: nat, fp: nat, g: real, c: real, a: real, latency: int)
    requires m == Finish(n, tp, fp, g, c, a, latency)
    ensures tp + fp > 0 ==> m.falsePositiveRate + m.precision == 1.0
    ensures 0.0 <= m.falsePositiveRate <= 1.0 && 0.0 <= m.precision <= 1.0
  {
    if tp + fp > 0 {
      ShareOfTotal(fp, tp);
      assert m.falsePositiveRate == fp as real / (fp + tp) as real;
      assert m.precision == tp as real / (fp + tp) as real;
    }
  }

  /** Two parts of a positive total are fractions of it that add up to one. */
  lemma ShareOfTotal(part: nat, other: nat)
    requires part + other > 0
    ensures var v := (part + other) as real;
      0.0 <= part as real / v <= 1.0 && 0.0 <= other as real / v <= 1.0
      && part as real / v + other as real / v == 1.0
  {
    var x, y := part as real, other as real;
    assert (part + other) as real == x + y;
    RealShares(x, y);
  }

  lemma RealShares(x: real, y: real)
    requires 0.0 <= x && 0.0 <= y && x + y > 0.0
    ensures 0.0 <= x / (x + y) <= 1.0 && 0.0 <= y / (x + y) <= 1.0
    ensures x / (x + y) + y / (x + y) == 1.0
  {
    var v := x + y;
    assert x / v + y / v == v / v;
  }

  /** Extending the prefix by one attempt adds that attempt's share. */
  lemma PrefixStep(as_: seq<Attempt>, i: nat)
    requires i < |as_|
    ensures var p := as_[..i + 1]; var a := as_[i];
      EvaluatedCount(p) == EvaluatedCount(as_[..i]) + (if a.Evaluated? then 1 else 0)
      && VerdictCount(p, true) == VerdictCount(as_[..i], true) + (if a.Evaluated? && a.isCorrect == Some(true) then 1 else 0)
      && VerdictCount(p, false) == VerdictCount(as_[..i], false) + (if a.Evaluated? && a.isCorrect == Some(false) then 1 else 0)
      && ScoreTotal(p, Groundedness) == ScoreTotal(as_[..i], Groundedness) + ScoreOf(a, Groundedness)
      && ScoreTotal(p, ContextRelevance) == ScoreTotal(as_[..i], ContextRelevance) + ScoreOf(a, ContextRelevance)
      && ScoreTotal(p, AnswerRelevance) == ScoreTotal(as_[..i], AnswerRelevance) + ScoreOf(a, AnswerRelevance)
      && LatencyTotal(p) == LatencyTotal(as_[..i]) + LatencyOf(a)
  {
    assert as_[..i + 1][..i] == as_[..i];
  }

  /** One detail per resident, in order; only residents that did not raise
      are evaluated, and only their verdicts are counted. */
  method RunEvaluation(residentIds: seq<int>, attempts: seq<Attempt>) returns (details: seq<Detail>, metrics: Metrics)
    requires |attempts| == |residentIds|
    ensures |details| == |residentIds|
    ensures forall k :: 0 <= k < |details| ==> details[k] == DetailFor(residentIds[k], attempts[k])
    ensures metrics == Finish(EvaluatedCount(attempts), VerdictCount(attempts, true), VerdictCount(attempts, false),
                              ScoreTotal(attempts, Groundedness), ScoreTotal(attempts, ContextRelevance),
                              ScoreTotal(attempts, AnswerRelevance), LatencyTotal(attempts))
  {
    details := [];
    var n, tp, fp := 0, 0, 0;
    var g, c, a := 0.0, 0.0, 0.0;
    var latency := 0;
    var i := 0;
    while i < |attempts|
      invariant 0 <= i <= |attempts|
      invariant |details| == i
      invariant forall k :: 0 <= k < i ==> details[k] == DetailFor(residentIds[k], attempts[k])
      invariant n == EvaluatedCount(attempts[..i])
      invariant tp == VerdictCount(attempts[..i], true) && fp == VerdictCount(attempts[..i], false)
      invariant g == ScoreTotal(attempts[..i], Groundedness)
      invariant c == ScoreTotal(attempts[..i], ContextRelevance)
      invariant a == ScoreTotal(attempts[..i], AnswerRelevance)
      invariant latency == LatencyTotal(attempts[..i])
    {
      assert attempts[..i + 1][..i] == attempts[..i];
      var at := attempts[i];
      PrefixStep(attempts, i);
      details := details + [DetailFor(residentIds[i], at)];
      if at.Evaluated? {
        n := n + 1;
        g := g + ScoreOf(at, Groundedness);
        c := c + ScoreOf(at, ContextRelevance);
        a := a + ScoreOf(at, AnswerRelevance);
        latency := latency + LatencyOf(at);
        if at.isCorrect.Some? {
          if at.isCorrect.value {
            tp := tp + 1;
          } else {
            fp := fp + 1;
          }
        }
      }
      i := i + 1;
    }
    assert attempts[..i] == attempts;
    metrics := Finish(n, tp, fp, g, c, a, latency);
  }

  /** A resident without ground truth is evaluated but gives no verdict. */
  lemma NoGroundTruthNoVerdict(as_: seq<Attempt>, x: Attempt)
    requires x.Evaluated? && x.isCorrect.None?
    ensures EvaluatedCount(as_ + [x]) == EvaluatedCount(as_) + 1
    ensures VerdictCount(as_ + [x], true) == VerdictCount(as_, true)
    ensures VerdictCount(as_ + [x], false) == VerdictCount(as_, false)
  {
    assert (as_ + [x])[..|as_|] == as_;
  }

  /** The verdicts split into true and false positives. */
  lemma {:induction false} VerdictsSplit(as_: seq<Attempt>)
    ensures VerdictCount(as_, true) + VerdictCount(as_, false)
      == |set k | 0 <= k < |as_| && as_[k].Evaluated? && as_[k].isCorrect.Some?|
  {
    if |as_| > 0 {
      var m := |as_| - 1;
      var init := as_[..m];
      VerdictsSplit(init);
      var prev := set k | 0 <= k < m && init[k].Evaluated? && init[k].isCorrect.Some?;
      var all := set k | 0 <= k < |as_| && as_[k].Evaluated? && as_[k].isCorrect.Some?;
      assert prev == set k | 0 <= k < m && as_[k].Evaluated? && as_[k].isCorrect.Some?;
      if as_[m].Evaluated? && as_[m].isCorrect.Some? {
        assert all == prev + {m};
        assert m !in prev;
        assert |all| == |prev| + 1;
        assert as_[..|as_| - 1] == init;
        if as_[m].isCorrect.value {
          assert as_[m].isCorrect == Some(true);
        } else {
          assert as_[m].isCorrect == Some(false);
        }
        assert VerdictCount(as_, true) + VerdictCount(as_, false)
          == VerdictCount(init, true) + VerdictCount(init, false) + 1;
      } else {
        assert all == prev;
        assert as_[..|as_| - 1] == init;
      }
    }
  }
}

=== FILE: prompt_engineering.dfy ===
/** The prompt workbench: the next prompt version number, the choice of
    token budget from the context size, and the post-processing of the
    model's answer (fence stripping, the JSON span, and the repair of a
    truncated JSON text). */
module PromptEngineering {
  import opened Wrappers
  import opened Text

  // ---------------------------------------------------------------------
  // Prompt version numbers

  const FirstPromptVersion: string := "v0001"

  /** "Save as new version": one more than the number after the first
      character of the greatest stored version, as "v" and four digits;
      "v0001" when there is none. A number `int()` rejects is an error. */
  function NextPromptVersion(maxVersion: Option<string>): (r: Result<string>)
    ensures maxVersion.None? || maxVersion.value == "" ==> r == Ok(FirstPromptVersion)
    ensures r.Ok? && maxVersion.Some? && maxVersion.value != "" ==>
      IsNumeral(maxVersion.value[1..]) && r.value == "v" + Pad4(DigitsValue(maxVersion.value[1..]) + 1)
    ensures r.Err? <==> maxVersion.Some? && maxVersion.value != "" && !IsNumeral(maxVersion.value[1..])
  {
    if maxVersion.None? || maxVersion.value == "" then Ok(FirstPromptVersion)
    else
      var digits := maxVersion.value[1..];
      if IsNumeral(digits) then Ok("v" + Pad4(DigitsValue(digits) + 1))
      else Err("invalid literal for int() with base 10")
  }

  predicate IsNumeral(s: string) {
    |s| > 0 && AllDigits(s)
  }

  /** The version after "vNNNN" is "v" with N+1, and it reads back as N+1. */
  lemma NextPromptOfPadded(n: nat)
    ensures NextPromptVersion(Some("v" + Pad4(n))) == Ok("v" + Pad4(n + 1))
    ensures DigitsValue(("v" + Pad4(n + 1))[1..]) == n + 1
  {
    assert ("v" + Pad4(n))[1..] == Pad4(n);
    assert ("v" + Pad4(n + 1))[1..] == Pad4(n + 1);
    Pad4RoundTrip(n);
    Pad4RoundTrip(n + 1);
  }

  /** SQL's MAX on text: the greatest version in character order. */
  predicate TextLess(a: string, b: string)
    decreases |a|
  {
    (|a| == 0 && |b| > 0)
    || (|a| > 0 && |b| > 0 && (a[0] < b[0] || (a[0] == b[0] && TextLess(a[1..], b[1..]))))
  }

  function TextMax(versions: seq<string>): (r: Option<string>)
    ensures r.None? <==> |versions| == 0
    ensures r.Some? ==> r.value in versions
  {
    if |versions| == 0 then None
    else
      var rest := TextMax(versions[1..]);
      if rest.None? || TextLess(rest.value, versions[0]) then Some(versions[0]) else rest
  }

  /** Versions compared as text: once "v10000" exists, "v9999" is still the
      greatest, so the page offers "v10000" a second time. */
  lemma TextMaxRepeatsAfter9999()
    ensures TextMax(["v9999", "v10000"]) == Some("v9999")
    ensures NextPromptVersion(TextMax(["v9999", "v10000"])) == Ok("v10000")
  {
    assert TextLess("v10000", "v9999") by {
      assert "v10000"[1..][0] < "v9999"[1..][0];
    }
    var m := TextMax(["v9999", "v10000"]);
    assert m == Some("v9999") by {
      assert ["v9999", "v10000"][1..] == ["v10000"];
      assert ["v10000"][1..] == [];
    }
    assert "v9999"[1..] == "9999";
    Value9999();
    Str10000();
    assert Pad4(10000) == "10000";
    assert "v" + "10000" == "v10000";
  }

  /** "v1.0", the version the pages fall back to, sorts after every
      "v0NNN" as text. Once it is stored, MAX picks it and `int("1.0")`
      raises, so no next version is offered; by number it is skipped and
      "v0002" follows "v0001". */
  lemma DottedVersionBlocksNext()
    ensures TextMax(["v0001", "v1.0"]) == Some("v1.0")
    ensures NextPromptVersion(TextMax(["v0001", "v1.0"])).Err?
    ensures NextPromptVersionByNumber(["v0001", "v1.0"]) == "v0002"
  {
    DottedVersionAsText();
    DottedVersionByNumber();
  }

  lemma DottedVersionAsText()
    ensures TextMax(["v0001", "v1.0"]) == Some("v1.0")
    ensures NextPromptVersion(Some("v1.0")).Err?
  {
    assert TextLess("v0001", "v1.0") by {
      assert "v0001"[1..][0] < "v1.0"[1..][0];
    }
    assert ["v0001", "v1.0"][1..] == ["v1.0"];
    assert ["v1.0"][1..] == [];
    assert !IsNumeral("v1.0"[1..]) by {
      assert "v1.0"[1..][1] == '.';
    }
  }

  lemma DottedVersionByNumber()
    ensures NextPromptVersionByNumber(["v0001", "v1.0"]) == "v0002"
  {
    assert ["v0001", "v1.0"][1..] == ["v1.0"];
    assert ["v1.0"][1..] == [];
    assert VersionValue("v1.0") == None by {
      assert "v1.0"[1..][1] == '.';
    }
    assert VersionValue("v0001") == Some(1) by {
      assert "v0001"[1..] == Pad4(1) by {
        assert NatToString(1) == "1";
      }
      Pad4RoundTrip(1);
    }
    assert MaxValue(["v0001", "v1.0"]) == 1;
    assert Pad4(2) == "0002" by {
      assert NatToString(2) == "2";
    }
  }

  lemma Str10000()
    ensures NatToString(10000) == "10000"
  {
    assert NatToString(1) == "1";
    assert NatToString(10) == "10";
    assert NatToString(100) == "100";
    assert NatToString(1000) == "1000";
  }

  /** The number a version carries, if it is "v" followed by digits. */
  function VersionValue(v: string): Option<nat> {
    if |v| > 0 && v[0] == 'v' && IsNumeral(v[1..]) then Some(DigitsValue(v[1..])) else None
  }

  /** The greatest number among the versions that carry one. */
  function MaxValue(versions: seq<string>): (r: nat)
    ensures forall k :: 0 <= k < |versions| && VersionValue(versions[k]).Some? ==> VersionValue(versions[k]).value <= r
  {
    if |versions| == 0 then 0
    else
      var rest := MaxValue(versions[1..]);
      assert forall k :: 1 <= k < |versions| ==> versions[k] == versions[1..][k - 1];
      match VersionValue(versions[0])
      case Some(n) => if n > rest then n else rest
      case None => rest
  }

  /** The next version by number rather than by text order. */
  function NextPromptVersionByNumber(versions: seq<string>): string {
    "v" + Pad4(MaxValue(versions) + 1)
  }

  /** Comparing numbers, the next version is always new. */
  lemma NextByNumberIsNew(versions: seq<string>)
    ensures NextPromptVersionByNumber(versions) !in versions
    ensures VersionValue(NextPromptVersionByNumber(versions)) == Some(MaxValue(versions) + 1)
  {
    var v := NextPromptVersionByNumber(versions);
    var m := MaxValue(versions);
    assert v[1..] == Pad4(m + 1);
    Pad4RoundTrip(m + 1);
    assert VersionValue(v) == Some(m + 1);
  }

  /** The same case under numeric comparison: "v10001" is offered. */
  lemma ByNumberAfter9999()
    ensures MaxValue(["v9999", "v10000"]) == 10000
  {
    assert ["v9999", "v10000"][1..] == ["v10000"];
    assert ["v10000"][1..] == [];
    assert VersionValue("v9999") == Some(9999) by {
      assert "v9999"[1..] == "9999";
      Value9999();
    }
    assert VersionValue("v10000") == Some(10000) by {
      assert "v10000"[1..] == "10000";
      Value10000();
    }
  }

  lemma Value9999()
    ensures DigitsValue("9999") == 9999
  {
    assert NatToString(9999) == "9999" by {
      assert NatToString(9) == "9";
      assert NatToString(99) == "99";
      assert NatToString(999) == "999";
    }
    NatToStringRoundTrip(9999);
  }

  lemma Value10000()
    ensures DigitsValue("10000") == 10000
  {
    Str10000();
    NatToStringRoundTrip(10000);
  }

  // ---------------------------------------------------------------------
  // Token budget

  const DefaultContextThreshold: int := 6000
  const LargeMaxTokens: nat := 16384
  const StandardMaxTokens: nat := 4096

  datatype TokenMode = Standard | Large

  /** The stored threshold, or 6000 when it is absent or zero (falsy). */
  function ContextThreshold(stored: Option<int>): (r: int)
    ensures stored.None? || stored.value == 0 ==> r == DefaultContextThreshold
    ensures stored.Some? && stored.value != 0 ==> r == stored.value
  {
    if stored.Some? && stored.value != 0 then stored.value else DefaultContextThreshold
  }

  /** Large mode with 16384 tokens strictly above the threshold, otherwise
      standard mode with 4096. */
  function ChooseTokens(contextLength: int, threshold: int): (r: (TokenMode, nat))
    ensures r.0 == Large <==> contextLength > threshold
    ensures r.1 == (if r.0 == Large then LargeMaxTokens else StandardMaxTokens)
  {
    if contextLength > threshold then (Large, LargeMaxTokens) else (Standard, StandardMaxTokens)
  }

  /** A longer context never gets a smaller budget, and a context exactly at
      the threshold stays standard. */
  lemma TokensMonotone(a: int, b: int, threshold: int)
    requires a <= b
    ensures ChooseTokens(a, threshold).1 <= ChooseTokens(b, threshold).1
    ensures ChooseTokens(threshold, threshold).0 == Standard
  {
  }

  // ---------------------------------------------------------------------
  // Fence stripping

  const JsonFence: string := "```json"
  const Fence: string := "```"

  /** Strip; drop a leading "```json" (tested first) or "```"; drop one
      trailing "```"; strip again. */
  function Unfence(text: string): string {
    var a := Strip(text);
    var b := if StartsWith(a, JsonFence) then a[|JsonFence|..]
             else if StartsWith(a, Fence) then a[|Fence|..]
             else a;
    var c := if EndsWith(b, Fence) then b[..|b| - |Fence|] else b;
    Strip(c)
  }

  /** Text with a non-blank first and last character. */
  predicate Trimmed(s: string) {
    |s| > 0 && !IsSpace(s[0]) && !IsSpace(s[|s| - 1])
  }

  /** Stripping removes one surrounding newline on each side of trimmed text. */
  lemma StripNewlines(body: string)
    requires Trimmed(body)
    ensures Strip("\n" + body + "\n") == body
  {
    var s := "\n" + body + "\n";
    assert s[1..] == body + "\n";
    assert LStrip(s) == body + "\n";
    var l := body + "\n";
    assert l[..|l| - 1] == body;
    assert RStrip(l) == body;
  }

  /** A fenced answer, "```json" or plain, is unwrapped to its body. */
  lemma UnfenceRoundTrip(body: string)
    requires Trimmed(body)
    ensures Unfence(JsonFence + "\n" + body + "\n" + Fence) == body
    ensures Unfence(Fence + "\n" + body + "\n" + Fence) == body
  {
    var t1 := JsonFence + "\n" + body + "\n" + Fence;
    StripNoEdgeSpace(t1);
    assert t1[..|JsonFence|] == JsonFence;
    var b1 := t1[|JsonFence|..];
    assert b1 == "\n" + body + "\n" + Fence;
    assert b1[|b1| - |Fence|..] == Fence;
    assert b1[..|b1| - |Fence|] == "\n" + body + "\n";
    StripNewlines(body);
    var t2 := Fence + "\n" + body + "\n" + Fence;
    StripNoEdgeSpace(t2);
    assert t2[..|JsonFence|] != JsonFence by {
      assert t2[3] == '\n';
    }
    var b2 := t2[|Fence|..];
    assert b2 == "\n" + body + "\n" + Fence;
    assert b2[|b2| - |Fence|..] == Fence;
    assert b2[..|b2| - |Fence|] == "\n" + body + "\n";
  }

  /** Trimmed text without fences passes through unchanged. */
  lemma UnfenceNoFence(text: string)
    requires Trimmed(text)
    requires text[0] != '`' && text[|text| - 1] != '`'
    ensures Unfence(text) == text
  {
    StripNoEdgeSpace(text);
  }

  // ---------------------------------------------------------------------
  // The JSON span

  /** From the first '{' through the last '}', when a '{' exists and a '}'
      comes after it. */
  function JsonSpan(s: string): (r: Option<string>) {
    var i := Find(s, "{");
    var j := RFindChar(s, '}') + 1;
    if i >= 0 && j > i then Some(s[i..j]) else None
  }

  lemma CharAt(s: string, c: char, i: int)
    ensures OccursAt(s, [c], i) <==> 0 <= i < |s| && s[i] == c
  {
    if 0 <= i < |s| {
      assert s[i..i + 1] == [s[i]];
    }
  }

  /** Where the first '{' is, if any. */
  lemma FirstBrace(s: string)
    ensures Find(s, "{") >= 0 ==> s[Find(s, "{")] == '{'
    ensures forall k :: 0 <= k < |s| && (Find(s, "{") == -1 || k < Find(s, "{")) ==> s[k] != '{'
  {
    var i := Find(s, "{");
    FindSpec(s, "{");
    if i >= 0 {
      CharAt(s, '{', i);
    }
    forall k | 0 <= k < |s| && (i == -1 || k < i) ensures s[k] != '{' {
      CharAt(s, '{', k);
      if i == -1 {
        assert !OccursAt(s, "{", k);
      }
    }
  }

  /** The span exists exactly when some '{' precedes some '}'. */
  lemma JsonSpanExists(s: string)
    ensures JsonSpan(s).Some? <==> exists i, j :: 0 <= i < j < |s| && s[i] == '{' && s[j] == '}'
  {
    var i := Find(s, "{");
    var last := RFindChar(s, '}');
    FirstBrace(s);
    if exists a, b :: 0 <= a < b < |s| && s[a] == '{' && s[b] == '}' {
      var a, b :| 0 <= a < b < |s| && s[a] == '{' && s[b] == '}';
      assert i >= 0 && i <= a;
      assert last >= b;
    }
    if JsonSpan(s).Some? {
      assert s[i] == '{' && s[last] == '}';
    }
  }

  /** The span starts at the first '{' and ends at the last '}'. */
  lemma JsonSpanBounds(s: string)
    requires JsonSpan(s).Some?
    ensures exists i :: (0 <= i && OccursAt(s, JsonSpan(s).value, i)
      && (forall k :: 0 <= k < i ==> s[k] != '{')
      && (forall k :: i + |JsonSpan(s).value| <= k < |s| ==> s[k] != '}'))
    ensures var v := JsonSpan(s).value;
      |v| >= 2 && v[0] == '{' && v[|v| - 1] == '}'
  {
    var i := Find(s, "{");
    var last := RFindChar(s, '}');
    FirstBrace(s);
    var v := s[i..last + 1];
    assert v == JsonSpan(s).value;
    assert OccursAt(s, v, i);
  }

  // ---------------------------------------------------------------------
  // Repairing truncated JSON

  function Repeat(c: char, n: int): (r: string)
    ensures |r| == if n > 0 then n else 0
    ensures forall k :: 0 <= k < |r| ==> r[k] == c
  {
    if n > 0 then seq(n, _ => c) else ""
  }

  /** Drop one trailing comma after trailing whitespace. */
  function DropTrailingComma(s: string): string {
    var t := RStrip(s);
    if EndsWith(t, ",") then t[..|t| - 1] else s
  }

  /** `try_fix_truncated_json`: when braces or brackets are left open, drop a
      trailing comma and append the missing ']' and then the missing '}'
      (Python's `']' * n` is empty for n <= 0). */
  function FixTruncated(s: string): (r: string) {
    var openBraces := CountChar(s, '{') - CountChar(s, '}');
    var openBrackets := CountChar(s, '[') - CountChar(s, ']');
    if openBraces > 0 || openBrackets > 0 then
      DropTrailingComma(s) + Repeat(']', openBrackets) + Repeat('}', openBraces)
    else s
  }

  /** Nothing changes when nothing is open, trailing comma or not. */
  lemma FixIdentity(s: string)
    requires CountChar(s, '{') <= CountChar(s, '}') && CountChar(s, '[') <= CountChar(s, ']')
    ensures FixTruncated(s) == s
  {
  }

  lemma {:induction false} RepeatCount(c: char, n: int, d: char)
    ensures CountChar(Repeat(c, n), d) == if c == d && n > 0 then n else 0
  {
    if n > 0 {
      RepeatCount(c, n - 1, d);
      assert Repeat(c, n) == Repeat(c, n - 1) + [c];
    }
  }

  /** Dropping trailing whitespace and a comma keeps every bracket count. */
  lemma DropCommaCounts(s: string, d: char)
    requires d in {'{', '}', '[', ']'}
    ensures CountChar(DropTrailingComma(s), d) == CountChar(s, d)
  {
    var t := RStrip(s);
    RStripSpec(s);
    var tail := s[|t|..];
    assert s == t + tail;
    forall k | 0 <= k < |tail| ensures tail[k] != d {
      assert IsSpace(s[|t| + k]);
    }
    assert d !in multiset(tail);
    if EndsWith(t, ",") {
      assert t == t[..|t| - 1] + [','];
    }
  }

  /** When neither count is negative, the repaired text balances both
      kinds of bracket. */
  lemma FixBalancesCounts(s: string)
    requires CountChar(s, '{') >= CountChar(s, '}') && CountChar(s, '[') >= CountChar(s, ']')
    ensures CountChar(FixTruncated(s), '{') == CountChar(FixTruncated(s), '}')
    ensures CountChar(FixTruncated(s), '[') == CountChar(FixTruncated(s), ']')
  {
    var openBraces := CountChar(s, '{') - CountChar(s, '}');
    var openBrackets := CountChar(s, '[') - CountChar(s, ']');
    if openBraces > 0 || openBrackets > 0 {
      var base := DropTrailingComma(s);
      DropCommaCounts(s, '{');
      DropCommaCounts(s, '}');
      DropCommaCounts(s, '[');
      DropCommaCounts(s, ']');
      RepeatCount(']', openBrackets, '{');
      RepeatCount(']', openBrackets, '}');
      RepeatCount(']', openBrackets, '[');
      RepeatCount(']', openBrackets, ']');
      RepeatCount('}', openBraces, '{');
      RepeatCount('}', openBraces, '}');
      RepeatCount('}', openBraces, '[');
      RepeatCount('}', openBraces, ']');
    }
  }

  /** Brackets read left to right with a stack of unclosed openers; None on
      a closer that does not match the innermost opener. */
  predicate IsOpener(c: char) { c == '{' || c == '[' }
  predicate IsCloser(c: char) { c == '}' || c == ']' }

  function CloserOf(c: char): char {
    if c == '{' then '}' else ']'
  }

  function Unclosed(st: seq<char>, s: string): Option<seq<char>>
    decreases |s|
  {
    if |s| == 0 then Some(st)
    else if IsOpener(s[0]) then Unclosed(st + [s[0]], s[1..])
    else if IsCloser(s[0]) then
      if |st| > 0 && CloserOf(st[|st| - 1]) == s[0] then Unclosed(st[..|st| - 1], s[1..]) else None
    else Unclosed(st, s[1..])
  }

  /** Every bracket is closed by the matching one, innermost first. */
  predicate WellNested(s: string) {
    Unclosed([], s) == Some([])
  }

  /** The closers for a stack of openers, innermost first. */
  function Closers(st: seq<char>): string
    decreases |st|
  {
    if |st| == 0 then "" else [CloserOf(st[|st| - 1])] + Closers(st[..|st| - 1])
  }

  lemma {:induction false} UnclosedAppend(st: seq<char>, a: string, b: string)
    ensures Unclosed(st, a + b) == (if Unclosed(st, a).None? then None else Unclosed(Unclosed(st, a).value, b))
    decreases |a|
  {
    if |a| > 0 {
      assert (a + b)[0] == a[0] && (a + b)[1..] == a[1..] + b;
      if IsOpener(a[0]) {
        UnclosedAppend(st + [a[0]], a[1..], b);
      } else if IsCloser(a[0]) {
        if |st| > 0 && CloserOf(st[|st| - 1]) == a[0] {
          UnclosedAppend(st[..|st| - 1], a[1..], b);
        }
      } else {
        UnclosedAppend(st, a[1..], b);
      }
    } else {
      assert a + b == b;
    }
  }

  lemma {:induction false} UnclosedClosers(st: seq<char>)
    requires forall k :: 0 <= k < |st| ==> IsOpener(st[k])
    ensures Unclosed(st, Closers(st)) == Some([])
    decreases |st|
  {
    if |st| > 0 {
      var c := Closers(st);
      assert c[0] == CloserOf(st[|st| - 1]) && c[1..] == Closers(st[..|st| - 1]);
      UnclosedClosers(st[..|st| - 1]);
    }
  }

  lemma {:induction false} UnclosedOpeners(st: seq<char>, s: string)
    requires forall k :: 0 <= k < |st| ==> IsOpener(st[k])
    requires Unclosed(st, s).Some?
    ensures forall k :: 0 <= k < |Unclosed(st, s).value| ==> IsOpener(Unclosed(st, s).value[k])
    decreases |s|
  {
    if |s| > 0 {
      if IsOpener(s[0]) {
        UnclosedOpeners(st + [s[0]], s[1..]);
      } else if IsCloser(s[0]) {
        UnclosedOpeners(st[..|st| - 1], s[1..]);
      } else {
        UnclosedOpeners(st, s[1..]);
      }
    }
  }

  /** Text without brackets leaves the stack alone. */
  lemma {:induction false} UnclosedPlain(st: seq<char>, s: string)
    requires forall k :: 0 <= k < |s| ==> !IsOpener(s[k]) && !IsCloser(s[k])
    ensures Unclosed(st, s) == Some(st)
    decreases |s|
  {
    if |s| > 0 {
      UnclosedPlain(st, s[1..]);
    }
  }

  /** Dropping the trailing comma keeps the stack. */
  lemma DropCommaUnclosed(s: string)
    ensures Unclosed([], DropTrailingComma(s)) == Unclosed([], s)
  {
    var t := RStrip(s);
    RStripSpec(s);
    var tail := s[|t|..];
    assert s == t + tail;
    UnclosedAppend([], t, tail);
    UnclosedPlain(if Unclosed([], t).Some? then Unclosed([], t).value else [], tail);
    if EndsWith(t, ",") {
      var u := t[..|t| - 1];
      assert t == u + ",";
      UnclosedAppend([], u, ",");
      UnclosedPlain(if Unclosed([], u).Some? then Unclosed([], u).value else [], ",");
    }
  }

  /** The repair with closers in reverse order of opening. */
  function RepairNested(s: string): string {
    match Unclosed([], s)
    case Some(st) => if |st| > 0 then DropTrailingComma(s) + Closers(st) else s
    case None => s
  }

  /** Text whose brackets never mismatch is repaired into well-nested text. */
  lemma RepairNestedWellNested(s: string)
    requires Unclosed([], s).Some?
    ensures WellNested(RepairNested(s))
  {
    var st := Unclosed([], s).value;
    UnclosedOpeners([], s);
    if |st| > 0 {
      var base := DropTrailingComma(s);
      DropCommaUnclosed(s);
      UnclosedAppend([], base, Closers(st));
      UnclosedClosers(st);
    }
  }

  /** One opener pushed. */
  lemma UnclosedOpen(st: seq<char>, s: string)
    requires |s| > 0 && IsOpener(s[0])
    ensures Unclosed(st, s) == Unclosed(st + [s[0]], s[1..])
  {
  }

  predicate BracketFree(s: string) {
    forall k :: 0 <= k < |s| ==> !IsOpener(s[k]) && !IsCloser(s[k])
  }

  /** A reply cut off inside nested objects: `{`, a key, `[{`, a key, `{}`.
      It ends at a '}', so it is exactly the span the page cuts out and
      repairs. */
  function CutReply(a: string, b: string): (r: string)
    ensures |r| > 0 && r[0] == '{' && r[|r| - 1] == '}'
  {
    "{" + (a + ("[{" + (b + "{}")))
  }

  /** The cut reply leaves '{', '[' and '{' open, outermost first. */
  lemma CutReplyOpeners(a: string, b: string)
    requires BracketFree(a) && BracketFree(b)
    ensures Unclosed([], CutReply(a, b)) == Some(['{', '[', '{'])
  {
    var st := ['{', '[', '{'];
    UnclosedAppend([], "{", a + ("[{" + (b + "{}")));
    assert Unclosed([], "{") == Some(['{']) by {
      assert "{"[1..] == "" && [] + ['{'] == ['{'];
    }
    UnclosedAppend(['{'], a, "[{" + (b + "{}"));
    UnclosedPlain(['{'], a);
    UnclosedAppend(['{'], "[{", b + "{}");
    assert Unclosed(['{'], "[{") == Some(st) by {
      assert "[{"[1..] == "{" && "{"[1..] == "";
      assert ['{'] + ['['] == ['{', '['] && ['{', '['] + ['{'] == st;
    }
    UnclosedAppend(st, b, "{}");
    UnclosedPlain(st, b);
    assert Unclosed(st, "{}") == Some(st) by {
      assert "{}"[1..] == "}" && "}"[1..] == "";
      assert (st + ['{'])[..3] == st;
    }
  }

  lemma BracketFreeCounts(s: string)
    requires BracketFree(s)
    ensures CountChar(s, '{') == 0 && CountChar(s, '}') == 0 && CountChar(s, '[') == 0 && CountChar(s, ']') == 0
  {
    assert '{' !in s && '}' !in s && '[' !in s && ']' !in s;
  }

  /** The cut reply holds three '{', one '}', one '[' and no ']'. */
  lemma CutReplyCounts(a: string, b: string)
    requires BracketFree(a) && BracketFree(b)
    ensures CountChar(CutReply(a, b), '{') == 3 && CountChar(CutReply(a, b), '}') == 1
    ensures CountChar(CutReply(a, b), '[') == 1 && CountChar(CutReply(a, b), ']') == 0
  {
    assert multiset(CutReply(a, b)) == multiset("{") + (multiset(a) + (multiset("[{") + (multiset(b) + multiset("{}"))));
    BracketFreeCounts(a);
    BracketFreeCounts(b);
    assert multiset("{") == multiset{'{'};
    assert multiset("[{") == multiset{'[', '{'};
    assert multiset("{}") == multiset{'{', '}'};
  }

  /** The page's span of the cut reply is the whole reply. */
  lemma CutReplySpan(a: string, b: string)
    ensures JsonSpan(CutReply(a, b)) == Some(CutReply(a, b))
  {
    var s := CutReply(a, b);
    FindSpec(s, "{");
    assert OccursAt(s, "{", 0) by {
      assert s[0..1] == "{";
    }
    assert s[0..|s|] == s;
  }

  /** Neither repair has a trailing comma to drop from the cut reply. */
  lemma CutReplyNoComma(a: string, b: string)
    ensures DropTrailingComma(CutReply(a, b)) == CutReply(a, b)
  {
    var s := CutReply(a, b);
    assert RStrip(s) == s by {
      assert !IsSpace(s[|s| - 1]);
    }
    assert !EndsWith(s, ",") by {
      assert s[|s| - 1..] == "}";
    }
  }

  /** The code's repair of the cut reply appends "]" and then "}}"; its ']'
      meets an open '{', so the result does not nest. */
  lemma CutReplyFixed(a: string, b: string)
    requires BracketFree(a) && BracketFree(b)
    ensures FixTruncated(CutReply(a, b)) == CutReply(a, b) + "]}}"
    ensures !WellNested(FixTruncated(CutReply(a, b)))
  {
    var s := CutReply(a, b);
    CutReplyCounts(a, b);
    CutReplyNoComma(a, b);
    assert Repeat(']', 1) == "]" && Repeat('}', 2) == "}}";
    assert FixTruncated(s) == s + "]" + "}}";
    assert s + "]" + "}}" == s + "]}}";
    CutReplyOpeners(a, b);
    UnclosedAppend([], s, "]}}");
    assert Unclosed(['{', '[', '{'], "]}}") == None;
  }

  /** Closing the cut reply innermost first appends "}]}", which nests. */
  lemma CutReplyRepaired(a: string, b: string)
    requires BracketFree(a) && BracketFree(b)
    ensures RepairNested(CutReply(a, b)) == CutReply(a, b) + "}]}"
    ensures WellNested(RepairNested(CutReply(a, b)))
  {
    var s := CutReply(a, b);
    CutReplyOpeners(a, b);
    CutReplyNoComma(a, b);
    assert Closers(['{', '[', '{']) == "}]}" by {
      assert ['{', '[', '{'][..2] == ['{', '['];
      assert ['{', '['][..1] == ['{'];
      assert ['{'][..0] == [];
    }
    RepairNestedWellNested(s);
  }

  /** For every pair of bracket-free keys, the cut reply is its own span;
      the code's repair does not nest and the innermost-first one does. */
  lemma CutReplyRepairs(a: string, b: string)
    requires BracketFree(a) && BracketFree(b)
    ensures JsonSpan(CutReply(a, b)) == Some(CutReply(a, b))
    ensures FixTruncated(CutReply(a, b)) == CutReply(a, b) + "]}}"
    ensures !WellNested(FixTruncated(CutReply(a, b)))
    ensures RepairNested(CutReply(a, b)) == CutReply(a, b) + "}]}"
    ensures WellNested(RepairNested(CutReply(a, b)))
  {
    CutReplySpan(a, b);
    CutReplyFixed(a, b);
    CutReplyRepaired(a, b);
  }

  /** The reachable span `{"a":[{"b":{}` becomes `{"a":[{"b":{}]}}`, which
      does not nest, while closing innermost first gives
      `{"a":[{"b":{}}]}`. */
  lemma FixTruncatedMisnests()
    ensures var s := "{\"a\":[{\"b\":{}";
      JsonSpan(s) == Some(s) && FixTruncated(s) == s + "]}}" && !WellNested(FixTruncated(s))
      && RepairNested(s) == s + "}]}" && WellNested(RepairNested(s))
  {
    var a := "\"a\":";
    var b := "\"b\":";
    assert BracketFree(a) && BracketFree(b);
    var s := CutReply(a, b);
    assert s == "{\"a\":[{\"b\":{}";
    CutReplyRepairs(a, b);
  }
}

=== FILE: review_queue.dfy ===
/** The review queue page: a reviewer approves or rejects one pending DRI
    analysis. The item's status is PENDING, APPROVED or REJECTED; a partial
    rejection is stored as APPROVED together with the excluded indicator
    ids. Three per-item session flags drive the page: reject mode, recalculate
    mode and the stored selections (an insertion-ordered map from indicator
    id to rejection). Database writes are modelled as the item's new field
    values plus the rejection rows stored. Each statement goes through
    `execute_query`, which reports a failure on screen and carries on, so
    the page clears its flags whether or not the write took effect. */
module ReviewQueue {
  import opened Wrappers
  import opened Text
  import opened Scoring

  /** Only the first 15 indicators are shown in the selection view. */
  const ShownIndicators: nat := 15

  /** Reviewer notes are cut to this many characters before quoting. */
  const NotesLimit: nat := 4000

  const DefaultRejectNote: string := "No specific reason provided"

  datatype Status = Pending | Approved | Rejected

  /** One entry of the analysis's indicator list; either key may be absent. */
  datatype Indicator = Indicator(deficitId: Option<string>, deficitName: Option<string>)

  /** A ticked indicator and the reason typed for it. */
  datatype Rejection = Rejection(id: string, name: string, reason: string)

  /** The queue row's fields the page reads or writes. */
  datatype Item = Item(
    status: Status,
    indicators: seq<Indicator>,
    proposedScore: Option<real>,
    proposedBand: Option<Band>,
    indicatorsAdded: Option<int>,
    excluded: Option<seq<string>>,
    notes: Option<string>)

  /** The three session-state entries kept per queue item. */
  datatype Flags = Flags(rejectMode: bool, recalcMode: bool, selections: seq<Rejection>)

  const Cleared: Flags := Flags(false, false, [])

  datatype State = State(item: Item, flags: Flags)

  /** The buttons of the page. `Recalculate` carries the selection view's
      widgets: entry i is None when the i-th checkbox is clear, otherwise
      the reason typed for it. `Reject` is the no-indicator path's button
      with its general notes. */
  datatype Action =
    | ApproveAll
    | RejectSome
    | Back
    | Recalculate(ticks: seq<Option<string>>)
    | EditSelections
    | RejectAll
    | ApproveNewDri
    | Approve
    | Reject(generalNotes: string)
  {
    /** Actions that only move between the page's views. */
    predicate Navigation() {
      RejectSome? || Back? || Recalculate? || EditSelections?
    }
  }

  /** The page after a button: the new state and the rejection rows stored. */
  datatype Outcome = Outcome(state: State, rows: seq<Rejection>)

  function Min(a: nat, b: nat): nat {
    if a <= b then a else b
  }

  // ---------------------------------------------------------------------
  // Building the selections

  /** Key of the i-th shown indicator: its deficit id, or "unknown_<i>". */
  function DisplayId(inds: seq<Indicator>, i: nat): string {
    if i < |inds| then inds[i].deficitId.GetOr("unknown_" + NatToString(i)) else ""
  }

  function DisplayName(inds: seq<Indicator>, i: nat): string {
    if i < |inds| then inds[i].deficitName.GetOr("Unknown") else ""
  }

  function TickAt(ticks: seq<Option<string>>, i: nat): Option<string> {
    if i < |ticks| then ticks[i] else None
  }

  /** The rejection recorded for the i-th shown indicator when ticked. */
  function EntryAt(inds: seq<Indicator>, ticks: seq<Option<string>>, i: nat): Rejection {
    Rejection(DisplayId(inds, i), DisplayName(inds, i), TickAt(ticks, i).GetOr(""))
  }

  /** Index i is ticked and no later ticked index among the first k has the
      same key, so its entry is the one the map keeps. */
  ghost predicate LastTick(inds: seq<Indicator>, ticks: seq<Option<string>>, k: nat, i: nat) {
    i < k <= |inds| && TickAt(ticks, i).Some? &&
    forall j :: i < j < k && TickAt(ticks, j).Some? ==> DisplayId(inds, j) != DisplayId(inds, i)
  }

  predicate DistinctIds(sel: seq<Rejection>) {
    forall i, j :: 0 <= i < j < |sel| ==> sel[i].id != sel[j].id
  }

  /** In a map with distinct keys no later entry repeats the first key. */
  lemma TailIdsDiffer(sel: seq<Rejection>)
    requires |sel| > 0
    ensures DistinctIds(sel) ==> forall e :: e in sel[1..] ==> e.id != sel[0].id
  {
    forall e | DistinctIds(sel) && e in sel[1..] ensures e.id != sel[0].id {
      var j :| 0 <= j < |sel[1..]| && sel[1..][j] == e;
      assert sel[j + 1] == e;
    }
  }

  function IdSet(sel: seq<Rejection>): set<string> {
    set e | e in sel :: e.id
  }

  /** Python `d[x.id] = x` on an insertion-ordered map: an existing key keeps
      its position and takes the new value, a new key goes last. */
  function Upsert(sel: seq<Rejection>, x: Rejection): (r: seq<Rejection>)
    requires DistinctIds(sel)
    ensures DistinctIds(r)
    ensures |r| == if x.id in IdSet(sel) then |sel| else |sel| + 1
    ensures forall e :: e in r <==> e == x || (e in sel && e.id != x.id)
  {
    if |sel| == 0 then [x]
    else if sel[0].id == x.id then
      TailIdsDiffer(sel);
      [x] + sel[1..]
    else
      var rest := Upsert(sel[1..], x);
      assert IdSet(sel) == {sel[0].id} + IdSet(sel[1..]) by {
        assert sel == [sel[0]] + sel[1..];
      }
      TailIdsDiffer(sel);
      [sel[0]] + rest
  }

  /** The map the selection view builds from the first k shown indicators:
      exactly one entry per ticked key, holding the last tick's values. */
  function Collect(inds: seq<Indicator>, ticks: seq<Option<string>>, k: nat): (r: seq<Rejection>)
    requires k <= |inds|
    ensures DistinctIds(r)
    ensures |r| <= k
    ensures forall e :: e in r <==> exists i :: LastTick(inds, ticks, k, i) && e == EntryAt(inds, ticks, i)
  {
    if k == 0 then []
    else
      var prev := Collect(inds, ticks, k - 1);
      if TickAt(ticks, k - 1).None? then
        assert forall i :: LastTick(inds, ticks, k, i) <==> LastTick(inds, ticks, k - 1, i);
        prev
      else
        var r := Upsert(prev, EntryAt(inds, ticks, k - 1));
        CollectStep(inds, ticks, k, prev, r);
        r
  }

  /** A tick at k - 1 replaces the entry with its key and keeps the rest. */
  lemma CollectStep(inds: seq<Indicator>, ticks: seq<Option<string>>, k: nat, prev: seq<Rejection>, r: seq<Rejection>)
    requires 0 < k <= |inds| && TickAt(ticks, k - 1).Some?
    requires forall e :: e in prev <==> exists i :: LastTick(inds, ticks, k - 1, i) && e == EntryAt(inds, ticks, i)
    requires forall e :: e in r <==> e == EntryAt(inds, ticks, k - 1) || (e in prev && e.id != EntryAt(inds, ticks, k - 1).id)
    ensures forall e :: e in r <==> exists i :: LastTick(inds, ticks, k, i) && e == EntryAt(inds, ticks, i)
  {
    var x := EntryAt(inds, ticks, k - 1);
    assert LastTick(inds, ticks, k, k - 1);
    forall e | e in r ensures exists i :: LastTick(inds, ticks, k, i) && e == EntryAt(inds, ticks, i) {
      if e != x {
        var i: nat :| LastTick(inds, ticks, k - 1, i) && e == EntryAt(inds, ticks, i);
        assert LastTick(inds, ticks, k, i);
      }
    }
    forall e | exists i :: LastTick(inds, ticks, k, i) && e == EntryAt(inds, ticks, i) ensures e in r {
      var i: nat :| LastTick(inds, ticks, k, i) && e == EntryAt(inds, ticks, i);
      if i < k - 1 {
        assert LastTick(inds, ticks, k - 1, i);
      }
    }
  }

  /** Python's filter `{k: v for k, v in rejections.items() if v.get('reason')}`. */
  function WithReasons(sel: seq<Rejection>): (r: seq<Rejection>)
    ensures |r| <= |sel|
    ensures forall e :: e in r <==> e in sel && e.reason != ""
    ensures DistinctIds(sel) ==> DistinctIds(r)
  {
    if |sel| == 0 then []
    else
      var rest := WithReasons(sel[1..]);
      TailIdsDiffer(sel);
      if sel[0].reason != "" then [sel[0]] + rest else rest
  }

  /** The selections "Recalculate DRI" would store: the selection view's map
      over the first 15 indicators with blank reasons dropped. An entry is
      kept exactly when it is the last tick for its key and has a reason. */
  function PickedRejections(inds: seq<Indicator>, ticks: seq<Option<string>>): (r: seq<Rejection>)
    ensures DistinctIds(r)
    ensures |r| <= Min(ShownIndicators, |inds|)
    ensures forall e :: e in r ==> e.reason != ""
    ensures forall e :: e in r <==>
      exists i :: LastTick(inds, ticks, Min(ShownIndicators, |inds|), i) && e == EntryAt(inds, ticks, i) && e.reason != ""
  {
    WithReasons(Collect(inds, ticks, Min(ShownIndicators, |inds|)))
  }

  /** The Recalculate button is enabled exactly when some shown indicator's
      final tick carries a non-empty reason; every enabled selection comes
      from a ticked indicator with a reason. */
  lemma RecalculateEnabled(inds: seq<Indicator>, ticks: seq<Option<string>>)
    ensures |PickedRejections(inds, ticks)| > 0 <==>
      exists i :: LastTick(inds, ticks, Min(ShownIndicators, |inds|), i) && TickAt(ticks, i).value != ""
    ensures |PickedRejections(inds, ticks)| > 0 ==>
      exists i: nat :: i < Min(ShownIndicators, |inds|) && TickAt(ticks, i).Some? && TickAt(ticks, i).value != ""
  {
    var n := Min(ShownIndicators, |inds|);
    var r := PickedRejections(inds, ticks);
    if |r| > 0 {
      assert r[0] in r;
      var i :| LastTick(inds, ticks, n, i) && r[0] == EntryAt(inds, ticks, i) && r[0].reason != "";
      assert TickAt(ticks, i).value != "";
    }
    if exists i :: LastTick(inds, ticks, n, i) && TickAt(ticks, i).value != "" {
      var i :| LastTick(inds, ticks, n, i) && TickAt(ticks, i).value != "";
      assert EntryAt(inds, ticks, i) in r;
    }
  }

  // ---------------------------------------------------------------------
  // Notes and SQL literals

  function IdSeq(sel: seq<Rejection>): (r: seq<string>)
    ensures |r| == |sel|
    ensures forall i :: 0 <= i < |sel| ==> r[i] == sel[i].id
  {
    seq(|sel|, i requires 0 <= i < |sel| => sel[i].id)
  }

  /** `"; ".join(f"{k}: {v['reason']}" ...)` over the selections. */
  function ReasonList(sel: seq<Rejection>): string {
    Join(seq(|sel|, i requires 0 <= i < |sel| => sel[i].id + ": " + sel[i].reason), "; ")
  }

  /** Notes written by "Reject All": the summary cut to 4000 characters. */
  function RejectAllNotes(sel: seq<Rejection>): (r: string)
    ensures |r| <= NotesLimit
    ensures StartsWith(r, "REJECTED - ")
    ensures StartsWith("REJECTED - " + ReasonList(sel), r)
    ensures |"REJECTED - " + ReasonList(sel)| <= NotesLimit ==> r == "REJECTED - " + ReasonList(sel)
  {
    var full := "REJECTED - " + ReasonList(sel);
    var r := Take(full, NotesLimit);
    assert r[..11] == full[..11];
    r
  }

  /** Notes written by "Approve New DRI": the summary cut to 4000 characters. */
  function ApproveNewNotes(sel: seq<Rejection>): (r: string)
    ensures |r| <= NotesLimit
    ensures StartsWith(r, "APPROVED with ")
    ensures StartsWith("APPROVED with " + NatToString(|sel|) + " indicator(s) excluded: " + ReasonList(sel), r)
  {
    var full := "APPROVED with " + NatToString(|sel|) + " indicator(s) excluded: " + ReasonList(sel);
    var r := Take(full, NotesLimit);
    assert r[..14] == full[..14];
    r
  }

  /** Quote doubling applied before text is placed in a SQL literal. */
  function EscapeSql(s: string): string {
    Replace(s, "'", "''")
  }

  /** The character a backslash escape stands for in a Snowflake
      single-quoted literal: `\n`, `\t`, `\r`, `\b`, `\f` and `\0` are
      control characters; after any other character (a quote or a backslash
      among them) the backslash is dropped. */
  function EscapedChar(c: char): (r: char)
    ensures c !in {'n', 't', 'r', 'b', 'f', '0'} ==> r == c
    ensures c in {'n', 't', 'r', 'b', 'f', '0'} ==> r < ' '
  {
    if c == 'n' then '\n' else if c == 't' then '\t' else if c == 'r' then '\r'
    else if c == 'b' then 8 as char else if c == 'f' then 12 as char else if c == '0' then '\0'
    else c
  }

  /** One character read, then the rest. */
  function Prefixed(c: char, rest: Option<string>): (r: Option<string>)
    ensures r.Some? <==> rest.Some?
    ensures r.Some? ==> r.value == [c] + rest.value
  {
    if rest.Some? then Some([c] + rest.value) else None
  }

  /** How the database reads the body of a single-quoted literal back: `''`
      stands for a quote and a backslash escape for one character. A lone
      quote would end the literal early and a trailing backslash would
      escape the closing quote; such a body is not one literal (None). */
  function ReadLiteral(t: string): (r: Option<string>)
    decreases |t|
  {
    if |t| == 0 then Some("")
    else if t[0] == '\'' then
      if |t| >= 2 && t[1] == '\'' then Prefixed('\'', ReadLiteral(t[2..])) else None
    else if t[0] == '\\' then
      if |t| >= 2 then Prefixed(EscapedChar(t[1]), ReadLiteral(t[2..])) else None
    else Prefixed(t[0], ReadLiteral(t[1..]))
  }

  predicate BackslashFree(s: string) {
    forall k :: 0 <= k < |s| ==> s[k] != '\\'
  }

  /** A character that is neither a quote nor a backslash reads as itself. */
  lemma ReadPlainStep(t: string)
    requires |t| > 0 && t[0] != '\'' && t[0] != '\\'
    ensures ReadLiteral(t) == Prefixed(t[0], ReadLiteral(t[1..]))
  {
  }

  /** Reading back text with neither quotes nor backslashes, followed by a
      literal body, gives that text followed by what the body reads as. */
  lemma {:induction false} ReadPlainPrefix(a: string, b: string, x: string)
    requires forall k :: 0 <= k < |a| ==> a[k] != '\'' && a[k] != '\\'
    requires ReadLiteral(b) == Some(x)
    ensures ReadLiteral(a + b) == Some(a + x)
    decreases |a|
  {
    if |a| > 0 {
      var t := a + b;
      var rest := a[1..];
      assert t[0] == a[0] && t[1..] == rest + b;
      ReadPlainStep(t);
      ReadPlainPrefix(rest, b, x);
      assert [a[0]] + (rest + x) == a + x;
    } else {
      assert a + b == b && a + x == x;
    }
  }

  /** A quote character is an occurrence of the one-character pattern. */
  lemma NoQuoteBefore(s: string, n: int)
    requires 0 <= n <= |s|
    requires forall j :: 0 <= j < n ==> !OccursAt(s, "'", j)
    ensures forall k :: 0 <= k < n ==> s[k] != '\''
  {
    forall k | 0 <= k < n ensures s[k] != '\'' {
      assert !OccursAt(s, "'", k);
      assert s[k..k + 1] == [s[k]];
    }
  }

  lemma EscapeAtFirstQuote(s: string, i: int)
    requires i == Find(s, "'") && i >= 0
    ensures EscapeSql(s) == s[..i] + ("''" + EscapeSql(s[i + 1..]))
  {
  }

  lemma ReadPair(r: string, x: string)
    requires ReadLiteral(r) == Some(x)
    ensures ReadLiteral("''" + r) == Some("'" + x)
  {
    var t := "''" + r;
    assert t[0] == '\'' && t[1] == '\'' && t[2..] == r;
  }

  lemma ReadBackslashPair(r: string, x: string)
    requires ReadLiteral(r) == Some(x)
    ensures ReadLiteral("\\\\" + r) == Some("\\" + x)
  {
    var t := "\\\\" + r;
    assert t[0] == '\\' && t[1] == '\\' && t[2..] == r;
  }

  /** Reading back plain text followed by a doubled quote. */
  lemma ReadAfterPlain(a: string, e: string, x: string)
    requires forall k :: 0 <= k < |a| ==> a[k] != '\'' && a[k] != '\\'
    requires ReadLiteral(e) == Some(x)
    ensures ReadLiteral(a + ("''" + e)) == Some(a + ("'" + x))
  {
    ReadPair(e, x);
    ReadPlainPrefix(a, "''" + e, "'" + x);
  }

  /** For text without backslashes, the stored value of an escaped literal
      is the original text, so such notes, names and reasons arrive
      unchanged. */
  lemma {:induction false} EscapeSqlRoundTrip(s: string)
    ensures BackslashFree(s) ==> ReadLiteral(EscapeSql(s)) == Some(s)
    decreases |s|
  {
    if BackslashFree(s) {
      var i := Find(s, "'");
      FindSpec(s, "'");
      if i < 0 {
        NoQuoteBefore(s, |s|);
        ReadPlainPrefix(s, "", "");
        assert s + "" == s;
      } else {
        assert BackslashFree(s[i + 1..]);
        EscapeSqlRoundTrip(s[i + 1..]);
        EscapeAtQuoteRoundTrip(s, i);
      }
    }
  }

  /** One step of the round trip: the text up to the first quote, the
      doubled quote, then the rest, which round-trips by itself. */
  lemma EscapeAtQuoteRoundTrip(s: string, i: int)
    requires i == Find(s, "'") && i >= 0 && BackslashFree(s)
    requires ReadLiteral(EscapeSql(s[i + 1..])) == Some(s[i + 1..])
    ensures ReadLiteral(EscapeSql(s)) == Some(s)
  {
    EscapeAtFirstQuote(s, i);
    QuoteFreePrefix(s, i);
    ReadAfterPlain(s[..i], EscapeSql(s[i + 1..]), s[i + 1..]);
    SplitAtQuote(s, i);
  }

  lemma QuoteFreePrefix(s: string, i: int)
    requires i == Find(s, "'") && i >= 0
    ensures forall k :: 0 <= k < |s[..i]| ==> s[..i][k] != '\''
  {
    FindSpec(s, "'");
    NoQuoteBefore(s, i);
  }

  lemma SplitAtQuote(s: string, i: int)
    requires i == Find(s, "'") && i >= 0
    ensures s == s[..i] + ("'" + s[i + 1..])
  {
    assert s[i] == '\'' by {
      FindSpec(s, "'");
      assert s[i..i + 1][0] == s[i];
    }
    assert s[i..] == "'" + s[i + 1..];
    assert s == s[..i] + s[i..];
  }

  /** Truncation happens before quoting: backslash-free notes are stored
      unchanged and so at most 4000 characters long. */
  lemma StoredNotesBounded(sel: seq<Rejection>)
    ensures BackslashFree(RejectAllNotes(sel)) ==> ReadLiteral(EscapeSql(RejectAllNotes(sel))) == Some(RejectAllNotes(sel))
    ensures BackslashFree(ApproveNewNotes(sel)) ==> ReadLiteral(EscapeSql(ApproveNewNotes(sel))) == Some(ApproveNewNotes(sel))
    ensures BackslashFree(RejectAllNotes(sel)) ==> |ReadLiteral(EscapeSql(RejectAllNotes(sel))).value| <= NotesLimit
    ensures BackslashFree(ApproveNewNotes(sel)) ==> |ReadLiteral(EscapeSql(ApproveNewNotes(sel))).value| <= NotesLimit
  {
    EscapeSqlRoundTrip(RejectAllNotes(sel));
    EscapeSqlRoundTrip(ApproveNewNotes(sel));
  }

  /** Text without quotes is left as it is by the escaping. */
  lemma QuoteFreeUnescaped(s: string)
    requires forall k :: 0 <= k < |s| ==> s[k] != '\''
    ensures EscapeSql(s) == s
  {
    forall i ensures !OccursAt(s, "'", i) {
      if 0 <= i && i + 1 <= |s| {
        assert s[i..i + 1] == [s[i]];
      }
    }
    FindSpec(s, "'");
  }

  /** Quote doubling alone does not protect a backslash: a reason ending in
      one breaks the literal, and the two characters `\n` are stored as a
      line break. */
  lemma BackslashAsWritten()
    ensures ReadLiteral(EscapeSql("a\\")) == None
    ensures ReadLiteral(EscapeSql("\\n")) == Some("\n")
  {
    QuoteFreeUnescaped("a\\");
    QuoteFreeUnescaped("\\n");
    assert ReadLiteral("a\\") == Prefixed('a', ReadLiteral("\\"));
    var t := "\\n";
    assert t[0] == '\\' && t[1] == 'n' && t[2..] == "";
    assert ReadLiteral(t) == Prefixed(EscapedChar('n'), ReadLiteral(""));
    assert EscapedChar('n') == '\n' && ['\n'] + "" == "\n";
  }

  /** An escaped double quote between plain texts reads as a bare one. */
  lemma ReadEscapedQuote(a: string, b: string)
    requires forall k :: 0 <= k < |a| ==> a[k] != '\'' && a[k] != '\\'
    requires forall k :: 0 <= k < |b| ==> b[k] != '\'' && b[k] != '\\'
    ensures ReadLiteral(a + "\\\"" + b) == Some(a + "\"" + b)
  {
    var t := "\\\"" + b;
    assert ReadLiteral(t) == Some("\"" + b) by {
      PlainReadsAsItself(b);
      ReadEscapedQuoteFirst(b, b);
    }
    assert ReadLiteral(a + t) == Some(a + ("\"" + b)) by {
      ReadPlainPrefix(a, t, "\"" + b);
    }
    assert a + t == a + "\\\"" + b;
    assert a + ("\"" + b) == a + "\"" + b;
  }

  lemma PlainReadsAsItself(b: string)
    requires forall k :: 0 <= k < |b| ==> b[k] != '\'' && b[k] != '\\'
    ensures ReadLiteral(b) == Some(b)
  {
    ReadPlainPrefix(b, "", "");
    assert b + "" == b;
  }

  lemma ReadEscapedQuoteFirst(r: string, x: string)
    requires ReadLiteral(r) == Some(x)
    ensures ReadLiteral("\\\"" + r) == Some("\"" + x)
  {
    var t := "\\\"" + r;
    assert t[0] == '\\' && t[1] == '"' && t[2..] == r;
  }

  /** Escaping that doubles backslashes as well as quotes. */
  function EscapeLiteral(s: string): (r: string)
    ensures |r| >= |s|
  {
    if |s| == 0 then ""
    else (if s[0] == '\'' then "''" else if s[0] == '\\' then "\\\\" else [s[0]]) + EscapeLiteral(s[1..])
  }

  /** With backslashes doubled too, every text reads back unchanged. */
  lemma {:induction false} EscapeLiteralRoundTrip(s: string)
    ensures ReadLiteral(EscapeLiteral(s)) == Some(s)
  {
    if |s| > 0 {
      var rest := EscapeLiteral(s[1..]);
      EscapeLiteralRoundTrip(s[1..]);
      var t := EscapeLiteral(s);
      if s[0] == '\'' {
        assert t == "''" + rest;
        ReadPair(rest, s[1..]);
      } else if s[0] == '\\' {
        assert t == "\\\\" + rest;
        ReadBackslashPair(rest, s[1..]);
      } else {
        assert t == [s[0]] + rest;
        assert t[0] == s[0] && t[1..] == rest;
        ReadPlainStep(t);
      }
      assert s == [s[0]] + s[1..];
    }
  }

  // ---------------------------------------------------------------------
  // What the database keeps

  /** What a column receives from `'<EscapeSql(s)>'`: the literal read
      back, or None when the body is not one literal. The statement is then
      not the one the page meant, and the model takes it as rejected; the
      text after the swallowed quote would otherwise have to happen to form
      valid SQL. */
  function StoredText(s: string): Option<string> {
    ReadLiteral(EscapeSql(s))
  }

  predicate Quotable(s: string) {
    StoredText(s).Some?
  }

  /** A complete literal body followed by a lone backslash is not one: the
      backslash escapes the closing quote. */
  lemma {:induction false} ReadThenBackslash(t: string)
    requires ReadLiteral(t).Some?
    ensures ReadLiteral(t + "\\") == None
    decreases |t|
  {
    var u := t + "\\";
    if |t| == 0 {
      assert u == "\\";
    } else if t[0] == '\'' {
      assert u[0] == '\'' && u[1] == '\'' && u[2..] == t[2..] + "\\";
      ReadThenBackslash(t[2..]);
    } else if t[0] == '\\' {
      assert u[0] == '\\' && u[2..] == t[2..] + "\\";
      ReadThenBackslash(t[2..]);
    } else {
      assert u[0] == t[0] && u[1..] == t[1..] + "\\";
      ReadThenBackslash(t[1..]);
    }
  }

  /** Backslash-free text is stored as it is; the same text followed by one
      backslash cannot be stored at all. */
  lemma QuotableBackslash(p: string)
    requires BackslashFree(p)
    ensures StoredText(p) == Some(p)
    ensures !Quotable(p + "\\")
  {
    EscapeSqlRoundTrip(p);
    ReplaceAppend(p, "'", "''", '\\');
    ReadThenBackslash(EscapeSql(p));
  }

  /** The row a rejection INSERT stores, if the database accepts it. */
  function StoredRow(e: Rejection): Option<Rejection> {
    if Quotable(e.name) && Quotable(e.reason) then
      Some(Rejection(e.id, StoredText(e.name).value, StoredText(e.reason).value))
    else None
  }

  /** The rejection rows stored by one INSERT per selection, in order; an
      INSERT that fails drops its row and the loop carries on. */
  function StoredRows(sel: seq<Rejection>): (r: seq<Rejection>)
    ensures |r| <= |sel|
  {
    if |sel| == 0 then []
    else (if StoredRow(sel[0]).Some? then [StoredRow(sel[0]).value] else []) + StoredRows(sel[1..])
  }

  /** Every stored row comes from a selection whose INSERT succeeded, and
      every such selection's row is stored. */
  lemma {:induction false} StoredRowsMembers(sel: seq<Rejection>)
    ensures forall x :: x in StoredRows(sel) ==> exists e :: e in sel && StoredRow(e) == Some(x)
    ensures forall e :: e in sel && StoredRow(e).Some? ==> StoredRow(e).value in StoredRows(sel)
  {
    if |sel| > 0 {
      StoredRowsMembers(sel[1..]);
      var head := if StoredRow(sel[0]).Some? then [StoredRow(sel[0]).value] else [];
      assert StoredRows(sel) == head + StoredRows(sel[1..]);
      forall x | x in StoredRows(sel) ensures exists e :: e in sel && StoredRow(e) == Some(x) {
        if x in head {
          assert sel[0] in sel;
        } else {
          var e :| e in sel[1..] && StoredRow(e) == Some(x);
          assert e in sel;
        }
      }
      forall e | e in sel && StoredRow(e).Some? ensures StoredRow(e).value in StoredRows(sel) {
        if e != sel[0] {
          assert e in sel[1..];
        }
      }
    }
  }

  predicate PlainRejections(sel: seq<Rejection>) {
    forall e :: e in sel ==> BackslashFree(e.name) && BackslashFree(e.reason)
  }

  /** Names and reasons without backslashes are all stored as typed. */
  lemma {:induction false} PlainRowsStored(sel: seq<Rejection>)
    requires PlainRejections(sel)
    ensures StoredRows(sel) == sel
  {
    if |sel| > 0 {
      PlainRowStored(sel[0]);
      assert PlainRejections(sel[1..]) by {
        forall x | x in sel[1..] ensures x in sel { }
      }
      PlainRowsStored(sel[1..]);
      assert sel == [sel[0]] + sel[1..];
    }
  }

  lemma PlainRowStored(e: Rejection)
    requires BackslashFree(e.name) && BackslashFree(e.reason)
    ensures StoredRow(e) == Some(e)
  {
    QuotableBackslash(e.name);
    QuotableBackslash(e.reason);
  }

  // ---------------------------------------------------------------------
  // The workflow

  predicate ViewMode(f: Flags) {
    !f.rejectMode && !f.recalcMode
  }

  predicate SelectMode(f: Flags) {
    f.rejectMode && !f.recalcMode
  }

  /** The buttons the page shows for a state. */
  predicate Offered(s: State, a: Action) {
    s.item.status == Pending &&
    if |s.item.indicators| == 0 then a.Approve? || a.Reject?
    else if ViewMode(s.flags) then a.ApproveAll? || a.RejectSome?
    else if SelectMode(s.flags) then a.Back? || a.Recalculate?
    else a.EditSelections? || a.RejectAll? || a.ApproveNewDri?
  }

  /** Indicators kept by a partial rejection. */
  function AcceptedCount(s: State): int {
    |s.item.indicators| - |s.flags.selections|
  }

  /** "Reject All" from the recalculated view: one INSERT per selection,
      then the UPDATE to REJECTED with the excluded ids and the notes. If the
      notes cannot be stored the UPDATE fails and the item keeps all its
      fields; the flags are cleared either way. */
  function DoRejectAll(s: State): (r: Outcome)
    ensures r.state.flags == Cleared
    ensures r.rows == StoredRows(s.flags.selections)
    ensures Quotable(RejectAllNotes(s.flags.selections)) ==>
      r.state.item.status == Rejected
      && r.state.item.excluded == Some(IdSeq(s.flags.selections))
      && r.state.item.notes == StoredText(RejectAllNotes(s.flags.selections))
      && r.state.item.proposedScore == s.item.proposedScore
      && r.state.item.indicators == s.item.indicators
    ensures !Quotable(RejectAllNotes(s.flags.selections)) ==> r.state.item == s.item
  {
    var sel := s.flags.selections;
    var notes := StoredText(RejectAllNotes(sel));
    var item := if notes.Some? then s.item.(status := Rejected, excluded := Some(IdSeq(sel)), notes := notes) else s.item;
    Outcome(State(item, Cleared), StoredRows(sel))
  }

  /** "Approve New DRI": approved with the selections excluded and the score
      recomputed from the accepted count, when the notes can be stored;
      otherwise the UPDATE fails and the item keeps all its fields. */
  function DoApproveNew(s: State): (r: Outcome)
    ensures r.state.flags == Cleared
    ensures r.rows == StoredRows(s.flags.selections)
    ensures Quotable(ApproveNewNotes(s.flags.selections)) ==>
      r.state.item.status == Approved
      && r.state.item.excluded == Some(IdSeq(s.flags.selections))
      && r.state.item.indicatorsAdded == Some(|s.item.indicators| - |s.flags.selections|)
      && r.state.item.proposedScore.Some?
      && r.state.item.proposedScore.value * 33.0 == (|s.item.indicators| - |s.flags.selections|) as real
      && r.state.item.proposedBand == Some(BandOf(r.state.item.proposedScore.value))
      && r.state.item.notes == StoredText(ApproveNewNotes(s.flags.selections))
      && r.state.item.indicators == s.item.indicators
    ensures !Quotable(ApproveNewNotes(s.flags.selections)) ==> r.state.item == s.item
  {
    var sel := s.flags.selections;
    var accepted := AcceptedCount(s);
    var score := accepted as real / 33.0;
    var notes := StoredText(ApproveNewNotes(sel));
    var item :=
      if notes.Some? then
        s.item.(status := Approved, proposedScore := Some(score), proposedBand := Some(BandOf(score)),
                indicatorsAdded := Some(accepted), excluded := Some(IdSeq(sel)), notes := notes)
      else s.item;
    Outcome(State(item, Cleared), StoredRows(sel))
  }

  /** The four buttons that only move between the views of an item with
      indicator details: the flags they leave, or why the button is not
      there. */
  function Navigate(f: Flags, indicators: seq<Indicator>, a: Action): (r: Result<Flags>)
    requires a.Navigation()
    ensures a.RejectSome? ==> (r.Ok? <==> ViewMode(f)) && (r.Ok? ==> r.value == f.(rejectMode := true, selections := []))
    ensures a.Back? ==> (r.Ok? <==> SelectMode(f)) && (r.Ok? ==> r.value == Cleared)
    ensures a.Recalculate? ==>
      (r.Ok? <==> SelectMode(f) && |PickedRejections(indicators, a.ticks)| > 0)
      && (r.Ok? ==> r.value == f.(selections := PickedRejections(indicators, a.ticks), recalcMode := true))
    ensures a.EditSelections? ==> (r.Ok? <==> f.recalcMode) && (r.Ok? ==> r.value == f.(recalcMode := false))
  {
    match a
    case RejectSome =>
      if ViewMode(f) then Ok(f.(rejectMode := true, selections := [])) else Err("button not shown")
    case Back =>
      if SelectMode(f) then Ok(f.(rejectMode := false, selections := [])) else Err("button not shown")
    case Recalculate(ticks) =>
      if !SelectMode(f) then Err("button not shown")
      else
        var picked := PickedRejections(indicators, ticks);
        if |picked| == 0 then Err("Select at least one indicator and provide a reason")
        else Ok(f.(selections := picked, recalcMode := true))
    case EditSelections =>
      if f.recalcMode then Ok(f.(recalcMode := false)) else Err("button not shown")
  }

  /** An item without indicator details offers only "Approve" and "Reject";
      neither touches the flags or writes rejection rows. */
  function PlainStep(s: State, a: Action): (r: Result<Outcome>)
    ensures r.Ok? <==> a.Approve? || a.Reject?
    ensures r.Ok? ==> r.value.state.flags == s.flags && r.value.rows == []
    ensures r.Ok? ==> r.value.state.item.indicators == s.item.indicators
    ensures a.Approve? ==> r.value.state.item == s.item.(status := Approved)
    ensures a.Reject? && !UpdateFails(s, a) ==> r.value.state.item.status == Rejected
    ensures a.Reject? && UpdateFails(s, a) ==> r.value.state.item == s.item
    ensures a.Reject? && a.generalNotes == "" ==> r.value.state.item.notes == Some(DefaultRejectNote)
    ensures a.Reject? && a.generalNotes != "" && Quotable(a.generalNotes) ==>
      r.value.state.item.notes == StoredText(a.generalNotes)
  {
    match a
    case Approve => Ok(Outcome(State(s.item.(status := Approved), s.flags), []))
    case Reject(n) =>
      var notes := if n != "" then StoredText(n) else Some(DefaultRejectNote);
      if notes.Some? then Ok(Outcome(State(s.item.(status := Rejected, notes := notes), s.flags), []))
      else Ok(Outcome(s, []))
    case _ => Err("button not shown")
  }

  /** The page after a navigation button: the item as it was, nothing written. */
  function Moved(item: Item, g: Result<Flags>): (r: Result<Outcome>)
    ensures r.Ok? <==> g.Ok?
    ensures r.Ok? ==> r.value == Outcome(State(item, g.value), [])
  {
    match g
    case Ok(flags) => Ok(Outcome(State(item, flags), []))
    case Err(e) => Err(e)
  }

  /** The button's UPDATE is rejected because its notes cannot be stored.
      The plain reject path writes the default sentence for empty notes. */
  predicate UpdateFails(s: State, a: Action) {
    (a.RejectAll? && !Quotable(RejectAllNotes(s.flags.selections))) ||
    (a.ApproveNewDri? && !Quotable(ApproveNewNotes(s.flags.selections))) ||
    (a.Reject? && a.generalNotes != "" && !Quotable(a.generalNotes))
  }

  /** One button press. Errors stand for buttons the page does not show or
      shows disabled. */
  function Step(s: State, a: Action): (r: Result<Outcome>)
    ensures r.Ok? <==> Offered(s, a) && (a.Recalculate? ==> |PickedRejections(s.item.indicators, a.ticks)| > 0)
    ensures r.Ok? ==> s.item.status == Pending
    ensures r.Ok? ==> r.value.state.item.indicators == s.item.indicators
    ensures r.Ok? ==> (r.value.state.item.status == Pending <==> a.Navigation() || UpdateFails(s, a))
    ensures r.Ok? && (a.Navigation() || UpdateFails(s, a)) ==> r.value.state.item == s.item
    ensures r.Ok? && a.Navigation() ==> r.value.rows == []
    ensures r.Ok? && (a.ApproveAll? || a.ApproveNewDri? || a.Approve?) && !UpdateFails(s, a) ==>
      r.value.state.item.status == Approved
    ensures r.Ok? && (a.RejectAll? || a.Reject?) && !UpdateFails(s, a) ==> r.value.state.item.status == Rejected
    ensures r.Ok? && (a.RejectAll? || a.ApproveNewDri?) ==>
      r.value.state.flags == Cleared && r.value.rows == StoredRows(s.flags.selections)
    ensures r.Ok? && !(a.RejectAll? || a.ApproveNewDri?) ==> r.value.rows == []
    ensures r.Ok? && a.RejectSome? ==> r.value.state.flags == s.flags.(rejectMode := true, selections := [])
    ensures r.Ok? && a.Back? ==> r.value.state.flags == Cleared
    ensures r.Ok? && a.Recalculate? ==>
      r.value.state.flags == s.flags.(selections := PickedRejections(s.item.indicators, a.ticks), recalcMode := true)
    ensures r.Ok? && a.EditSelections? ==> r.value.state.flags == s.flags.(recalcMode := false)
    ensures r.Ok? && (a.ApproveAll? || a.Approve? || a.Reject?) ==> r.value.state.flags == s.flags
  {
    var item := s.item;
    var f := s.flags;
    if item.status != Pending then Err("actions are offered only for pending items")
    else if |item.indicators| == 0 then PlainStep(s, a)
    else
      match a
      case ApproveAll =>
        if ViewMode(f) then Ok(Outcome(State(item.(status := Approved), f), [])) else Err("button not shown")
      case RejectSome => Moved(item, Navigate(f, item.indicators, a))
      case Back => Moved(item, Navigate(f, item.indicators, a))
      case Recalculate(_) => Moved(item, Navigate(f, item.indicators, a))
      case EditSelections => Moved(item, Navigate(f, item.indicators, a))
      case RejectAll =>
        if f.recalcMode then Ok(DoRejectAll(s)) else Err("button not shown")
      case ApproveNewDri =>
        if f.recalcMode then Ok(DoApproveNew(s)) else Err("button not shown")
      case _ => Err("button not shown")
  }

  /** The no-indicator reject path stores the general notes as the literal
      reads them back, or the default sentence when they are empty; nothing
      is truncated there. Notes that cannot be stored leave the item
      pending. */
  lemma PlainRejectNotes(s: State, n: string)
    requires s.item.status == Pending && |s.item.indicators| == 0
    ensures Step(s, Reject(n)).Ok?
    ensures n == "" ==> Step(s, Reject(n)).value.state.item.notes == Some(DefaultRejectNote)
    ensures n != "" && Quotable(n) ==> Step(s, Reject(n)).value.state.item.notes == StoredText(n)
    ensures BackslashFree(n) ==> Step(s, Reject(n)).value.state.item.status == Rejected
    ensures BackslashFree(n) && n != "" ==> Step(s, Reject(n)).value.state.item.notes == Some(n)
    ensures n != "" && !Quotable(n) ==> Step(s, Reject(n)).value.state.item == s.item
  {
    if BackslashFree(n) {
      QuotableBackslash(n);
    }
  }

  /** Notes typed as one selection's reason ending in a backslash: the
      "Reject All" UPDATE fails, the item stays PENDING with its old fields,
      and yet the page clears its flags and reports the rejection. */
  lemma TrailingBackslashStaysPending(s: State, id: string, name: string, reason: string)
    requires Offered(s, RejectAll)
    requires s.flags.selections == [Rejection(id, name, reason + "\\")]
    requires BackslashFree(id) && BackslashFree(reason)
    requires |id| + |reason| < 3900
    ensures Step(s, RejectAll).Ok?
    ensures Step(s, RejectAll).value.state.item == s.item && s.item.status == Pending
    ensures Step(s, RejectAll).value.state.flags == Cleared
  {
    var sel := s.flags.selections;
    var p := "REJECTED - " + id + ": " + reason;
    assert ReasonList(sel) == id + ": " + (reason + "\\") by {
      var parts := seq(|sel|, i requires 0 <= i < |sel| => sel[i].id + ": " + sel[i].reason);
      assert parts == [id + ": " + (reason + "\\")];
    }
    assert "REJECTED - " + ReasonList(sel) == p + "\\";
    assert RejectAllNotes(sel) == p + "\\";
    assert BackslashFree(p) by {
      assert BackslashFree("REJECTED - ") && BackslashFree(": ");
      BackslashFreeConcat("REJECTED - ", id);
      BackslashFreeConcat("REJECTED - " + id, ": ");
      BackslashFreeConcat("REJECTED - " + id + ": ", reason);
    }
    QuotableBackslash(p);
  }

  lemma BackslashFreeConcat(a: string, b: string)
    requires BackslashFree(a) && BackslashFree(b)
    ensures BackslashFree(a + b)
  {
    forall k | 0 <= k < |a + b| ensures (a + b)[k] != '\\' {
      if k < |a| {
        assert (a + b)[k] == a[k];
      } else {
        assert (a + b)[k] == b[k - |a|];
      }
    }
  }

  // ---------------------------------------------------------------------
  // Invariant of the session flags

  /** Selections are a non-empty map from distinct keys to reasons, drawn
      from the shown indicators. */
  predicate SelectionsOk(sel: seq<Rejection>, inds: seq<Indicator>) {
    0 < |sel| <= Min(ShownIndicators, |inds|) && DistinctIds(sel) &&
    forall e :: e in sel ==> e.reason != ""
  }

  predicate Inv(s: State) {
    (!s.flags.rejectMode ==> !s.flags.recalcMode && s.flags.selections == []) &&
    (s.flags.selections == [] || SelectionsOk(s.flags.selections, s.item.indicators)) &&
    (s.flags.recalcMode ==> s.flags.selections != []) &&
    (s.item.status != Pending || |s.item.indicators| == 0 ==> s.flags == Cleared)
  }

  /** A freshly loaded item has cleared flags. */
  function Load(item: Item): (s: State)
    ensures Inv(s)
    ensures s.flags == Cleared
    ensures s.item == item
  {
    State(item, Cleared)
  }

  lemma StepPreservesInv(s: State, a: Action)
    requires Inv(s)
    requires Step(s, a).Ok?
    ensures Inv(Step(s, a).value.state)
  {
  }

  /** Presses the buttons in order, stopping at the first one not offered. */
  function Run(s: State, acts: seq<Action>): (r: Result<State>)
    decreases |acts|
  {
    if |acts| == 0 then Ok(s)
    else
      var o :- Step(s, acts[0]);
      Run(o.state, acts[1..])
  }

  /** Every state reachable from a loaded item satisfies the invariant. */
  lemma {:induction false} RunPreservesInv(s: State, acts: seq<Action>)
    requires Inv(s)
    requires Run(s, acts).Ok?
    ensures Inv(Run(s, acts).value)
    decreases |acts|
  {
    if |acts| > 0 {
      StepPreservesInv(s, acts[0]);
      RunPreservesInv(Step(s, acts[0]).value.state, acts[1..]);
    }
  }

  /** In the recalculated view the accepted count lies between 0 and the
      number of indicators, and the new score is accepted / 33. */
  lemma AcceptedCountBounds(s: State)
    requires Inv(s)
    requires s.flags.recalcMode
    ensures 0 <= AcceptedCount(s) < |s.item.indicators|
    ensures Offered(s, ApproveNewDri) && Quotable(ApproveNewNotes(s.flags.selections)) ==>
      Step(s, ApproveNewDri).value.state.item.proposedBand == Some(Severity(AcceptedCount(s)))
  {
    if Offered(s, ApproveNewDri) && Quotable(ApproveNewNotes(s.flags.selections)) {
      var n: nat := AcceptedCount(s);
      assert Step(s, ApproveNewDri).value.state.item.proposedScore == Some(Score(n));
    }
  }

  /** Actions on an approved or rejected item are refused. */
  lemma TerminalIsFinal(s: State, a: Action)
    requires s.item.status != Pending
    ensures Step(s, a).Err?
  {
  }
}

=== FILE: rule_config.dfy ===
/** The rule administration page: per-deficit rule versions ("D001-0003"),
    saving an edit as a new current version, how stored rule fields are
    normalised into the editor's choices, the values the editor shows and
    writes, and the per-client rule-version assignments. */
module RuleConfig {
  import opened Wrappers
  import opened Text
  import ReviewQueue

  // ---------------------------------------------------------------------
  // Version numbers

  const Dash: string := "-"
  const InvalidVersionNumber: string := "invalid literal for int() with base 10"

  /** A numeral `int()` accepts, restricted to plain ASCII digits. */
  predicate IsNumeral(s: string) {
    |s| > 0 && AllDigits(s)
  }

  /** The version offered on "Save as New Version": the text before the
      first dash, a dash, and the number between the first and second dash
      plus one, zero-padded to four digits. A missing or dash-free version
      starts the deficit's series at 0001; a number `int()` rejects is an
      error. */
  function NextRuleVersion(current: Option<string>, deficitId: string): (r: Result<string>)
    ensures (current.None? || current.value == "") ==> r == Ok(deficitId + "-0001")
    ensures current.Some? && !Contains(current.value, Dash) ==> r == Ok(deficitId + "-0001")
    ensures r.Err? <==> current.Some? && Contains(current.value, Dash)
                        && !IsNumeral(SecondPiece(current.value))
    ensures r.Err? ==> r.msg == InvalidVersionNumber
  {
    if current.None? || current.value == "" || !Contains(current.value, Dash) then Ok(deficitId + "-0001")
    else
      var pieces := Split(current.value, Dash);
      assert |pieces| >= 2;
      if !IsNumeral(pieces[1]) then Err(InvalidVersionNumber)
      else Ok(pieces[0] + Dash + Pad4(DigitsValue(pieces[1]) + 1))
  }

  /** `v.split('-')[1]`, for a version that holds a dash. */
  function SecondPiece(v: string): string
    requires Contains(v, Dash)
  {
    var pieces := Split(v, Dash);
    assert |pieces| >= 2;
    pieces[1]
  }

  /** The number a well-formed version carries. */
  function VersionNumber(v: string): Option<nat> {
    if !Contains(v, Dash) then None
    else
      var pieces := Split(v, Dash);
      if |pieces| < 2 || !IsNumeral(pieces[1]) then None else Some(DigitsValue(pieces[1]))
  }

  predicate DashFree(s: string) {
    forall j :: 0 <= j < |s| ==> s[j] != '-'
  }

  lemma DigitsDashFree(s: string)
    requires AllDigits(s)
    ensures DashFree(s)
  {
    forall j | 0 <= j < |s| ensures s[j] != '-' {
      assert IsDigit(s[j]);
    }
  }

  /** "P-NNNN" splits at its one dash into the prefix and the digits; so
      does any text with exactly one dash. */
  lemma SplitVersion(prefix: string, digits: string)
    requires DashFree(prefix) && DashFree(digits)
    ensures Contains(prefix + Dash + digits, Dash)
    ensures Split(prefix + Dash + digits, Dash) == [prefix, digits]
  {
    var parts := [prefix, digits];
    assert Join(parts, Dash) == prefix + Dash + digits by {
      assert parts[1..] == [digits];
    }
    SplitJoin(parts, Dash);
    ContainsSpec(prefix + Dash + digits, Dash);
    assert OccursAt(prefix + Dash + digits, Dash, |prefix|) by {
      assert (prefix + Dash + digits)[|prefix|..|prefix| + 1] == Dash;
    }
  }

  /** The successor of "P-NNNN" is "P-" followed by N+1 padded to four
      digits, and it carries the number N+1. */
  lemma NextOfPadded(prefix: string, n: nat, deficitId: string)
    requires DashFree(prefix)
    ensures NextRuleVersion(Some(prefix + Dash + Pad4(n)), deficitId) == Ok(prefix + Dash + Pad4(n + 1))
    ensures VersionNumber(prefix + Dash + Pad4(n)) == Some(n)
    ensures VersionNumber(prefix + Dash + Pad4(n + 1)) == Some(n + 1)
  {
    DigitsDashFree(Pad4(n));
    DigitsDashFree(Pad4(n + 1));
    SplitVersion(prefix, Pad4(n));
    SplitVersion(prefix, Pad4(n + 1));
    Pad4RoundTrip(n);
    Pad4RoundTrip(n + 1);
  }

  /** Every version the page produces from a well-formed one is well formed
      again, with the next number: the series never stalls or jumps. */
  lemma NextVersionCounts(current: string, deficitId: string)
    requires VersionNumber(current).Some?
    ensures NextRuleVersion(Some(current), deficitId).Ok?
    ensures VersionNumber(NextRuleVersion(Some(current), deficitId).value) == Some(VersionNumber(current).value + 1)
  {
    var pieces := Split(current, Dash);
    SplitPiecesFree(current, Dash);
    var prefix := pieces[0];
    assert DashFree(prefix) by {
      forall j | 0 <= j < |prefix| ensures prefix[j] != '-' {
        assert !OccursAt(prefix, Dash, j);
        assert prefix[j..j + 1] == [prefix[j]];
      }
    }
    NextOfPadded(prefix, DigitsValue(pieces[1]), deficitId);
  }

  /** A version whose piece after the dash `int()` rejects, such as
      "D001-" or "D001-v2", makes the page raise instead of offering a
      successor. */
  lemma MalformedVersionRaises(prefix: string, tail: string, deficitId: string)
    requires DashFree(prefix) && DashFree(tail) && !IsNumeral(tail)
    ensures NextRuleVersion(Some(prefix + Dash + tail), deficitId) == Err(InvalidVersionNumber)
  {
    SplitVersion(prefix, tail);
  }

  /** A deficit's first saved version is NNNN = 0001. */
  lemma FirstVersion(deficitId: string)
    requires DashFree(deficitId)
    ensures NextRuleVersion(None, deficitId) == Ok(deficitId + Dash + Pad4(1))
    ensures VersionNumber(deficitId + Dash + Pad4(1)) == Some(1)
  {
    assert Pad4(1) == "0001" by {
      assert NatToString(1) == "1";
    }
    assert deficitId + Dash + Pad4(1) == deficitId + "-0001";
    NextOfPadded(deficitId, 0, deficitId);
  }

  // ---------------------------------------------------------------------
  // Saving a new version

  /** A row of the rule table (the columns the versioning reads). The
      version column is nullable: None stands for SQL NULL. */
  datatype RuleRow = RuleRow(deficitId: string, version: Option<string>, description: string, isCurrent: bool, rules: string)

  const MissingDescription: string := "Please provide a version description"

  /** The UPDATE's filter `DEFICIT_ID = d AND VERSION_NUMBER != keep` in
      SQL's three-valued logic: a NULL version makes the comparison NULL,
      and a NULL filter does not select the row. */
  predicate DemotedBy(row: RuleRow, deficitId: string, keep: string) {
    row.deficitId == deficitId && row.version.Some? && row.version.value != keep
  }

  /** The UPDATE after the insert: every other version of the deficit stops
      being current, except a row whose version is NULL. */
  function Demote(t: seq<RuleRow>, deficitId: string, keep: string): (r: seq<RuleRow>)
    ensures |r| == |t|
    ensures forall k :: 0 <= k < |t| ==> r[k] == t[k].(isCurrent := r[k].isCurrent)
    ensures forall k :: 0 <= k < |t| ==>
      r[k].isCurrent == (t[k].isCurrent && (t[k].deficitId != deficitId || t[k].version.None? || t[k].version == Some(keep)))
  {
    seq(|t|, k requires 0 <= k < |t| =>
      if DemotedBy(t[k], deficitId, keep) then t[k].(isCurrent := false) else t[k])
  }

  /** "Save as New Version": refused without a description. Otherwise the
      page issues the INSERT of the new current row and then the demoting
      UPDATE. `inserted` is whether the database accepted the INSERT: a
      failed statement is only reported on screen, so the UPDATE runs
      either way and the page announces the new version regardless. */
  function SaveNewVersion(t: seq<RuleRow>, deficitId: string, next: string, description: string, rules: string,
                          inserted: bool)
    : (r: Result<seq<RuleRow>>)
    ensures r.Err? <==> description == ""
    ensures r.Err? ==> r.msg == MissingDescription
    ensures r.Ok? ==> |r.value| == |t| + (if inserted then 1 else 0)
    ensures r.Ok? && inserted ==> r.value[|t|] == RuleRow(deficitId, Some(next), description, true, rules)
    ensures r.Ok? ==> forall k :: 0 <= k < |t| ==> r.value[k] == t[k].(isCurrent := r.value[k].isCurrent)
    ensures r.Ok? ==> forall k :: 0 <= k < |t| && t[k].deficitId != deficitId ==> r.value[k] == t[k]
  {
    if description == "" then Err(MissingDescription)
    else
      var added := if inserted then [RuleRow(deficitId, Some(next), description, true, rules)] else [];
      Ok(Demote(t + added, deficitId, next))
  }

  /** Which of the deficit's rows are current after a save, for every table
      and either outcome of the INSERT: the new row if it was inserted, and
      any old row that was current and whose version is NULL or equal to
      the new number. */
  lemma SaveCurrentRows(t: seq<RuleRow>, deficitId: string, next: string, description: string, rules: string,
                        inserted: bool)
    requires description != ""
    ensures var r := SaveNewVersion(t, deficitId, next, description, rules, inserted).value;
      forall k :: 0 <= k < |r| && r[k].deficitId == deficitId ==>
        (r[k].isCurrent <==>
           ((inserted && k == |t|) || (k < |t| && t[k].isCurrent && (t[k].version.None? || t[k].version == Some(next)))))
  {
  }

  /** After a save whose version number is new for the deficit, and with no
      current row of the deficit whose version is NULL, the deficit has
      exactly one current version if the INSERT went through, and none at
      all if it failed. */
  lemma ExactlyOneCurrent(t: seq<RuleRow>, deficitId: string, next: string, description: string, rules: string,
                          inserted: bool)
    requires description != ""
    requires forall k :: 0 <= k < |t| && t[k].deficitId == deficitId ==> t[k].version != Some(next)
    requires forall k :: 0 <= k < |t| && t[k].deficitId == deficitId && t[k].isCurrent ==> t[k].version.Some?
    ensures var r := SaveNewVersion(t, deficitId, next, description, rules, inserted).value;
      forall k :: 0 <= k < |r| ==> (r[k].deficitId == deficitId && r[k].isCurrent <==> inserted && k == |t|)
  {
  }

  /** A failed INSERT still runs the UPDATE: every current row of the
      deficit with a non-NULL version other than the new number is demoted,
      and no row takes its place. */
  lemma FailedInsertLeavesNoCurrent(t: seq<RuleRow>, deficitId: string, next: string, description: string, rules: string)
    requires description != ""
    ensures var r := SaveNewVersion(t, deficitId, next, description, rules, false).value;
      r == Demote(t, deficitId, next) &&
      forall k :: 0 <= k < |r| && r[k].deficitId == deficitId && r[k].isCurrent ==>
        r[k].version.None? || r[k].version == Some(next)
  {
    assert t + [] == t;
  }

  /** The rules go into `PARSE_JSON('...')` with only quotes doubled, but
      `json.dumps` writes a double quote inside a rule as `\"`, which the
      literal reads back as a bare `"`: the list `["\""]` arrives as
      `["""]`, which is not JSON, so the INSERT fails. The UPDATE then
      demotes the deficit's only current version and none is left. */
  lemma QuoteInRulesAsWritten()
    ensures ReviewQueue.ReadLiteral(ReviewQueue.EscapeSql("[\"\\\"\"]")) == Some("[\"\"\"]")
    ensures var prev := RuleRow("D001", Some("D001-0001"), "old", true, "[]");
      var r := SaveNewVersion([prev], "D001", "D001-0002", "new", "[\"\\\"\"]", false).value;
      |r| == 1 && !r[0].isCurrent
  {
    QuotedRuleReadBack();
  }

  lemma QuotedRuleReadBack()
    ensures ReviewQueue.ReadLiteral(ReviewQueue.EscapeSql("[\"\\\"\"]")) == Some("[\"\"\"]")
  {
    QuotedRuleUnescaped();
    QuotedRuleRead();
  }

  lemma QuotedRuleUnescaped()
    ensures ReviewQueue.EscapeSql("[\"\\\"\"]") == "[\"\\\"\"]"
  {
    ReviewQueue.QuoteFreeUnescaped("[\"\\\"\"]");
  }

  lemma QuotedRuleRead()
    ensures ReviewQueue.ReadLiteral("[\"\\\"\"]") == Some("[\"\"\"]")
  {
    assert "[\"\\\"\"]" == "[\"" + "\\\"" + "\"]";
    ReviewQueue.ReadEscapedQuote("[\"", "\"]");
    assert "[\"" + "\"" + "\"]" == "[\"\"\"]";
  }

  const SaveFailed: string := "Failed to save"

  /** The save as evidently intended: the rules are quoted so that they read
      back unchanged (`ReviewQueue.EscapeLiteral`), and the UPDATE runs
      only once the INSERT has succeeded; otherwise the page reports the
      failure and the table is left as it was. */
  function SaveChecked(t: seq<RuleRow>, deficitId: string, next: string, description: string, rules: string,
                       inserted: bool)
    : (r: Result<seq<RuleRow>>)
    ensures r.Err? <==> description == "" || !inserted
    ensures r.Err? ==> r.msg == (if description == "" then MissingDescription else SaveFailed)
  {
    if description == "" then Err(MissingDescription)
    else if !inserted then Err(SaveFailed)
    else SaveNewVersion(t, deficitId, next, description, rules, true)
  }

  /** With the check in place a deficit is never left without a current
      version: a failed INSERT changes nothing, and a successful one makes
      the new row the only current version (under the conditions of
      ExactlyOneCurrent). The rules text also reaches PARSE_JSON exactly as
      `json.dumps` wrote it. */
  lemma CheckedSaveKeepsOneCurrent(t: seq<RuleRow>, deficitId: string, next: string, description: string,
                                   rules: string, inserted: bool)
    requires description != ""
    requires forall k :: 0 <= k < |t| && t[k].deficitId == deficitId ==> t[k].version != Some(next)
    requires forall k :: 0 <= k < |t| && t[k].deficitId == deficitId && t[k].isCurrent ==> t[k].version.Some?
    ensures ReviewQueue.ReadLiteral(ReviewQueue.EscapeLiteral(rules)) == Some(rules)
    ensures var r := SaveChecked(t, deficitId, next, description, rules, inserted);
      var after := if r.Ok? then r.value else t;
      (!inserted ==> after == t) &&
      (inserted ==> forall k :: 0 <= k < |after| ==> (after[k].deficitId == deficitId && after[k].isCurrent <==> k == |t|))
  {
    ReviewQueue.EscapeLiteralRoundTrip(rules);
    if inserted {
      ExactlyOneCurrent(t, deficitId, next, description, rules, true);
    }
  }

  /** Without the first condition the guarantee fails: an older row that
      already carries the new number keeps its current flag. */
  lemma ReusedNumberStaysCurrent()
    ensures var prev := RuleRow("D001", Some("D001-0002"), "old", true, "[]");
      var r := SaveNewVersion([prev], "D001", "D001-0002", "new", "[]", true).value;
      r[0].isCurrent && r[1].isCurrent
  {
  }

  /** Without the second it fails too: a current row whose VERSION_NUMBER is
      NULL is offered "D001-0001" as its successor, and the UPDATE's
      comparison with NULL leaves it current beside the new row. */
  lemma NullVersionStaysCurrent()
    ensures NextRuleVersion(None, "D001") == Ok("D001-0001")
    ensures var prev := RuleRow("D001", None, "old", true, "[]");
      var r := SaveNewVersion([prev], "D001", "D001-0001", "new", "[]", true).value;
      r[0].isCurrent && r[1].isCurrent
  {
    assert "D001" + "-0001" == "D001-0001";
  }

  // ---------------------------------------------------------------------
  // Normalising stored rule fields into the editor's choices

  const DetectionModes: seq<string> := ["keyword_guidance", "clinical_reasoning", "structured_data", "threshold_aggregation"]
  const SourceTypes: seq<string> := ["ACTIVE_RESIDENT_MEDICAL_PROFILE", "ACTIVE_RESIDENT_NOTES", "ACTIVE_RESIDENT_MEDICATION",
                                     "ACTIVE_RESIDENT_OBSERVATIONS", "ACTIVE_RESIDENT_ASSESSMENT_FORMS", "ACTIVE_RESIDENT_OBSERVATION_GROUP"]
  const FunctionTypes: seq<string> := ["inclusion_filter", "exclusion_filter", "aggregation"]
  const FilterKeys: seq<string> := ["form_name", "element_name", "response", "progress_note_type",
                                    "observation_value", "chart_name", "chart_label", "resident_id", "count"]
  const NotesSource: string := "ACTIVE_RESIDENT_NOTES"

  /** `options[options.index(v)] if v in options else options[0]` with
      `v = field or default`: detection mode and filter key. */
  function DefaultedChoice(options: seq<string>, field: Option<string>, default: string): (r: string)
    requires |options| > 0
    ensures r in options
    ensures field.Some? && field.value in options ==> r == field.value
    ensures field.None? && default in options ==> r == default
    ensures field.GetOr(default) !in options ==> r == options[0]
  {
    var v := field.GetOr(default);
    if v in options then v else options[0]
  }

  /** The same lookup with the membership test on the raw field rather than
      the defaulted one: source type and filter type. A missing field
      selects the first option whatever the default says. */
  function GuardedChoice(options: seq<string>, field: Option<string>, default: string): (r: string)
    requires |options| > 0
    ensures r in options
    ensures field.Some? && field.value in options ==> r == field.value
    ensures field.None? ==> r == options[0]
  {
    if field.Some? && field.value in options then field.GetOr(default) else options[0]
  }

  /** Normalising twice is normalising once: a chosen value is kept. */
  lemma ChoiceIdempotent(options: seq<string>, field: Option<string>, default: string)
    requires |options| > 0
    ensures DefaultedChoice(options, Some(DefaultedChoice(options, field, default)), default)
         == DefaultedChoice(options, field, default)
    ensures GuardedChoice(options, Some(GuardedChoice(options, field, default)), default)
         == GuardedChoice(options, field, default)
  {
  }

  /** The two lookups agree whenever the default is the first option, as for
      detection mode, filter type and filter key. */
  lemma ChoicesAgreeOnFirstDefault(options: seq<string>, field: Option<string>)
    requires |options| > 0
    ensures DefaultedChoice(options, field, options[0]) == GuardedChoice(options, field, options[0])
  {
  }

  /** Source type as written: a rule without one opens on the medical
      profile, not on the notes table its `get` default names. */
  lemma MissingSourceTypeAsWritten()
    ensures GuardedChoice(SourceTypes, None, NotesSource) == "ACTIVE_RESIDENT_MEDICAL_PROFILE"
    ensures GuardedChoice(SourceTypes, None, NotesSource) != NotesSource
  {
  }

  /** Source type with the default honoured: a missing field opens on the
      notes table, and a known value is kept. */
  function SourceTypeChoice(field: Option<string>): (r: string)
    ensures r in SourceTypes
    ensures field.None? ==> r == NotesSource
    ensures field.Some? && field.value in SourceTypes ==> r == field.value
  {
    DefaultedChoice(SourceTypes, field, NotesSource)
  }

  /** Fields shown as one of two options: the first only for the exact
      value, anything else as the second. */
  function TwoWayChoice(first: string, second: string, field: string): (r: string)
    ensures r == first <==> field == first || second == first
    ensures r == first || r == second
  {
    if field == first then first else second
  }

  /** Deficit type: PERSISTENT, anything else FLUCTUATING. */
  function DeficitTypeChoice(deficitType: string): string {
    TwoWayChoice("PERSISTENT", "FLUCTUATING", deficitType)
  }

  /** Rule status (missing means active): active, anything else inactive. */
  function RuleStatusChoice(status: Option<string>): string {
    TwoWayChoice("active", "inactive", status.GetOr("active"))
  }

  lemma TwoWayChoices(status: Option<string>, deficitType: string)
    ensures RuleStatusChoice(status) == "active" <==> status.None? || status.value == "active"
    ensures DeficitTypeChoice(deficitType) == "FLUCTUATING" <==> deficitType != "PERSISTENT"
  {
  }

  // ---------------------------------------------------------------------
  // Values shown and written by the editor

  /** A stored threshold: a JSON number, a JSON string, or absent/null. */
  datatype ThresholdField = Number(n: int) | Text(s: string) | Missing

  /** `int(t) if t and str(t).isdigit() else 1`: zero, negatives and
      non-numerals show as 1. */
  function ShownThreshold(t: ThresholdField): (r: nat)
    ensures t.Number? && t.n > 0 ==> r == t.n
    ensures t.Number? && t.n <= 0 ==> r == 1
    ensures t.Text? && IsNumeral(t.s) ==> r == DigitsValue(t.s)
    ensures t.Missing? || (t.Text? && !IsNumeral(t.s)) ==> r == 1
  {
    match t
    case Number(n) => if n > 0 then n else 1
    case Text(s) => if IsNumeral(s) then DigitsValue(s) else 1
    case Missing => 1
  }

  const RulesEditError: string := "Error parsing rules for editing"

  /** The threshold input with `min_value=1`: a starting value below the
      minimum makes the widget raise, and the editor's surrounding `try`
      shows its error instead of the rule editor. */
  function ThresholdInput(t: ThresholdField): (r: Result<nat>)
    ensures r.Ok? <==> ShownThreshold(t) >= 1
    ensures r.Ok? ==> r.value == ShownThreshold(t)
    ensures r.Err? ==> r.msg == RulesEditError
  {
    var v := ShownThreshold(t);
    if v >= 1 then Ok(v) else Err(RulesEditError)
  }

  /** The threshold input's minimum is 1, which the value passes except for
      a stored numeral of zeros such as "0": the number 0 is falsy, the
      text "0" is not, so the editor fails on it. */
  lemma ShownThresholdMinimum(t: ThresholdField)
    ensures ShownThreshold(t) >= 1 <==> !(t.Text? && IsNumeral(t.s) && DigitsValue(t.s) == 0)
    ensures ThresholdInput(t).Err? <==> t.Text? && IsNumeral(t.s) && DigitsValue(t.s) == 0
    ensures ShownThreshold(Text("0")) == 0 && ThresholdInput(Text("0")) == Err(RulesEditError)
  {
  }

  /** The lookback column written on save: NULL (None) for an empty entry or
      any capitalisation of "none", else the text itself, quoted. */
  function LookbackValue(entry: string): (r: Option<string>)
    ensures r.None? <==> entry == "" || Lower(entry) == "none"
    ensures r.Some? ==> r.value == "'" + entry + "'"
  {
    if entry != "" && Lower(entry) != "none" then Some("'" + entry + "'") else None
  }

  /** The lookback is NULL exactly for the empty entry and for the four
      letters n, o, n, e in any mix of capitals: every other entry, "all"
      included, is kept and quoted. */
  lemma LookbackNullIff(entry: string)
    ensures LookbackValue(entry).None? <==>
      entry == "" || (|entry| == 4 && entry[0] in {'n', 'N'} && entry[1] in {'o', 'O'}
                      && entry[2] in {'n', 'N'} && entry[3] in {'e', 'E'})
    ensures LookbackValue(entry).Some? ==> LookbackValue(entry) == Some("'" + entry + "'")
  {
    var l := Lower(entry);
    if |entry| == 4 {
      assert l == "none" <==> l[0] == 'n' && l[1] == 'o' && l[2] == 'n' && l[3] == 'e';
    }
  }

  const MaxExpiryDays: int := 365

  /** The expiry editor's starting value `int(days or 0)`, accepted only
      within the input's bounds 0..365. */
  function EditedExpiry(days: Option<int>): (r: Result<int>)
    ensures r.Ok? <==> 0 <= days.GetOr(0) <= MaxExpiryDays
    ensures r.Ok? ==> r.value == days.GetOr(0)
  {
    var v := days.GetOr(0);
    if 0 <= v <= MaxExpiryDays then Ok(v) else Err("value outside the input's range")
  }

  const NoneCompared: string := "'>' not supported between instances of 'NoneType' and 'int'"

  /** The read-only view of expiry, `expiry if expiry > 0 else 'Never'`:
      the number when positive, else "Never"; a NULL EXPIRY_DAYS cannot be
      compared with 0 and raises. */
  function ExpiryShown(days: Option<int>): (r: Result<string>)
    ensures r.Err? <==> days.None?
    ensures r.Err? ==> r.msg == NoneCompared
    ensures r.Ok? ==> (r.value == "Never" <==> days.value <= 0)
    ensures r.Ok? && days.value > 0 ==> AllDigits(r.value) && DigitsValue(r.value) == days.value
  {
    match days
    case None => Err(NoneCompared)
    case Some(d) =>
      if d > 0 then
        NatToStringRoundTrip(d);
        Ok(IntToString(d))
      else Ok("Never")
  }

  // ---------------------------------------------------------------------
  // Client rule-version assignments

  datatype Assignment = Assignment(client: string, deficitId: string, version: string)

  predicate KeyIs(a: Assignment, client: string, deficitId: string) {
    a.client == client && a.deficitId == deficitId
  }

  /** The versions assigned to a (client, deficit) pair. */
  function VersionsOf(t: seq<Assignment>, client: string, deficitId: string): set<string> {
    set k | 0 <= k < |t| && KeyIs(t[k], client, deficitId) :: t[k].version
  }

  /** At most one row per (client, deficit). */
  predicate UniqueKeys(t: seq<Assignment>) {
    forall i, j :: 0 <= i < j < |t| ==> !(t[i].client == t[j].client && t[i].deficitId == t[j].deficitId)
  }

  /** The MERGE: update every row with the key, or insert one when there is
      none. */
  function Merge(t: seq<Assignment>, client: string, deficitId: string, version: string): (r: seq<Assignment>)
    ensures |r| == |t| || |r| == |t| + 1
    ensures forall k :: 0 <= k < |t| && !KeyIs(t[k], client, deficitId) ==> r[k] == t[k]
  {
    if exists k :: 0 <= k < |t| && KeyIs(t[k], client, deficitId) then
      seq(|t|, k requires 0 <= k < |t| =>
        if KeyIs(t[k], client, deficitId) then t[k].(version := version) else t[k])
    else t + [Assignment(client, deficitId, version)]
  }

  /** After the merge the pair has exactly the saved version, every other
      pair keeps its versions, and keys stay unique. */
  lemma MergeSpec(t: seq<Assignment>, client: string, deficitId: string, version: string, c: string, d: string)
    ensures VersionsOf(Merge(t, client, deficitId, version), client, deficitId) == {version}
    ensures !(c == client && d == deficitId) ==>
      VersionsOf(Merge(t, client, deficitId, version), c, d) == VersionsOf(t, c, d)
    ensures UniqueKeys(t) ==> UniqueKeys(Merge(t, client, deficitId, version))
  {
    var r := Merge(t, client, deficitId, version);
    if exists k :: 0 <= k < |t| && KeyIs(t[k], client, deficitId) {
      var k0 :| 0 <= k0 < |t| && KeyIs(t[k0], client, deficitId);
      assert r[k0].version == version;
    } else {
      assert r[|t|].version == version;
      if !(c == client && d == deficitId) {
        assert forall k :: 0 <= k < |r| && KeyIs(r[k], c, d) ==> k < |t| && r[k] == t[k];
      }
    }
  }

  /** Saving the same assignment again changes nothing. */
  lemma MergeIdempotent(t: seq<Assignment>, client: string, deficitId: string, version: string)
    ensures Merge(Merge(t, client, deficitId, version), client, deficitId, version)
         == Merge(t, client, deficitId, version)
  {
    var r := Merge(t, client, deficitId, version);
    var r2 := Merge(r, client, deficitId, version);
    if exists k :: 0 <= k < |t| && KeyIs(t[k], client, deficitId) {
      var k0 :| 0 <= k0 < |t| && KeyIs(t[k0], client, deficitId);
      assert |r| == |t|;
      assert KeyIs(r[k0], client, deficitId);
    } else {
      assert |r| == |t| + 1 && r[|t|] == Assignment(client, deficitId, version);
      assert KeyIs(r[|t|], client, deficitId);
    }
    assert |r2| == |r|;
    forall k | 0 <= k < |r| ensures r2[k] == r[k] {
      if KeyIs(r[k], client, deficitId) {
        assert r[k].version == version;
      }
    }
  }

  /** "Save All Client Settings": one merge per deficit on the page. */
  function SaveAssignments(t: seq<Assignment>, client: string, updates: seq<(string, string)>): (r: seq<Assignment>)
    decreases |updates|
  {
    if |updates| == 0 then t
    else SaveAssignments(Merge(t, client, updates[0].0, updates[0].1), client, updates[1..])
  }

  /** With one entry per deficit (the page keys them by deficit), each
      deficit ends with the chosen version, and keys stay unique. */
  lemma {:induction false} SaveAssignmentsSpec(t: seq<Assignment>, client: string, updates: seq<(string, string)>, i: nat)
    requires i < |updates|
    requires forall a, b :: 0 <= a < b < |updates| ==> updates[a].0 != updates[b].0
    ensures VersionsOf(SaveAssignments(t, client, updates), client, updates[i].0) == {updates[i].1}
    ensures UniqueKeys(t) ==> UniqueKeys(SaveAssignments(t, client, updates))
    decreases |updates|
  {
    var t' := Merge(t, client, updates[0].0, updates[0].1);
    var rest := updates[1..];
    assert SaveAssignments(t, client, updates) == SaveAssignments(t', client, rest);
    if UniqueKeys(t) {
      SaveKeepsUnique(t, client, updates);
    }
    if i == 0 {
      SaveHeadSpec(t, client, updates);
    } else {
      MergeSpec(t, client, updates[0].0, updates[0].1, client, updates[i].0);
      assert rest[i - 1] == updates[i];
      forall a, b | 0 <= a < b < |rest| ensures rest[a].0 != rest[b].0 {
        assert rest[a] == updates[a + 1] && rest[b] == updates[b + 1];
      }
      SaveAssignmentsSpec(t', client, rest, i - 1);
    }
  }

  /** The first deficit of the page ends with its version, since no later
      entry names it. */
  lemma SaveHeadSpec(t: seq<Assignment>, client: string, updates: seq<(string, string)>)
    requires |updates| > 0
    requires forall a, b :: 0 <= a < b < |updates| ==> updates[a].0 != updates[b].0
    ensures VersionsOf(SaveAssignments(t, client, updates), client, updates[0].0) == {updates[0].1}
  {
    var t' := Merge(t, client, updates[0].0, updates[0].1);
    var rest := updates[1..];
    assert SaveAssignments(t, client, updates) == SaveAssignments(t', client, rest);
    MergeSpec(t, client, updates[0].0, updates[0].1, client, updates[0].0);
    forall a | 0 <= a < |rest| ensures rest[a].0 != updates[0].0 {
      assert rest[a] == updates[a + 1];
    }
    SaveUntouched(t', client, rest, updates[0].0);
  }

  /** Every merge of the save keeps keys unique. */
  lemma {:induction false} SaveKeepsUnique(t: seq<Assignment>, client: string, updates: seq<(string, string)>)
    requires UniqueKeys(t)
    ensures UniqueKeys(SaveAssignments(t, client, updates))
    decreases |updates|
  {
    if |updates| > 0 {
      var t' := Merge(t, client, updates[0].0, updates[0].1);
      MergeSpec(t, client, updates[0].0, updates[0].1, client, updates[0].0);
      SaveKeepsUnique(t', client, updates[1..]);
    }
  }

  /** A deficit the updates do not name keeps its versions. */
  lemma {:induction false} SaveUntouched(t: seq<Assignment>, client: string, updates: seq<(string, string)>, d: string)
    requires forall a :: 0 <= a < |updates| ==> updates[a].0 != d
    ensures VersionsOf(SaveAssignments(t, client, updates), client, d) == VersionsOf(t, client, d)
    ensures UniqueKeys(t) ==> UniqueKeys(SaveAssignments(t, client, updates))
    decreases |updates|
  {
    if |updates| > 0 {
      var t' := Merge(t, client, updates[0].0, updates[0].1);
      MergeSpec(t, client, updates[0].0, updates[0].1, client, d);
      SaveUntouched(t', client, updates[1..], d);
    }
  }

  /** `dict(zip(deficits, versions))` looked up: the last row for the
      deficit wins. */
  function AssignedVersion(rows: seq<(string, string)>, deficitId: string): (r: Option<string>)
    ensures r.None? <==> forall k :: 0 <= k < |rows| ==> rows[k].0 != deficitId
    ensures r.Some? ==> exists k :: 0 <= k < |rows| && rows[k] == (deficitId, r.value)
                                    && forall j :: k < j < |rows| ==> rows[j].0 != deficitId
  {
    if |rows| == 0 then None
    else if rows[|rows| - 1].0 == deficitId then Some(rows[|rows| - 1].1)
    else
      var r := AssignedVersion(rows[..|rows| - 1], deficitId);
      assert forall k :: 0 <= k < |rows| - 1 ==> rows[..|rows| - 1][k] == rows[k];
      r
  }

  /** The version pre-selected for a deficit: its assignment when that is
      one of the deficit's versions, otherwise the first listed (newest). */
  function SelectedVersion(rows: seq<(string, string)>, deficitId: string, versions: seq<string>): (r: string)
    requires |versions| > 0
    ensures r in versions
    ensures AssignedVersion(rows, deficitId).None? ==> r == versions[0]
    ensures AssignedVersion(rows, deficitId).Some? && AssignedVersion(rows, deficitId).value in versions
            ==> r == AssignedVersion(rows, deficitId).value
  {
    var current := AssignedVersion(rows, deficitId).GetOr(versions[0]);
    if current in versions then current else versions[0]
  }
}

=== FILE: scoring.dfy ===
/** The Deteriorating Resident Index score and its severity bands.

    The score is the number of active deficit indicators divided by the
    catalogue size; the band is looked up with inclusive upper bounds
    0.2 / 0.4 / 0.6. Three pages compute it: the comparison page rounds
    the score to four decimals, the review queue and the analysis module use
    the exact quotient, and the resident history page divides by 32 instead
    of 33. Scores are exact reals here. */
module Scoring {
  import opened Wrappers

  /** Number of deficit indicators in the catalogue. */
  const TotalDeficits: nat := 33

  /** Divisor used by the resident history page. */
  const HistoryDivisor: nat := 32

  datatype Band = Low | Medium | High | VeryHigh

  /** Colour marker shown beside a band on the history and review pages. */
  datatype Emoji = Green | Yellow | Orange | Red

  /** Position of a band in the severity order. */
  function Rank(b: Band): nat {
    match b
    case Low => 0
    case Medium => 1
    case High => 2
    case VeryHigh => 3
  }

  /** Band lookup shared by the comparison, review queue and analysis code. */
  function BandOf(score: real): Band {
    if score <= 0.2 then Low
    else if score <= 0.4 then Medium
    else if score <= 0.6 then High
    else VeryHigh
  }

  /** A higher score never yields a lower band. */
  lemma BandMonotone(s1: real, s2: real)
    requires s1 <= s2
    ensures Rank(BandOf(s1)) <= Rank(BandOf(s2))
  {
  }

  /** The bands partition the real line: every score is in exactly one band,
      and each band is the interval between consecutive thresholds. */
  lemma BandIntervals(score: real)
    ensures BandOf(score) == Low <==> score <= 0.2
    ensures BandOf(score) == Medium <==> 0.2 < score <= 0.4
    ensures BandOf(score) == High <==> 0.4 < score <= 0.6
    ensures BandOf(score) == VeryHigh <==> 0.6 < score
  {
  }

  /** Exact score of `n` active indicators out of 33. */
  function Score(n: nat): (s: real)
    ensures s * 33.0 == n as real
    ensures n <= TotalDeficits ==> 0.0 <= s <= 1.0
    ensures n == 0 ==> s == 0.0
    ensures n == TotalDeficits ==> s == 1.0
  {
    n as real / TotalDeficits as real
  }

  /** The count table that the /33 score and the band thresholds imply. */
  function CountBand33(n: nat): Band {
    if n <= 6 then Low
    else if n <= 13 then Medium
    else if n <= 19 then High
    else VeryHigh
  }

  /** Band of an exact /33 score, characterised by the indicator count:
      Low 0-6, Medium 7-13, High 14-19, Very High 20 and more. */
  function Severity(n: nat): (b: Band)
    ensures b == CountBand33(n)
    ensures b == Low <==> n <= 6
    ensures b == Medium <==> 7 <= n <= 13
    ensures b == High <==> 14 <= n <= 19
    ensures b == VeryHigh <==> n >= 20
  {
    BandOf(Score(n))
  }

  /** `round(n / 33, 4)` scaled by 10^4: the integer nearest n*10000/33.
      The quotient is never exactly halfway between two integers (33 is odd
      and coprime to 10000), so Python's round-half-to-even never applies. */
  function Round4Units(n: nat): (u: nat)
    ensures 2 * (u * 33 - n * 10000) <= 33
    ensures 2 * (n * 10000 - u * 33) < 33
  {
    (2 * n * 10000 + 33) / 66
  }

  /** comparison.calculate_dri_score: the /33 score rounded to four decimals. */
  function RoundedScore(n: nat): (s: real)
    requires n <= TotalDeficits
    ensures 0.0 <= s <= 1.0
    ensures n == 0 ==> s == 0.0
    ensures n == TotalDeficits ==> s == 1.0
    ensures -0.00005 <= s - Score(n) <= 0.00005
  {
    Round4Units(n) as real / 10000.0
  }

  /** Four-decimal rounding never moves a /33 score across a band threshold. */
  lemma RoundingKeepsBand(n: nat)
    requires n <= TotalDeficits
    ensures BandOf(RoundedScore(n)) == Severity(n)
  {
    var u := Round4Units(n);
    if n <= 6 {
      assert u <= 1818;
    } else if n <= 13 {
      assert 2121 <= u <= 3939;
    } else if n <= 19 {
      assert 4242 <= u <= 5758;
    } else {
      assert u >= 6061;
    }
  }

  /** The count ranges printed under "Severity bands" on the comparison page:
      it lists 14-20 as High and 21-33 as Very High. */
  function DocumentedCountBand(n: nat): Band {
    if n <= 6 then Low
    else if n <= 13 then Medium
    else if n <= 20 then High
    else VeryHigh
  }

  /** The printed table disagrees with the computed band at 20 indicators:
      20/33 exceeds 0.6, so the code reports Very High. */
  lemma DocumentedTableWrongAt20()
    ensures DocumentedCountBand(20) == High
    ensures Severity(20) == VeryHigh
    ensures RoundedScore(20) > 0.6
  {
  }

  /** Emoji paired with each band on the history page. */
  function EmojiOf(b: Band): Emoji {
    match b
    case Low => Green
    case Medium => Yellow
    case High => Orange
    case VeryHigh => Red
  }

  /** Each band has its own emoji. */
  lemma EmojiInjective(b1: Band, b2: Band)
    ensures EmojiOf(b1) == EmojiOf(b2) ==> b1 == b2
  {
  }

  /** resident_history.calculate_severity_band: band and emoji together. */
  function HistorySeverityBand(score: real): (r: (Band, Emoji))
    ensures r.1 == EmojiOf(r.0)
    ensures r.0 == Low <==> score <= 0.2
    ensures r.0 == Medium <==> 0.2 < score <= 0.4
    ensures r.0 == High <==> 0.4 < score <= 0.6
    ensures r.0 == VeryHigh <==> 0.6 < score
  {
    var b := BandOf(score);
    (b, EmojiOf(b))
  }

  /** The history page's score: active count over 32, not 33. */
  function HistoryScore(active: nat): (s: real)
    ensures s * 32.0 == active as real
    ensures active == 0 ==> s == 0.0
  {
    active as real / HistoryDivisor as real
  }

  /** Band on the history page by count: Low 0-6, Medium 7-12, High 13-19,
      Very High 20 and more. Counts 13 differ from the /33 pages. */
  function HistoryBand(active: nat): (b: Band)
    ensures b == Low <==> active <= 6
    ensures b == Medium <==> 7 <= active <= 12
    ensures b == High <==> 13 <= active <= 19
    ensures b == VeryHigh <==> active >= 20
  {
    HistorySeverityBand(HistoryScore(active)).0
  }

  /** The /32 and /33 pages disagree exactly at 13 active indicators. */
  lemma HistoryAndQueueDisagreeOnlyAt13(n: nat)
    ensures HistoryBand(n) != Severity(n) <==> n == 13
  {
  }

  /** dri_analysis.calculate_dri_score: (score, band, count) from the active
      count row, or (0.0, Low, 0) when the query returns no row. The fallback
      agrees with the formula at count zero. */
  function AnalysisDriScore(activeRow: Option<nat>): (r: (real, Band, nat))
    ensures r.0 * 33.0 == r.2 as real
    ensures r.1 == BandOf(r.0)
    ensures activeRow.Some? ==> r.2 == activeRow.value
    ensures activeRow.None? ==> r == (0.0, Low, 0)
  {
    match activeRow
    case Some(n) =>
      var s := n as real / 33.0;
      (s, BandOf(s), n)
    case None => (0.0, Low, 0)
  }
}

=== FILE: substring_detector.dfy ===
/** The stand-alone keyword verifier: an indicator is detected when one of
    its keywords occurs in the lower-cased text, and each detection keeps
    the keywords that matched and a window of text around the first. */
module SubstringDetector {
  import opened Wrappers
  import opened Text

  /** One entry of an ordered indicator table: an id and its keywords. */
  datatype Indicator = Indicator(id: string, keywords: seq<string>)

  /** One detected indicator. */
  datatype Detection = Detection(id: string, name: string, matched: seq<string>, sample: string)

  const Window: nat := 50
  const KeyErrorText: string := "KeyError"

  /** The keywords that occur in the lower-cased text, in list order. */
  function Matched(keywords: seq<string>, lowered: string): (r: seq<string>)
    ensures |r| <= |keywords|
    ensures forall k :: k in r <==> k in keywords && Occurs(lowered, k)
  {
    if keywords == [] then []
    else
      var k := keywords[|keywords| - 1];
      ContainsSpec(lowered, k);
      Matched(keywords[..|keywords| - 1], lowered) + (if Contains(lowered, k) then [k] else [])
  }

  /** Matching a list in two parts: the first part's matches come first. */
  lemma {:induction false} MatchedAppend(a: seq<string>, b: seq<string>, lowered: string)
    ensures Matched(a + b, lowered) == Matched(a, lowered) + Matched(b, lowered)
    decreases |b|
  {
    if b == [] {
      assert a + b == a;
    } else {
      var b' := b[..|b| - 1];
      assert (a + b)[..|a + b| - 1] == a + b';
      assert (a + b)[|a + b| - 1] == b[|b| - 1];
      MatchedAppend(a, b', lowered);
    }
  }

  /** When no keyword occurs, nothing matches. */
  lemma {:induction false} NoneMatched(keywords: seq<string>, lowered: string)
    requires forall j :: 0 <= j < |keywords| ==> !Occurs(lowered, keywords[j])
    ensures Matched(keywords, lowered) == []
  {
    if keywords != [] {
      NoneMatched(keywords[..|keywords| - 1], lowered);
      ContainsSpec(lowered, keywords[|keywords| - 1]);
    }
  }

  /** The first matched keyword is the first keyword in list order that
      occurs. */
  lemma MatchedFirst(keywords: seq<string>, lowered: string, i: nat)
    requires i < |keywords| && Occurs(lowered, keywords[i])
    requires forall j :: 0 <= j < i ==> !Occurs(lowered, keywords[j])
    ensures Matched(keywords, lowered) != [] && Matched(keywords, lowered)[0] == keywords[i]
  {
    assert keywords == keywords[..i] + [keywords[i]] + keywords[i + 1..];
    MatchedAppend(keywords[..i] + [keywords[i]], keywords[i + 1..], lowered);
    MatchedAppend(keywords[..i], [keywords[i]], lowered);
    NoneMatched(keywords[..i], lowered);
    assert [keywords[i]][..0] == [];
  }

  /** The window of `text` around a keyword found at `idx`: up to 50
      characters on each side, clipped to the text. */
  function Sample(text: string, idx: nat, n: nat): (r: string)
    ensures |r| <= n + 2 * Window
  {
    var start := if idx >= Window then idx - Window else 0;
    var end := if idx + n + Window <= |text| then idx + n + Window else |text|;
    if start <= end then text[start..end] else ""
  }

  /** The window really lies in the text and shows the keyword. */
  lemma SampleShowsKeyword(text: string, idx: nat, kw: string)
    requires OccursAt(Lower(text), kw, idx)
    ensures var start := if idx >= Window then idx - Window else 0;
      var r := Sample(text, idx, |kw|);
      OccursAt(text, r, start) && OccursAt(Lower(r), kw, idx - start)
  {
    var start := if idx >= Window then idx - Window else 0;
    var end := if idx + |kw| + Window <= |text| then idx + |kw| + Window else |text|;
    var r := Sample(text, idx, |kw|);
    assert start <= idx && idx + |kw| <= end <= |text|;
    assert r == text[start..end];
    LowerSlice(text, start, end);
    OccursWithinSlice(Lower(text), kw, start, end, idx);
  }

  /** An indicator fires when some keyword matched. */
  predicate Fires(ind: Indicator, lowered: string) {
    Matched(ind.keywords, lowered) != []
  }

  lemma FiresIff(ind: Indicator, lowered: string)
    ensures Fires(ind, lowered) <==> exists k :: k in ind.keywords && Occurs(lowered, k)
  {
    var m := Matched(ind.keywords, lowered);
    if m != [] {
      assert m[0] in m;
    }
  }

  /** What the script records for a firing indicator. */
  function DetectionOf(ind: Indicator, name: string, text: string): Detection
    requires Fires(ind, Lower(text))
  {
    var m := Matched(ind.keywords, Lower(text));
    assert m[0] in m;
    FindSpec(Lower(text), m[0]);
    Detection(ind.id, name, m, Sample(text, Find(Lower(text), m[0]), |m[0]|))
  }

  /** `run_regex_detection`: every firing indicator in table order; looking
      up a missing name raises. */
  function Detect(table: seq<Indicator>, names: map<string, string>, text: string): (r: Result<seq<Detection>>)
    ensures r.Ok? ==> |r.value| <= |table|
  {
    if table == [] then Ok([])
    else
      var ind := table[|table| - 1];
      var init := Detect(table[..|table| - 1], names, text);
      if init.Err? then init
      else if !Fires(ind, Lower(text)) then init
      else if ind.id !in names then Err(KeyErrorText)
      else Ok(init.value + [DetectionOf(ind, names[ind.id], text)])
  }

  /** A detection describes a table entry: same id, its name, its matched
      keywords and the window around the first of them. */
  predicate Describes(d: Detection, ind: Indicator, names: map<string, string>, text: string) {
    Fires(ind, Lower(text)) && ind.id in names && d == DetectionOf(ind, names[ind.id], text)
  }

  /** Detection fails exactly when a firing indicator has no name. */
  lemma {:induction false} DetectErr(table: seq<Indicator>, names: map<string, string>, text: string)
    ensures Detect(table, names, text).Err? <==>
      exists k :: 0 <= k < |table| && Fires(table[k], Lower(text)) && table[k].id !in names
    decreases |table|
  {
    if table != [] {
      var n := |table| - 1;
      var init := table[..n];
      DetectErr(init, names, text);
      assert forall k :: 0 <= k < n ==> table[k] == init[k];
    }
  }

  /** Every detection describes an entry of the table. */
  lemma {:induction false} DetectSound(table: seq<Indicator>, names: map<string, string>, text: string)
    requires Detect(table, names, text).Ok?
    ensures var ds := Detect(table, names, text).value;
      forall i :: 0 <= i < |ds| ==> exists k :: 0 <= k < |table| && Describes(ds[i], table[k], names, text)
    decreases |table|
  {
    if table != [] {
      var n := |table| - 1;
      var init := table[..n];
      DetectSound(init, names, text);
      var ds := Detect(table, names, text).value;
      var di := Detect(init, names, text).value;
      forall i | 0 <= i < |ds|
        ensures exists k :: 0 <= k < |table| && Describes(ds[i], table[k], names, text)
      {
        if i < |di| {
          assert ds[i] == di[i];
          var k :| 0 <= k < n && Describes(di[i], init[k], names, text);
          assert table[k] == init[k];
        } else {
          assert Describes(ds[i], table[n], names, text);
        }
      }
    }
  }

  /** Every firing entry of the table is detected. */
  lemma {:induction false} DetectComplete(table: seq<Indicator>, names: map<string, string>, text: string)
    requires Detect(table, names, text).Ok?
    ensures var ds := Detect(table, names, text).value;
      forall k :: 0 <= k < |table| && Fires(table[k], Lower(text)) ==>
        exists i :: 0 <= i < |ds| && ds[i].id == table[k].id
    decreases |table|
  {
    if table != [] {
      var n := |table| - 1;
      var init := table[..n];
      DetectComplete(init, names, text);
      var ds := Detect(table, names, text).value;
      var di := Detect(init, names, text).value;
      forall k | 0 <= k < |table| && Fires(table[k], Lower(text))
        ensures exists i :: 0 <= i < |ds| && ds[i].id == table[k].id
      {
        if k < n {
          assert table[k] == init[k];
          var i :| 0 <= i < |di| && di[i].id == init[k].id;
          assert ds[i] == di[i];
        } else {
          assert ds[|di|].id == table[n].id;
        }
      }
    }
  }

  function IdsOf(ds: seq<Detection>): set<string> {
    set d | d in ds :: d.id
  }

  function TableIds(table: seq<Indicator>): set<string> {
    set ind | ind in table :: ind.id
  }

  /** The indicators of the table that were not detected. */
  function NotDetected(table: seq<Indicator>, ds: seq<Detection>): (r: set<string>)
    ensures r <= TableIds(table)
  {
    TableIds(table) - IdsOf(ds)
  }

  /** Detected and not detected split the table's ids between them. */
  lemma Partition(table: seq<Indicator>, names: map<string, string>, text: string)
    requires Detect(table, names, text).Ok?
    ensures var ds := Detect(table, names, text).value;
      IdsOf(ds) <= TableIds(table)
      && IdsOf(ds) + NotDetected(table, ds) == TableIds(table)
      && IdsOf(ds) * NotDetected(table, ds) == {}
  {
    var ds := Detect(table, names, text).value;
    DetectSound(table, names, text);
    forall id | id in IdsOf(ds) ensures id in TableIds(table) {
      var d :| d in ds && d.id == id;
      var i :| 0 <= i < |ds| && ds[i] == d;
      var k :| 0 <= k < |table| && Describes(ds[i], table[k], names, text);
      assert table[k] in table;
    }
  }

  /** Detection only grows with the text: whatever is detected in a piece
      of a text is detected in the whole text. */
  lemma Monotone(table: seq<Indicator>, names: map<string, string>, t: string, whole: string, at: nat)
    requires OccursAt(whole, t, at)
    ensures forall k :: 0 <= k < |table| && Fires(table[k], Lower(t)) ==> Fires(table[k], Lower(whole))
    ensures Detect(table, names, whole).Ok? ==> Detect(table, names, t).Ok?
    ensures Detect(table, names, whole).Ok? ==>
      IdsOf(Detect(table, names, t).value) <= IdsOf(Detect(table, names, whole).value)
  {
    LowerSlice(whole, at, at + |t|);
    assert Lower(t) == Lower(whole)[at..at + |t|];
    forall k | 0 <= k < |table| && Fires(table[k], Lower(t)) ensures Fires(table[k], Lower(whole)) {
      FiresIff(table[k], Lower(t));
      var kw :| kw in table[k].keywords && Occurs(Lower(t), kw);
      var i :| OccursAt(Lower(t), kw, i);
      OccursInSlice(Lower(whole), kw, at, at + |t|, i);
      FiresIff(table[k], Lower(whole));
    }
    DetectErr(table, names, t);
    DetectErr(table, names, whole);
    if Detect(table, names, whole).Ok? {
      DetectSound(table, names, t);
      DetectComplete(table, names, whole);
      var ds := Detect(table, names, t).value;
      var dw := Detect(table, names, whole).value;
      forall id | id in IdsOf(ds) ensures id in IdsOf(dw) {
        var d :| d in ds && d.id == id;
        var i :| 0 <= i < |ds| && ds[i] == d;
        var k :| 0 <= k < |table| && Describes(ds[i], table[k], names, t);
        var j :| 0 <= j < |dw| && dw[j].id == table[k].id;
        assert dw[j] in dw;
      }
    }
  }

  // ---------------------------------------------------------------------
  // The script's tables

  const KeywordTable: seq<Indicator> := [
    Indicator("CARD_01", ["heart failure", "chf", "congestive cardiac failure", "ejection fraction", "cardiac insufficiency"]),
    Indicator("CARD_02", ["atrial fibrillation", "afib", "af ", "anticoagulant", "warfarin", "eliquis", "xarelto", "noac"]),
    Indicator("CARD_03", ["hypertension", "high blood pressure", "antihypertensive", "uncontrolled bp"]),
    Indicator("CONT_01", ["urinary incontinence", "continence aid", "bladder", "incontinence pad", "urine leak"]),
    Indicator("CONT_02", ["fecal incontinence", "bowel incontinence", "bowel accident", "faecal"]),
    Indicator("CONT_03", ["uti", "urinary tract infection", "urine culture", "recurrent uti"]),
    Indicator("DM_01", ["type 1 diabetes", "insulin dependent", "t1dm", "iddm"]),
    Indicator("DM_02", ["type 2 diabetes", "diabetes", "bgl", "blood glucose", "metformin", "hypoglycemic", "hba1c", "novorapid", "insulin"]),
    Indicator("DM_03", ["diabetic retinopathy", "diabetic neuropathy", "diabetic nephropathy", "diabetic foot", "diabetic ulcer"]),
    Indicator("FALL_01", ["fall risk", "fall ", "falls", "fell", "uwf", "unwitnessed fall", "mobility aid", "4wf", "walker"]),
    Indicator("FALL_02", ["fracture", "broken bone", "x-ray", "surgical repair"]),
    Indicator("FUNC_01", ["functional decline", "adl decline", "increased assistance", "declining independence"]),
    Indicator("INF_01", ["infection", "antibiotic", "cellulitis", "sepsis", "infected", "abs for"]),
    Indicator("MED_01", ["polypharmacy", "9 medications", "medication review", "multiple medications"]),
    Indicator("MED_02", ["warfarin", "opioid", "insulin", "novorapid", "fentanyl", "morphine", "oxycodone", "anticoagulant"]),
    Indicator("MH_01", ["depression", "depressed", "antidepressant", "ssri", "low mood"]),
    Indicator("MH_02", ["anxiety", "anxious", "anxiolytic", "benzodiazepine"]),
    Indicator("MH_03", ["behaviour", "behavior", "bpsd", "agitation", "aggression", "antipsychotic"]),
    Indicator("NEURO_01", ["dementia", "alzheimer", "cognitive decline", "memory loss", "donepezil", "aricept"]),
    Indicator("NEURO_02", ["stroke", "cva", "cerebrovascular", "tia", "transient ischemic"]),
    Indicator("NEURO_03", ["parkinson", "dopaminergic", "tremor", "bradykinesia"]),
    Indicator("NEURO_04", ["seizure", "epilepsy", "anticonvulsant", "convulsion"]),
    Indicator("NUTR_01", ["malnutrition", "underweight", "nutritional risk", "low albumin", "poor intake", "weight loss"]),
    Indicator("NUTR_02", ["weight loss", "losing weight", "unintentional weight"]),
    Indicator("NUTR_03", ["dysphagia", "swallowing difficulty", "modified diet", "thickened fluid", "speech pathology"]),
    Indicator("PAIN_01", ["chronic pain", "pain management", "analgesia", "pain >3 months", "ongoing pain"]),
    Indicator("PAIN_02", ["pain score", "pain assessment", "breakthrough pain", "severe pain"]),
    Indicator("RESP_01", ["copd", "emphysema", "chronic bronchitis", "spiriva", "tiotropium", "oxygen therapy"]),
    Indicator("RESP_02", ["asthma", "bronchodilator", "inhaler", "puffer", "ventolin", "salbutamol"]),
    Indicator("RESP_03", ["pneumonia", "bronchitis", "respiratory infection", "chest infection"]),
    Indicator("SKIN_01", ["pressure injury", "pressure ulcer", "bedsore", "decubitus", "pressure wound"]),
    Indicator("SKIN_02", ["skin tear", "wound", "dressing", "fragile skin", "laceration", "abrasion"]),
    Indicator("SKIN_03", ["chronic wound", "non-healing", "wound care specialist", "negative pressure"])
  ]

  const IndicatorNames: map<string, string> := map[
    "CARD_01" := "Heart Failure",
    "CARD_02" := "Atrial Fibrillation",
    "CARD_03" := "Hypertension",
    "CONT_01" := "Urinary Incontinence",
    "CONT_02" := "Fecal Incontinence",
    "CONT_03" := "UTI Recurrent",
    "DM_01" := "Diabetes Type 1",
    "DM_02" := "Diabetes Type 2",
    "DM_03" := "Diabetic Complications",
    "FALL_01" := "Fall Risk - High",
    "FALL_02" := "Fracture History",
    "FUNC_01" := "Functional Decline",
    "INF_01" := "Infection Current",
    "MED_01" := "Polypharmacy",
    "MED_02" := "High-Risk Medications",
    "MH_01" := "Depression",
    "MH_02" := "Anxiety",
    "MH_03" := "Behavioral Symptoms",
    "NEURO_01" := "Dementia",
    "NEURO_02" := "Stroke/CVA",
    "NEURO_03" := "Parkinsons Disease",
    "NEURO_04" := "Epilepsy/Seizures",
    "NUTR_01" := "Malnutrition Risk",
    "NUTR_02" := "Weight Loss >5%",
    "NUTR_03" := "Dysphagia",
    "PAIN_01" := "Chronic Pain",
    "PAIN_02" := "Pain Assessment High",
    "RESP_01" := "COPD/Emphysema",
    "RESP_02" := "Asthma",
    "RESP_03" := "Respiratory Infection",
    "SKIN_01" := "Pressure Injury",
    "SKIN_02" := "Skin Tear",
    "SKIN_03" := "Chronic Wound"
  ]

  /** Every indicator of the keyword table has a name, so the script never
      raises, and it reports at most 33 indicators. */
  lemma ScriptNeverRaises(text: string)
    ensures Detect(KeywordTable, IndicatorNames, text).Ok?
    ensures |Detect(KeywordTable, IndicatorNames, text).value| <= 33
  {
    assert forall k :: 0 <= k < |KeywordTable| ==> KeywordTable[k].id in IndicatorNames;
    DetectErr(KeywordTable, IndicatorNames, text);
  }
}

=== FILE: text.dfy ===
/** Python string operations the pages rely on (`lower`, `strip`, `find`,
    `in`, `split`, `join`, `replace`, `str(int)`, `:04d` padding), stated over
    ASCII text: character classes follow Python's ASCII behaviour. */
module Text {

  /** Python `str.isspace` (and the regex class `\s`) on ASCII: space, the
      controls 0x09-0x0D and the separators 0x1C-0x1F. */
  predicate IsSpace(c: char) {
    c == ' ' || (9 <= c as int <= 13) || (28 <= c as int <= 31)
  }

  predicate IsDigit(c: char) {
    '0' <= c <= '9'
  }

  /** The regex class `\w` on ASCII. */
  predicate IsWordChar(c: char) {
    ('a' <= c <= 'z') || ('A' <= c <= 'Z') || IsDigit(c) || c == '_'
  }

  function LowerChar(c: char): char {
    if 'A' <= c <= 'Z' then (c as int + 32) as char else c
  }

  /** Python `str.lower` on ASCII text. */
  function Lower(s: string): (r: string)
    ensures |r| == |s|
    ensures forall i :: 0 <= i < |s| ==> r[i] == LowerChar(s[i])
  {
    seq(|s|, i requires 0 <= i < |s| => LowerChar(s[i]))
  }

  lemma LowerConcat(a: string, b: string)
    ensures Lower(a + b) == Lower(a) + Lower(b)
  {
    assert forall i :: 0 <= i < |a + b| ==> Lower(a + b)[i] == (Lower(a) + Lower(b))[i];
  }

  /** Lower-casing commutes with slicing. */
  lemma LowerSlice(s: string, i: int, j: int)
    requires 0 <= i <= j <= |s|
    ensures Lower(s[i..j]) == Lower(s)[i..j]
  {
  }

  // ---------------------------------------------------------------------
  // Prefixes, suffixes, occurrences

  predicate StartsWith(s: string, p: string) {
    |p| <= |s| && s[..|p|] == p
  }

  predicate EndsWith(s: string, p: string) {
    |p| <= |s| && s[|s| - |p|..] == p
  }

  /** `p` occurs in `s` at index `i`. */
  predicate OccursAt(s: string, p: string, i: int) {
    0 <= i && i + |p| <= |s| && s[i..i + |p|] == p
  }

  /** One differing character rules out an occurrence. */
  lemma Mismatch(t: string, w: string, j: nat, c: nat)
    requires c < |w| && j + c < |t| && t[j + c] != w[c]
    ensures !OccursAt(t, w, j)
  {
    if j + |w| <= |t| {
      assert t[j..j + |w|][c] == t[j + c];
    }
  }

  /** `p` occurs somewhere in `s` (Python `p in s`). */
  ghost predicate Occurs(s: string, p: string) {
    exists i :: OccursAt(s, p, i)
  }

  /** Python `s.find(p, i)`: the least index at or after `i` where `p`
      occurs, or -1. */
  function FindFrom(s: string, p: string, i: nat): (r: int)
    ensures r == -1 || (i <= r && r + |p| <= |s|)
    decreases |s| + 1 - i
  {
    if i + |p| > |s| then -1
    else if s[i..i + |p|] == p then i
    else FindFrom(s, p, i + 1)
  }

  /** FindFrom returns the leftmost occurrence at or after `i`, and -1
      exactly when there is none. */
  lemma {:induction false} FindFromSpec(s: string, p: string, i: nat)
    ensures FindFrom(s, p, i) == -1 || (i <= FindFrom(s, p, i) && OccursAt(s, p, FindFrom(s, p, i)))
    ensures FindFrom(s, p, i) == -1 ==> forall j :: i <= j ==> !OccursAt(s, p, j)
    ensures FindFrom(s, p, i) >= 0 ==> forall j :: i <= j < FindFrom(s, p, i) ==> !OccursAt(s, p, j)
    decreases |s| + 1 - i
  {
    if i + |p| <= |s| && s[i..i + |p|] != p {
      FindFromSpec(s, p, i + 1);
    }
  }

  /** Python `s.find(p)`. */
  function Find(s: string, p: string): (r: int)
    ensures r == -1 || (0 <= r && r + |p| <= |s|)
  {
    FindFrom(s, p, 0)
  }

  /** Find returns the leftmost occurrence, and -1 exactly when there is none. */
  lemma FindSpec(s: string, p: string)
    ensures Find(s, p) == -1 || OccursAt(s, p, Find(s, p))
    ensures Find(s, p) == -1 <==> !Occurs(s, p)
    ensures Find(s, p) >= 0 ==> forall j :: 0 <= j < Find(s, p) ==> !OccursAt(s, p, j)
  {
    FindFromSpec(s, p, 0);
  }

  /** Python `p in s`. */
  predicate Contains(s: string, p: string) {
    Find(s, p) >= 0
  }

  lemma ContainsSpec(s: string, p: string)
    ensures Contains(s, p) <==> Occurs(s, p)
  {
    FindSpec(s, p);
  }

  /** An occurrence inside a slice is an occurrence in the whole string. */
  lemma OccursInSlice(s: string, p: string, a: int, b: int, i: int)
    requires 0 <= a <= b <= |s|
    requires OccursAt(s[a..b], p, i)
    ensures OccursAt(s, p, a + i)
  {
    forall k | 0 <= k < |p|
      ensures s[a + i + k] == p[k]
    {
      assert s[a..b][i..i + |p|][k] == p[k];
    }
    assert s[a + i..a + i + |p|] == p;
  }

  /** An occurrence that lies inside a slice is an occurrence in the slice. */
  lemma OccursWithinSlice(s: string, p: string, a: int, b: int, i: int)
    requires 0 <= a <= i && i + |p| <= b <= |s|
    requires OccursAt(s, p, i)
    ensures OccursAt(s[a..b], p, i - a)
  {
    forall k | 0 <= k < |p|
      ensures s[a..b][i - a + k] == p[k]
    {
      assert s[i..i + |p|][k] == p[k];
    }
  }

  /** Python `s.rfind(c)` for one character. */
  function RFindChar(s: string, c: char): (r: int)
    ensures -1 <= r < |s|
    ensures r >= 0 ==> s[r] == c
    ensures forall j :: r < j < |s| ==> s[j] != c
  {
    if |s| == 0 then -1
    else if s[|s| - 1] == c then |s| - 1
    else RFindChar(s[..|s| - 1], c)
  }

  /** Python `s.count(c)` for one character. */
  function CountChar(s: string, c: char): nat {
    multiset(s)[c]
  }

  /** Python `s[:n]`. */
  function Take<T>(s: seq<T>, n: nat): (r: seq<T>)
    ensures |r| <= n && |r| <= |s|
    ensures |r| == if n <= |s| then n else |s|
    ensures r == s[..|r|]
  {
    if n <= |s| then s[..n] else s
  }

  // ---------------------------------------------------------------------
  // Whitespace trimming

  /** Python `s.lstrip()`. */
  function LStrip(s: string): string {
    if |s| > 0 && IsSpace(s[0]) then LStrip(s[1..]) else s
  }

  /** What lstrip leaves is a suffix that does not start with whitespace,
      and only whitespace was dropped. */
  lemma {:induction false} LStripSpec(s: string)
    ensures |LStrip(s)| <= |s| && LStrip(s) == s[|s| - |LStrip(s)|..]
    ensures |LStrip(s)| > 0 ==> !IsSpace(LStrip(s)[0])
    ensures forall i :: 0 <= i < |s| - |LStrip(s)| ==> IsSpace(s[i])
  {
    if |s| > 0 && IsSpace(s[0]) {
      LStripSpec(s[1..]);
    }
  }

  /** Python `s.rstrip()`. */
  function RStrip(s: string): string {
    if |s| > 0 && IsSpace(s[|s| - 1]) then RStrip(s[..|s| - 1]) else s
  }

  /** What rstrip leaves is a prefix that does not end with whitespace, and
      only whitespace was dropped. */
  lemma {:induction false} RStripSpec(s: string)
    ensures |RStrip(s)| <= |s| && RStrip(s) == s[..|RStrip(s)|]
    ensures |RStrip(s)| > 0 ==> !IsSpace(RStrip(s)[|RStrip(s)| - 1])
    ensures forall i :: |RStrip(s)| <= i < |s| ==> IsSpace(s[i])
  {
    if |s| > 0 && IsSpace(s[|s| - 1]) {
      RStripSpec(s[..|s| - 1]);
    }
  }

  /** Python `s.strip()`: the slice left after dropping leading and trailing
      whitespace. */
  function Strip(s: string): string {
    RStrip(LStrip(s))
  }

  /** The strip is the slice of `s` starting after the leading whitespace;
      it neither starts nor ends with whitespace, and text without any
      whitespace is left alone. */
  lemma StripSpec(s: string)
    ensures OccursAt(s, Strip(s), |s| - |LStrip(s)|)
    ensures |Strip(s)| > 0 ==> !IsSpace(Strip(s)[0]) && !IsSpace(Strip(s)[|Strip(s)| - 1])
    ensures (forall i :: 0 <= i < |s| ==> !IsSpace(s[i])) ==> Strip(s) == s
  {
    var l := LStrip(s);
    var r := RStrip(l);
    LStripSpec(s);
    RStripSpec(l);
    assert r == s[|s| - |l|..|s| - |l| + |r|];
  }

  /** Text that neither starts nor ends with whitespace is its own strip. */
  lemma StripNoEdgeSpace(s: string)
    requires |s| > 0 && !IsSpace(s[0]) && !IsSpace(s[|s| - 1])
    ensures Strip(s) == s
  {
  }

  // ---------------------------------------------------------------------
  // split, join, replace

  /** Python `sep.join(parts)`. */
  function Join(parts: seq<string>, sep: string): string {
    if |parts| == 0 then ""
    else if |parts| == 1 then parts[0]
    else parts[0] + sep + Join(parts[1..], sep)
  }

  /** Where part `k` starts in `Join(parts, sep)`. */
  function JoinOffset(parts: seq<string>, sep: string, k: nat): nat
    requires k < |parts|
  {
    if k == 0 then 0 else |parts[0]| + |sep| + JoinOffset(parts[1..], sep, k - 1)
  }

  /** Every part appears in the joined text, at its offset. */
  lemma {:induction false} JoinHasPart(parts: seq<string>, sep: string, k: nat)
    requires k < |parts|
    ensures OccursAt(Join(parts, sep), parts[k], JoinOffset(parts, sep, k))
  {
    if k > 0 {
      JoinHasPart(parts[1..], sep, k - 1);
      var rest := Join(parts[1..], sep);
      var j := JoinOffset(parts[1..], sep, k - 1);
      var h := parts[0] + sep;
      assert Join(parts, sep) == h + rest;
      assert (h + rest)[|h| + j..|h| + j + |parts[k]|] == rest[j..j + |parts[k]|];
    } else if |parts| > 1 {
      assert Join(parts, sep) == parts[0] + (sep + Join(parts[1..], sep));
    }
  }

  /** A join is empty exactly when there are no parts, provided the first
      part is not empty. */
  lemma JoinEmpty(parts: seq<string>, sep: string)
    requires |parts| > 0 ==> |parts[0]| > 0
    ensures Join(parts, sep) == "" <==> |parts| == 0
  {
    if |parts| > 0 {
      JoinHasPart(parts, sep, 0);
    }
  }

  /** Python `s.split(sep)` for a non-empty separator: the pieces between
      non-overlapping occurrences found left to right. */
  function Split(s: string, sep: string): (r: seq<string>)
    requires |sep| > 0
    ensures |r| >= 1
    decreases |s|
  {
    var i := Find(s, sep);
    if i < 0 then [s] else [s[..i]] + Split(s[i + |sep|..], sep)
  }

  /** Splitting at the first occurrence of the separator. */
  lemma SplitFirst(s: string, sep: string, at: nat)
    requires |sep| > 0 && OccursAt(s, sep, at)
    requires forall j :: 0 <= j < at ==> !OccursAt(s, sep, j)
    ensures |Split(s, sep)| >= 2
    ensures Split(s, sep)[0] == s[..at]
    ensures Split(s, sep)[1] == Split(s[at + |sep|..], sep)[0]
  {
    FindSpec(s, sep);
    assert Occurs(s, sep);
  }

  /** Text without the separator is one piece. */
  lemma SplitNone(s: string, sep: string)
    requires |sep| > 0 && !Occurs(s, sep)
    ensures Split(s, sep) == [s]
  {
    FindSpec(s, sep);
  }

  /** Python `s.replace(p, v)` for a non-empty pattern: every non-overlapping
      occurrence, found left to right, is replaced; the replacement text is
      not rescanned. */
  function Replace(s: string, p: string, v: string): string
    requires |p| > 0
    decreases |s|
  {
    var i := Find(s, p);
    if i < 0 then s else s[..i] + v + Replace(s[i + |p|..], p, v)
  }

  /** Joining the pieces of a split with the same separator gives back the
      original text. */
  lemma {:induction false} JoinSplit(s: string, sep: string)
    requires |sep| > 0
    ensures Join(Split(s, sep), sep) == s
    decreases |s|
  {
    var i := Find(s, sep);
    FindSpec(s, sep);
    if i >= 0 {
      var rest := s[i + |sep|..];
      var tail := Split(rest, sep);
      JoinSplit(rest, sep);
      var parts := [s[..i]] + tail;
      assert Split(s, sep) == parts;
      assert parts[1..] == tail;
      assert Join(parts, sep) == s[..i] + sep + Join(tail, sep);
      assert s == s[..i] + sep + rest;
    }
  }

  /** No piece of a split contains the separator. */
  lemma {:induction false} SplitPiecesFree(s: string, sep: string)
    requires |sep| > 0
    ensures forall k :: 0 <= k < |Split(s, sep)| ==> !Occurs(Split(s, sep)[k], sep)
    decreases |s|
  {
    var i := Find(s, sep);
    FindSpec(s, sep);
    if i >= 0 {
      SplitPiecesFree(s[i + |sep|..], sep);
      var first := s[..i];
      if Occurs(first, sep) {
        var j :| OccursAt(first, sep, j);
        OccursInSlice(s, sep, 0, i, j);
        assert false;
      }
    }
  }

  /** Text free of a one-character separator has no occurrence of it. */
  lemma NoSeparatorIn(s: string, sep: string)
    requires |sep| == 1
    requires forall j :: 0 <= j < |s| ==> s[j] != sep[0]
    ensures forall j :: !OccursAt(s, sep, j)
  {
    forall j | 0 <= j && j + 1 <= |s| ensures !OccursAt(s, sep, j) {
      assert s[j..j + 1][0] == s[j];
    }
  }

  /** Splitting text joined with a one-character separator that no part
      contains gives the parts back. */
  lemma {:induction false} SplitJoin(parts: seq<string>, sep: string)
    requires |sep| == 1 && |parts| >= 1
    requires forall k, j :: 0 <= k < |parts| && 0 <= j < |parts[k]| ==> parts[k][j] != sep[0]
    ensures Split(Join(parts, sep), sep) == parts
    decreases |parts|
  {
    var p0 := parts[0];
    NoSeparatorIn(p0, sep);
    if |parts| == 1 {
      FindSpec(p0, sep);
      assert Join(parts, sep) == p0;
    } else {
      var rest := Join(parts[1..], sep);
      var s := p0 + sep + rest;
      assert Join(parts, sep) == s;
      assert OccursAt(s, sep, |p0|) by {
        assert s[|p0|..|p0| + 1] == sep;
      }
      forall j | 0 <= j < |p0| ensures !OccursAt(s, sep, j) {
        assert !OccursAt(p0, sep, j);
        if j + 1 <= |p0| {
          assert s[j..j + 1] == p0[j..j + 1];
        }
      }
      var i := Find(s, sep);
      FindSpec(s, sep);
      assert i == |p0|;
      assert s[..i] == p0;
      assert s[i + 1..] == rest;
      SplitJoin(parts[1..], sep);
      assert parts == [p0] + parts[1..];
    }
  }

  /** Python's identity `s.replace(p, v) == v.join(s.split(p))`. */
  lemma {:induction false} ReplaceIsJoinOfSplit(s: string, p: string, v: string)
    requires |p| > 0
    ensures Replace(s, p, v) == Join(Split(s, p), v)
    decreases |s|
  {
    var i := Find(s, p);
    if i >= 0 {
      var rest := s[i + |p|..];
      var tail := Split(rest, p);
      ReplaceIsJoinOfSplit(rest, p, v);
      var parts := [s[..i]] + tail;
      assert Split(s, p) == parts;
      assert parts[1..] == tail;
      assert Join(parts, v) == s[..i] + v + Join(tail, v);
    }
  }

  /** Appending a character other than a one-character pattern does not
      move the pattern's first occurrence. */
  lemma {:induction false} FindFromAppend(s: string, p: string, c: char, i: nat)
    requires |p| == 1 && p[0] != c
    ensures FindFrom(s + [c], p, i) == FindFrom(s, p, i)
    decreases |s| + 1 - i
  {
    if i + 1 <= |s| {
      assert (s + [c])[i..i + 1] == s[i..i + 1];
      FindFromAppend(s, p, c, i + 1);
    } else if i == |s| {
      assert (s + [c])[i..i + 1] == [c];
    }
  }

  /** Replacing a one-character pattern commutes with appending another
      character. */
  lemma {:induction false} ReplaceAppend(s: string, p: string, v: string, c: char)
    requires |p| == 1 && p[0] != c
    ensures Replace(s + [c], p, v) == Replace(s, p, v) + [c]
    decreases |s|
  {
    FindFromAppend(s, p, c, 0);
    var i := Find(s, p);
    if i >= 0 {
      assert (s + [c])[..i] == s[..i];
      assert (s + [c])[i + 1..] == s[i + 1..] + [c];
      ReplaceAppend(s[i + 1..], p, v, c);
    }
  }

  /** Replacing a pattern by itself changes nothing. */
  lemma ReplaceBySelf(s: string, p: string)
    requires |p| > 0
    ensures Replace(s, p, p) == s
  {
    ReplaceIsJoinOfSplit(s, p, p);
    JoinSplit(s, p);
  }

  /** Replacement is the identity on text without the pattern. */
  lemma ReplaceAbsent(s: string, p: string, v: string)
    requires |p| > 0
    requires !Occurs(s, p)
    ensures Replace(s, p, v) == s
  {
    FindSpec(s, p);
  }

  /** A text that is exactly the pattern becomes exactly the value. */
  lemma ReplaceWhole(p: string, v: string)
    requires |p| > 0
    ensures Replace(p, p, v) == v
  {
    assert OccursAt(p, p, 0);
    assert p[|p|..] == [];
  }

  // ---------------------------------------------------------------------
  // Decimal digits

  function DigitChar(d: nat): char
    requires d < 10
  {
    ('0' as int + d) as char
  }

  function DigitValue(c: char): nat
    requires IsDigit(c)
  {
    c as int - '0' as int
  }

  predicate AllDigits(s: string) {
    forall i :: 0 <= i < |s| ==> IsDigit(s[i])
  }

  /** The number a string of decimal digits denotes (leading zeros allowed). */
  function DigitsValue(s: string): nat
    requires AllDigits(s)
  {
    if |s| == 0 then 0
    else DigitsValue(s[..|s| - 1]) * 10 + DigitValue(s[|s| - 1])
  }

  /** Python `str(n)` for `n >= 0`. */
  function NatToString(n: nat): (r: string)
    ensures |r| >= 1 && AllDigits(r)
  {
    if n < 10 then [DigitChar(n)] else NatToString(n / 10) + [DigitChar(n % 10)]
  }

  /** Python `str(n)` for any integer: a minus sign before the digits of a
      negative number. */
  function IntToString(n: int): (r: string)
    ensures |r| >= 1
    ensures n >= 0 ==> AllDigits(r)
    ensures n < 0 ==> r[0] == '-' && AllDigits(r[1..])
  {
    if n >= 0 then NatToString(n) else "-" + NatToString(-n)
  }

  /** Python `f"{n:04d}"` for `n >= 0`: zero-padded to at least four
      digits, never truncated. */
  function Pad4(n: nat): (r: string)
    ensures |r| >= 4 && AllDigits(r)
  {
    var d := NatToString(n);
    if |d| >= 4 then d else seq(4 - |d|, _ => '0') + d
  }

  lemma {:induction false} NatToStringRoundTrip(n: nat)
    ensures DigitsValue(NatToString(n)) == n
  {
    if n >= 10 {
      NatToStringRoundTrip(n / 10);
      var s := NatToString(n);
      assert s[..|s| - 1] == NatToString(n / 10);
    }
  }

  lemma {:induction false} ZerosValue(k: nat)
    ensures AllDigits(seq(k, _ => '0'))
    ensures DigitsValue(seq(k, _ => '0')) == 0
  {
    if k > 0 {
      ZerosValue(k - 1);
      assert seq(k, _ => '0')[..k - 1] == seq(k - 1, _ => '0');
    }
  }

  /** Leading zeros do not change the value of a digit string. */
  lemma {:induction false} LeadingZeros(k: nat, s: string)
    requires AllDigits(s)
    ensures AllDigits(seq(k, _ => '0') + s)
    ensures DigitsValue(seq(k, _ => '0') + s) == DigitsValue(s)
    decreases |s|
  {
    var z := seq(k, _ => '0');
    if |s| == 0 {
      ZerosValue(k);
      assert z + s == z;
    } else {
      var s' := s[..|s| - 1];
      LeadingZeros(k, s');
      assert (z + s)[..|z + s| - 1] == z + s';
    }
  }

  lemma Pad4RoundTrip(n: nat)
    ensures DigitsValue(Pad4(n)) == n
  {
    var d := NatToString(n);
    NatToStringRoundTrip(n);
    if |d| < 4 {
      LeadingZeros(4 - |d|, d);
    }
  }
}

=== FILE: wrappers.dfy ===
/** Option and Result types used across the model in place of Python's
    `None` and raised exceptions. */
module Wrappers {

  /** A value that may be absent (Python `None`). */
  datatype Option<+T> = None | Some(value: T) {

    /** The carried value, or `default` when absent. */
    function GetOr(default: T): T {
      match this
      case Some(v) => v
      case None => default
    }
  }

  /** Python `value or default` for an optional text: a missing or empty
      text gives the default. */
  function TextOr(v: Option<string>, default: string): (r: string)
    ensures v.Some? && v.value != "" ==> r == v.value
    ensures v.None? || v.value == "" ==> r == default
  {
    if v.Some? && v.value != "" then v.value else default
  }

  /** The outcome of an operation that can fail with a message. */
  datatype Result<+T> = Ok(value: T) | Err(msg: string) {

    predicate IsFailure() {
      Err?
    }

    function PropagateFailure<U>(): Result<U>
      requires Err?
    {
      Err(msg)
    }

    function Extract(): T
      requires Ok?
    {
      value
    }
  }
}
